=== FILE: README.md ===
# torrent-bot acquisition reconciliation, modelled in Dafny

torrent-bot keeps a store of wanted movies and TV shows. For each of them it finds
torrents through a Jackett indexer, hands the chosen torrent to a qBittorrent client,
and then keeps the stored state in step with the state of the torrent: SEARCHING,
DOWNLOADING, SEEDING, COMPLETED, and the PAUSED and DELETING states the probes also honour.
An older movie probe also writes DELETED. This project models the decisions at the
centre of that loop, as pure functions over the stored rows, the client's torrent
snapshots and the indexer's results:

- the reconciliation of one transfer with its torrent (`Probe.update_torrent_states`),
  the season copies of that loop in the two show probes, and the older movie version
  (modules `Reconcile`, `MovieProbe`, `TaskMovieProbe`, `SeriesProbe`, `TvShowProbe`);
- the aggregation of a show's state from its seasons' states (`Aggregation`);
- season discovery from the show catalog, the completeness test, the whole-season or
  per-episode download and the size ceilings (`TvShowProbe`, `SeriesProbe`, `Units`);
- query construction, result filtering and the stable ranking by seeders of both
  indexer clients (`Jackett`, `LegacyJackett`, `Candidates`, `Patterns`, `Text`);
- the store's validation: the allowed states, `update_movie`'s column check and SET
  clause, `dict_factory` and the movies table's constraints (`Database`,
  `LegacyDatabase`), and the movie form check (`Visuals`);
- the choice of the torrents to download and the retention cleanup of the movie finder
  and the movies bot (`MovieFinder`, `MoviesBot`).

Every operation returns the sequence of `Action`s it performs, in order (module
`Effects`):

- a command to the torrent client (query, remove, resume, stop, add);
- a write to the store;
- a search request to the indexer.

Searching is an `Indexer` function from the query string and the category to the raw
results. The client's answer for a hash is a `TorrentLookup` function. The time is an
integer `now`, in seconds since the epoch. Dates are day numbers. A `StateStore` (a map
from table and row id to the stored state) gives the writes their meaning: `Apply` runs
them in order. The lemmas about an operation's outcome are stated through `Apply`.

Where the source is not valid Python (`src/probes/tv_show_probe.py` lines 155, 162,
170 and 177-178), the model takes the evident intent:

- `is_season_complete` holds when every episode is still SEARCHING and the last
  episode aired at least one whole day ago;
- an empty episode list is not complete;
- `download` takes the episode number it is passed and filters on it.

## Model

| member | source | states |
|---|---|---|
| States.Parse | src/probes/probe.py:89-109 | A stored state string is read back only when it is the spelling of some state, and then as that state |
| States.ParseName | src/probes/probe.py:89-109 | Every state survives being written and read back under its stored spelling |
| Units.MbToBytes | src/probes/probe.py:140-149 | The byte value is an exact multiple of 1048576 whose quotient is the megabyte value, and it is never below a non-negative input |
| Units.MbToBytesMonotone | src/tasks/movie_finder.py:86-95 | The conversion preserves order in both directions and is injective, so a byte ceiling compares as its megabyte value does |
| Units.MbToBytesScale | src/probes/tv_show_probe.py:145 | Converting the episode ceiling and then multiplying by the episode count equals converting the product |
| Units.ElapsedDays | src/tasks/series_probe.py:92-93 | The whole days between a day's midnight and `now` are the floor of the elapsed seconds over 86400 |
| Units.ElapsedDaysMonotone | src/tasks/series_probe.py:93 | The whole days elapsed never decrease as `now` grows |
| Text.ContainsIff | src/tools/jackett.py:70-72 | The substring test used by the year and language filters succeeds exactly when the text occurs at some position |
| Text.JoinSplit | src/probes/movie_probe.py:68-69 | Joining the comma-split pieces of a resolution profile gives back the profile |
| Text.SplitJoin | src/probes/movie_probe.py:68-69 | Splitting a join of comma-free pieces gives back the pieces |
| Text.Dedup | src/probes/movie_probe.py:68-69 | The set built from the split profile holds exactly the pieces, each once |
| Patterns.SearchFromIff | src/tools/jackett.py:132-137 | A pattern search succeeds exactly when the pattern matches at some start position, as `re.search` does |
| Candidates.Insert | src/tools/jackett.py:79 | One insertion step of the ranking adds the result and drops nothing |
| Candidates.InsertSorted | src/tools/jackett.py:79 | Inserting into a list ranked by seeders keeps it ranked |
| Candidates.InsertStable | src/tools/jackett.py:79 | An insertion keeps the relative order of the results with any one seeder count, the new one coming first |
| Candidates.SortBySeeders | src/tools/jackett.py:79 | The ranking is non-increasing in seeders, a permutation of its input, and stable: ties keep their order |
| Candidates.FirstIsBest | src/tools/jackett.py:79 | The first ranked result has at least as many seeders as every result |
| Jackett.QueryString | src/tools/jackett.py:49-53 | The query is the bare name exactly when the resolution lower-cases to 'any', and otherwise name, '+', resolution |
| Jackett.MovieRejection | src/tools/jackett.py:68-78 | A movie result survives the `continue` chain exactly when it meets every filter; size and seed boundaries pass, and the imdb filter needs both ids truthy and different |
| Jackett.KeepMovies | src/tools/jackett.py:62-78 | The results of one query that are kept are exactly those that pass the movie filters |
| Jackett.GatherMovies | src/tools/jackett.py:48-78 | The accumulated list holds exactly the passing results of the queries for all resolutions |
| Jackett.SearchMovies | src/tools/jackett.py:24-79 | The answer passes every filter, is ranked by seeders, is a permutation of the accumulated list and keeps ties in query and result order |
| Jackett.NoDeduplication | src/tools/jackett.py:48-79 | A result returned for two resolution queries appears twice in the answer |
| Jackett.BestMovie | src/tasks/movie_probe.py:92-93 | The movie chosen is absent exactly when no result passes; otherwise it passes the filters and has the most seeders |
| Jackett.SeriesRejection | src/tools/jackett.py:126-139 | A series result survives exactly when it meets size, language, seeds, season pattern, the episode rule for the episode asked or not asked, and the imdb filter |
| Jackett.KeepSeries | src/tools/jackett.py:120-139 | The results of one series query that are kept are exactly those that pass the series filters |
| Jackett.GatherSeries | src/tools/jackett.py:106-139 | The accumulated list holds exactly the passing results of the series queries for all resolutions |
| Jackett.SearchTvSeries | src/tools/jackett.py:81-141 | The series answer passes every filter, is ranked by seeders, is a permutation of the accumulated list and is stable |
| LegacyJackett.LegacyQueryString | tbot/jackett/client.py:45-48 | The query is always name, '+', resolution: it starts with the name, the '+' follows it, and the rest is the resolution |
| LegacyJackett.KeepLegacyMovies | tbot/jackett/client.py:57-65 | The movie results kept are exactly those meeting the size, year, language and seed filters, with boundaries passing |
| LegacyJackett.GatherLegacyMovies | tbot/jackett/client.py:43-65 | The accumulated list holds exactly the passing results of every resolution's query |
| LegacyJackett.LegacySearchMovies | tbot/jackett/client.py:21-66 | The answer passes the filters, is ranked by seeders and is a permutation of the passing results |
| LegacyJackett.SameMovieFilters | tbot/jackett/client.py:57-65 | Without an imdb id the two clients' movie filters agree |
| LegacyJackett.KeepSame | tbot/jackett/client.py:57-65 | Without an imdb id the two clients keep the same results of a query, in the same order |
| LegacyJackett.LegacyAgreesWithoutAny | tbot/jackett/client.py:44-65 | With no 'any' resolution and no imdb id, both clients accumulate the same list |
| LegacyJackett.LegacySearchAgrees | tbot/jackett/client.py:21-66 | With no 'any' resolution and no imdb id, both clients give the same answer |
| LegacyJackett.AnyIsLiteral | tbot/jackett/client.py:47 | The legacy client sends 'any' as part of the query, and the current one sends the bare name |
| LegacyJackett.KeepLegacySeries | tbot/jackett/client.py:105-113 | The series results kept are exactly those meeting size, language, seeds and the legacy season pattern |
| LegacyJackett.GatherLegacySeries | tbot/jackett/client.py:91-113 | The accumulated series list holds exactly the passing results of every resolution's query |
| LegacyJackett.LegacySearchTvSeries | tbot/jackett/client.py:69-114 | The series answer passes the filters, is ranked by seeders and is a permutation of the passing results |
| LegacyJackett.LegacySeasonStricter | tbot/jackett/client.py:111 | Every title the legacy season pattern finds, the current pattern finds too |
| LegacyJackett.LegacySeasonNeedsSeparator | tbot/jackett/client.py:111 | "s2" is season 2 for the current pattern but not for the legacy one, which needs one character between prefix and number |
| Effects.ApplyWrite | src/probes/probe.py:112-138 | A write changes or removes only the row it addresses |
| Effects.ApplyLocal | src/probes/probe.py:112-138 | Writes confined to one row leave every other row as it was |
| Effects.ApplyAppend | src/probes/probe.py:87-110 | Running two action sequences one after the other is running their concatenation |
| Effects.ApplyNoWrites | src/probes/probe.py:81 | Client commands and searches leave the store unchanged |
| Effects.ApplyOneWrite | src/probes/probe.py:101-102 | A single write, alone or after a client command, has the effect of that write |
| Reconcile.ParseKind | src/probes/probe.py:77-78 | Exactly SEASON, EPISODE and MOVIE are accepted as types, each as itself |
| Reconcile.TableOf | src/probes/probe.py:112-138 | A type addresses the episodes, seasons or movies table, never the shows table |
| Reconcile.LeafStep | src/probes/probe.py:87-110 | For one torrent: resume iff not PAUSED and the torrent is paused; stop iff PAUSED and it is not; COMPLETED iff SEEDING and strictly older than the retention period; SEEDING iff DOWNLOADING and exactly "uploading"; delete iff DELETING; remove iff DELETING or expired |
| Reconcile.LeafSteps | src/probes/probe.py:87-110 | Over all torrents, each action happens iff some torrent triggers it, and no other action is produced |
| Reconcile.ReconcileLeaf | src/probes/probe.py:80-110 | The client is queried first; no torrent deletes the entry and sends nothing else; every write goes to the entry's own row; resume and stop are never both sent; each transition happens exactly under its condition |
| Reconcile.UpdateTorrentStates | src/probes/probe.py:68-110 | An unknown type raises before any query or write; otherwise the first action is the query and all writes go to the type's table and the given id |
| Reconcile.LeafTouchesOwnRow | src/probes/probe.py:112-138 | Every write addresses the entry's own row and every command its own torrent |
| Reconcile.ApplyLeafStep | src/probes/probe.py:87-110 | One pass deletes a DELETING entry and otherwise moves it to the reference next state |
| Reconcile.LeafOutcome | src/probes/probe.py:80-110 | With one torrent the entry is gone exactly when it was DELETING, otherwise it holds the reference state; no other row changes |
| Reconcile.LeafOrphanDeleted | src/probes/probe.py:83-85 | With no torrent the entry is removed and no command but the query is sent |
| Reconcile.LeafConverges | src/probes/probe.py:87-110 | With an unchanged torrent, two reconciliations lead to a state whose next one writes nothing |
| Reconcile.SeasonSteps | src/probes/tv_show_probe.py:242-261 | For the season loop: resume iff not PAUSED and some torrent paused; the SEEDING, DOWNLOADING and PAUSED branches are exclusive and each acts exactly under its condition |
| Reconcile.SeasonStep | src/probes/tv_show_probe.py:242-261 | For one torrent: resume iff the season is not PAUSED and the torrent is paused; removal and COMPLETED iff SEEDING and expired; SEEDING iff DOWNLOADING and uploading; stop iff PAUSED and the torrent is not paused |
| Reconcile.ReconcileSeason | src/probes/tv_show_probe.py:231-261 | SEARCHING and COMPLETED seasons are skipped without a query; otherwise the query comes first, writes go only to the season's row, and a season without torrent is left as it is |
| Aggregation.Precedence | src/probes/tv_show_probe.py:215-221 | The precedence rule applies iff SEARCHING, DOWNLOADING or PAUSED is among the season states, and picks the first present in that order |
| Aggregation.Unanimous | src/probes/tv_show_probe.py:222-228 | The unanimity rule applies iff the season states are all COMPLETED or all SEEDING and the show's state read with the row differs |
| Aggregation.Aggregate | src/probes/tv_show_probe.py:214-228 | The show's resulting state follows the precedence order, then unanimity, and is otherwise unchanged; a changed state is always one of the season states |
| Aggregation.RulesExclusive | src/probes/tv_show_probe.py:215-228 | The precedence and unanimity rules never both write |
| Aggregation.AggregateWrites | src/probes/tv_show_probe.py:214-228 | At most one show write is issued, carrying the aggregate state, and none iff neither rule applies |
| Aggregation.AggregateApplied | src/probes/tv_show_probe.py:214-228 | After the writes the show holds the aggregate state and no other row changes |
| Aggregation.AggregateIdempotent | src/probes/tv_show_probe.py:214-228 | Aggregating again over the same season states changes nothing |
| Aggregation.UnanimousExamples | src/probes/tv_show_probe.py:222-228 | {SEEDING} makes a downloading show SEEDING, {COMPLETED} makes a seeding show COMPLETED, and SEARCHING wins over a mix |
| Aggregation.MixedOrDeletingUnchanged | src/probes/tv_show_probe.py:222-228 | {SEEDING, COMPLETED} and {DELETING} leave the show's state unchanged |
| TvShowProbe.NewSeasonEpisodes | src/probes/tv_show_probe.py:111-116 | A new season gains exactly its catalog episodes that carry an air date |
| TvShowProbe.RefreshEpisodes | src/probes/tv_show_probe.py:119-131 | The last known season gains only unknown dated episodes, all of them, and has its count rewritten |
| TvShowProbe.DiscoverSeason | src/probes/tv_show_probe.py:104-131 | An unknown season is added with its catalog size and dated episodes; only the last known season is refreshed; other known seasons are left alone |
| TvShowProbe.DiscoverSeasons | src/probes/tv_show_probe.py:104-131 | The loop's actions are exactly those of every catalog season |
| TvShowProbe.SearchSeasons | src/probes/tv_show_probe.py:91-131 | Discovery adds every unknown season with its episode count, adds only dated catalog episodes, and touches only the show's seasons |
| TvShowProbe.DiscoveredShape | src/probes/tv_show_probe.py:104-131 | Every discovery action adds a season or an episode of the show, or rewrites the last season's count |
| TvShowProbe.DiscoveredComplete | src/probes/tv_show_probe.py:106-116 | Every unknown season and every dated episode of it is added |
| TvShowProbe.LastSeasonRefreshed | src/probes/tv_show_probe.py:118-128 | Every unknown dated episode of the last known season is added |
| TvShowProbe.ResolutionSet | src/probes/tv_show_probe.py:137 | The profile's resolutions are exactly its comma-separated pieces |
| TvShowProbe.IsSeasonComplete | src/probes/tv_show_probe.py:169-178 | A season is complete exactly when it is not empty, no episode has left SEARCHING and its last episode aired at least a whole day ago |
| TvShowProbe.SeasonCompleteStable | src/probes/tv_show_probe.py:169-178 | Completeness is never lost as time passes, and one episode out of SEARCHING rules it out |
| TvShowProbe.SeasonCompleteExamples | src/probes/tv_show_probe.py:175-178 | A season whose last episode aired yesterday is complete; one airing today or tomorrow is not |
| TvShowProbe.SeasonQuery | src/probes/tv_show_probe.py:180-186 | The search carries the name, the season, the episode and the resolutions, the ceiling in bytes, two seeds, and no language or imdb id |
| TvShowProbe.Download | src/probes/tv_show_probe.py:180-193 | The search converts the ceiling and asks for two seeds; with a result the most-seeded one is submitted and its hash returned, else nothing but the search happens |
| TvShowProbe.EpisodeDownload | src/probes/tv_show_probe.py:154-167 | Only a SEARCHING episode is searched; a found hash marks the chosen row DOWNLOADING with that hash, and without a hash there is no store write |
| TvShowProbe.EpisodeDownloads | src/probes/tv_show_probe.py:153-167 | The per-episode branch does exactly what each episode's pass does |
| TvShowProbe.WholeSeasonDownload | src/probes/tv_show_probe.py:143-151 | One search without an episode; the season becomes DOWNLOADING with the hash iff one is found, and the only write is that mark |
| TvShowProbe.SeasonDownload | src/probes/tv_show_probe.py:133-167 | A complete season is searched whole and only the season is written; otherwise the per-episode branch runs |
| TvShowProbe.DownloadSeasonAsWritten | src/probes/tv_show_probe.py:138-167 | As written, the whole-season ceiling and every per-episode ceiling are converted to bytes twice, and episode hits are written to the row whose id is the season's |
| TvShowProbe.DownloadSeason | src/probes/tv_show_probe.py:133-167 | The season ceiling is the episode ceiling times the episode count, converted once; per-episode searches carry the episode number and mark that episode's own row |
| TvShowProbe.EpisodeCeilingOverconverted | src/probes/tv_show_probe.py:154-162 | As written, every per-episode search asks for 1048576 times the episode ceiling in bytes; as intended, for the episode ceiling in bytes |
| TvShowProbe.SeasonCeilingOverconverted | src/probes/tv_show_probe.py:138-145 | As written, the whole-season ceiling is 1048576 times the intended one |
| TvShowProbe.SeasonCeilingExample | src/probes/tv_show_probe.py:180-186 | For 10 episodes of 1000 MB the ceiling sent is 10995116277760000 bytes instead of 10485760000 |
| TvShowProbe.EpisodeWriteMisdirected | src/probes/tv_show_probe.py:164-167 | As written, a found episode's own row is never marked; as intended, it is |
| TvShowProbe.RemoveSeasonTorrents | src/probes/tv_show_probe.py:204-206 | A torrent is removed for every season with a non-empty hash and for no other |
| TvShowProbe.DeleteOneShow | src/probes/tv_show_probe.py:203-207 | One show's block: a removal for each season with a hash, and no other, all before the show row's deletion, which comes last |
| TvShowProbe.DeleteShows | src/probes/tv_show_probe.py:200-207 | Every show in DELETING is deleted, its hashed seasons' torrents are removed, and nothing else is written |
| TvShowProbe.DeleteShowsInOrder | src/probes/tv_show_probe.py:202-207 | The shows are handled one after another in the order read, each as its own block |
| TvShowProbe.SeasonStates | src/probes/tv_show_probe.py:214 | The season states read for a show are exactly those of its seasons in the store, and none iff it has no season there |
| TvShowProbe.RowStep | src/probes/tv_show_probe.py:210-261 | One season row writes only its show's or its season's state and commands only its season's torrent |
| TvShowProbe.UpdateRows | src/probes/tv_show_probe.py:209-261 | Every action of the season loop belongs to one of the rows |
| TvShowProbe.Update | src/probes/tv_show_probe.py:195-261 | Every show in DELETING is deleted, and no other row is ever deleted |
| TvShowProbe.SingleRowAggregates | src/probes/tv_show_probe.py:209-261 | For one row, the show ends in the aggregate of the season states read before the writes |
| SeriesProbe.IsSeasonComplete | src/tasks/series_probe.py:91-93 | An empty season raises; otherwise complete iff strictly more than two whole days passed since the last release day |
| SeriesProbe.DiscoverMissing | src/tasks/series_probe.py:69-72 | Every unknown complete season is added with its episode count and nothing else is added; an empty unknown season raises |
| SeriesProbe.DownloadStoredSeason | src/tasks/series_probe.py:77-89 | Only a SEARCHING season is searched; a found hash marks it DOWNLOADING with that hash, and without a hash there is no store write |
| SeriesProbe.DownloadStoredSeasons | src/tasks/series_probe.py:77-89 | The loop does exactly what each season's pass does: every SEARCHING season with a found hash is marked DOWNLOADING with it, and every write is such a mark |
| SeriesProbe.SeasonNumbers | src/tasks/series_probe.py:66 | The known numbers are the stored seasons' numbers, in order |
| SeriesProbe.ProbeSeriesWith | src/tasks/series_probe.py:56-89 | A failed guide lookup does not stop the download of stored SEARCHING seasons; writes only add unknown seasons or mark SEARCHING seasons DOWNLOADING |
| SeriesProbe.ProbeSeriesAsWritten | src/tasks/series_probe.py:56-89 | As written, each season is searched with the episode ceiling converted twice |
| SeriesProbe.ProbeSeries | src/tasks/series_probe.py:56-108 | Each SEARCHING season is searched with the episode ceiling times the episode count, converted once |
| SeriesProbe.ProbeSeriesWithMarksFound | src/tasks/series_probe.py:56-89 | Unless a guide season raises, every SEARCHING season whose search found a hash is marked DOWNLOADING with it; every write other than an added season is such a mark |
| SeriesProbe.ProbeSeriesMarksFound | src/tasks/series_probe.py:56-108 | The same for the probe with the season ceiling converted once |
| SeriesProbe.StoredSeasonsActions | src/tasks/series_probe.py:77-89 | Every SEARCHING stored season is searched with its own ceiling; every search and every write belongs to a SEARCHING season |
| SeriesProbe.SeriesCeilingOverconverted | src/tasks/series_probe.py:95-101 | As written, the season ceiling is 1048576 times the intended one |
| SeriesProbe.ReconcileStored | src/tasks/series_probe.py:114-141 | A stored season that is not skipped is queried, and its actions address only its own row and torrent |
| SeriesProbe.ReconcileSeasons | src/tasks/series_probe.py:113-141 | Every non-skipped season is queried and every action belongs to one season |
| SeriesProbe.DeleteOneSeries | src/tasks/series_probe.py:146-149 | A series is removed by a torrent removal for every season hash, set or not, then its row deletion |
| SeriesProbe.DeleteSeries | src/tasks/series_probe.py:143-149 | The deletion pass does exactly what each series' deletion does |
| SeriesProbe.Update | src/tasks/series_probe.py:110-149 | Every series in DELETING is deleted with all its season hashes removed, and every action belongs to a season or a deleted series |
| MovieProbe.ProfileResolutions | src/probes/movie_probe.py:68-69 | The searched resolutions are exactly the profile's comma-separated pieces, each once |
| MovieProbe.MovieSearch | src/probes/movie_probe.py:66-72 | The search uses the movie's name, its ceiling in bytes, comma-free resolutions and two seeds |
| MovieProbe.SubmitBest | src/probes/movie_probe.py:73-83 | Without a result only the search happens; with one, the best magnet is submitted and the movie marked DOWNLOADING with its hash |
| MovieProbe.SubmitBestOutcome | src/probes/movie_probe.py:73-83 | The movie is DOWNLOADING iff a result was found, and the store is unchanged otherwise |
| MovieProbe.ProbeMovie | src/probes/movie_probe.py:65-83 | Probing one movie searches it and can only submit or mark that movie |
| MovieProbe.ProbeMovieOutcome | src/probes/movie_probe.py:65-83 | A SEARCHING movie ends DOWNLOADING iff some result passes, and stays SEARCHING otherwise |
| MovieProbe.Probe | src/probes/movie_probe.py:62-83 | Every SEARCHING movie is searched, and every action belongs to one of them |
| MovieProbe.MovieKindParsed | src/probes/movie_probe.py:103 | The MOVIE type is accepted |
| MovieProbe.ReconcileMovie | src/probes/movie_probe.py:103 | The movie reconciliation never raises, queries first, writes only the movie's row and deletes it iff the torrent is gone or the movie is DELETING |
| MovieProbe.ReconcileMovieIsLeaf | src/probes/movie_probe.py:103 | It is the shared transfer reconciliation on the movies table |
| MovieProbe.ReconciledAreUpdateActions | src/probes/movie_probe.py:103 | A reconciled movie's actions address only its own row and torrent |
| MovieProbe.UpdateMovie | src/probes/movie_probe.py:89-103 | SEARCHING and COMPLETED movies are left alone; a movie without a hash is deleted without a query; every other one is queried and reconciled |
| MovieProbe.UpdateMovieOutcome | src/probes/movie_probe.py:89-103 | With one torrent a hashed movie follows the reference state machine, or is gone when it was DELETING |
| MovieProbe.Update | src/probes/movie_probe.py:85-103 | Every hashless, non-skipped movie is deleted and every action belongs to a movie |
| TaskMovieProbe.Profile | src/tasks/movie_probe.py:73-83 | An absent profile gives the six-entry default; as written, resolution i is the stored string's i-th character alone; as intended, the stored string is split at commas and joins back to itself |
| TaskMovieProbe.TaskSearch | src/tasks/movie_probe.py:71-91 | The search uses the name, the profile, the ceiling in bytes and two seeds |
| TaskMovieProbe.ProbeOne | src/tasks/movie_probe.py:49-60 | Only a SEARCHING movie is searched, and it can only be submitted and marked DOWNLOADING |
| TaskMovieProbe.ProbeWith | src/tasks/movie_probe.py:45-60 | Every SEARCHING movie is searched, and every action belongs to one of them |
| TaskMovieProbe.ProbeAsWritten | src/tasks/movie_probe.py:73-91 | As written, the stored profile is searched one character at a time |
| TaskMovieProbe.Probe | src/tasks/movie_probe.py:45-93 | Every SEARCHING movie is searched with its comma-separated profile |
| TaskMovieProbe.ProfilePerCharacter | src/tasks/movie_probe.py:73-91 | As written, "720p,1080p" becomes ten one-character resolutions, the first query being "movie+7" |
| TaskMovieProbe.ProfileCommaSeparated | src/tasks/movie_probe.py:73-91 | Split at commas, the same profile gives its two resolutions |
| TaskMovieProbe.TaskStep | src/tasks/movie_probe.py:108-115 | For one torrent, the torrent is removed iff the movie is SEEDING and expired; the movie's state is advanced (SEEDING to COMPLETED, anything else to SEEDING) iff it is SEEDING and expired or otherwise the torrent is exactly "uploading"; nothing else is issued, each action at most once, the removal before the write |
| TaskMovieProbe.TaskSteps | src/tasks/movie_probe.py:108-115 | Over all torrents, the loop's write happens iff some torrent fires it, and the removal iff a SEEDING movie expired |
| TaskMovieProbe.ApplySameState | src/tasks/movie_probe.py:108-115 | Repeated writes of one state to one row leave it in that state, or leave the store as it was when there is none |
| TaskMovieProbe.UpdateMovieWith | src/tasks/movie_probe.py:99-115 | A skipped movie is left alone; otherwise it is queried, marked DELETED iff no torrent is reported, and moved by the loop iff a torrent fires it |
| TaskMovieProbe.UpdateMovieOutcome | src/tasks/movie_probe.py:99-115 | One update moves the movie's row to the reference state and changes nothing else |
| TaskMovieProbe.CompletedRelabelledDeleted | src/tasks/movie_probe.py:103-113 | As written, a movie completed on one pass is marked DELETED on the next |
| TaskMovieProbe.CompletedStaysCompleted | src/tasks/movie_probe.py:103-107 | Skipping COMPLETED, as the newer probe does, keeps a completed movie completed |
| TaskMovieProbe.UpdateWith | src/tasks/movie_probe.py:95-115 | Every non-skipped movie is queried and every write addresses one of the movies |
| TaskMovieProbe.UpdateAsWritten | src/tasks/movie_probe.py:98-105 | As written, every movie but a SEARCHING one is queried, COMPLETED ones included |
| TaskMovieProbe.Update | src/tasks/movie_probe.py:95-115 | Every movie neither SEARCHING nor COMPLETED is queried |
| MovieFinder.FinderSearch | src/tasks/movie_finder.py:32-52 | The search uses the name, the stored profile, the ceiling in bytes, no language and two seeds |
| MovieFinder.StartOne | src/tasks/movie_finder.py:46-63 | The best result's magnet is submitted iff there is a result, and the only write keeps name, size and resolutions and sets DOWNLOADING |
| MovieFinder.StartOneSubmits | src/tasks/movie_finder.py:55-63 | With a result, the search is followed by one submission and one rewrite |
| MovieFinder.SubmissionApplied | src/tasks/movie_finder.py:55-63 | A submission followed by the row rewrite changes only that row, to DOWNLOADING; the client command writes nothing |
| MovieFinder.StartOneOutcome | src/tasks/movie_finder.py:53-63 | An empty result leaves the store unchanged; otherwise the movie becomes DOWNLOADING |
| MovieFinder.StartDownloadWith | src/tasks/movie_finder.py:30-63 | Every SEARCHING movie is searched and every write rewrites one of them |
| MovieFinder.StartDownloadAsWritten | src/tasks/movie_finder.py:34-52 | As written, the stored profile is searched one character at a time |
| MovieFinder.StartDownload | src/tasks/movie_finder.py:23-63 | Every SEARCHING movie is searched with its comma-separated profile |
| MovieFinder.SelectExpired | src/tasks/movie_finder.py:72-77 | A hash is selected iff its completed torrent is strictly older than the retention period |
| MovieFinder.SelectExpiredAppend | src/tasks/movie_finder.py:74-77 | The selection distributes over concatenation, so the client's order is kept |
| MovieFinder.SelectExpiredBoundary | src/tasks/movie_finder.py:76 | A torrent exactly the retention period old is kept, and one a second older is selected |
| MovieFinder.Cleanup | src/tasks/movie_finder.py:65-79 | Exactly one removal is sent, carrying exactly the expired hashes, even when there are none |
| MoviesBot.BotSearch | tbot/bots/movies_bot.py:29-51 | The size is passed unconverted, the default profile is used when `res` is absent, and two seeds are asked for |
| MoviesBot.StartOne | tbot/bots/movies_bot.py:44-56 | Only the most-seeded result is submitted, and nothing when there is none; nothing is written |
| MoviesBot.StartDownload | tbot/bots/movies_bot.py:21-56 | Every listed movie is searched, with at most one submission each |
| MoviesBot.BotCleanup | tbot/bots/movies_bot.py:58-71 | Exactly one removal is sent, carrying exactly the completed torrents older than the retention period |
| Database.AllowedStates | src/data/database.py:19-25 | The allowed states are exactly SEARCHING, DOWNLOADING, SEEDING, COMPLETED and DELETED |
| Database.AllowedOnlyStateNames | src/data/database.py:19-25 | Every allowed value reads back as a state |
| Database.WithState | src/data/database.py:57-60 | The query answers exactly the rows in that state |
| Database.GetMovies | src/data/database.py:49-60 | A state outside the allowed ones raises; otherwise exactly the rows in that state are returned |
| Database.UpdateMovieSpec | src/data/database.py:73-105 | The update raises iff no keyword is given or one is not a column; otherwise the values are bound in keyword order, then the id |
| Database.UpdateMovie | src/data/database.py:83-104 | The loop that accumulates `key=?, `, stops at an unknown key and trims the trailing separator computes the specified statement |
| Database.UpdateMovieExample | src/data/database.py:96-104 | `state` and `hash` give `state=?, hash=?` with the values then the id bound |
| Database.DictFactory | src/data/database.py:112-125 | The keys are exactly the column names, and each maps to the value at its last position; `dict_factory` of tbot/data/database.py is the same function |
| Database.InsertMovie | src/data/database.py:36-43 | An insert fails iff the name is taken; a new row defaults to SEARCHING and has no hash |
| Database.InsertKeepsNamesUnique | src/data/database.py:38 | Inserting keeps movie names unique |
| LegacyDatabase.LegacyGetAgrees | tbot/data/database.py:45-56 | For a state both stores allow, the earlier store answers the same rows as the current one |
| LegacyDatabase.LegacyGetMovies | tbot/data/database.py:45-56 | A state outside the four raises; otherwise exactly the rows in that state are returned, none of them with a hash |
| LegacyDatabase.LegacyStatesAreCurrentButDeleted | tbot/data/database.py:18-22 | The earlier store allows exactly the current store's states except DELETED |
| LegacyDatabase.DeletedOnlyInCurrent | tbot/data/database.py:51-52 | Asking the earlier store for DELETED movies raises, and the current one answers |
| LegacyDatabase.LegacyUpdateMovie | tbot/data/database.py:81-86 | The update binds name, size, resolutions, state and id, in that order |
| LegacyDatabase.LegacyUpdateIsKeywordUpdate | tbot/data/database.py:69-87 | The earlier update is the current keyword update given all four data columns in order |
| Visuals.ValidateMovieFields | src/visuals/visuals.py:169-200 | A missing field raises; otherwise valid iff the name has at least 3 characters, the size is at least 1 and the profile is allowed; each failing check, and only those, flashes its message, in check order |
| Visuals.ParametersIgnored | src/visuals/visuals.py:183-195 | The values passed in make no difference: the form is read instead |
| Visuals.ValidationBoundaries | src/visuals/visuals.py:184-192 | A 3-character name and a size of 1 pass, while a 2-character name and a size of 0 fail with both messages |

## Left out

- Network, store and client I/O: the indexer, the catalogs and the torrent client are
  functions given as inputs, and the store is a map from row to state. `src/tools/qbit.py`,
  `src/tools/epguides.py` and `src/tools/imdb_finder.py` are not part of this model.
- The run loops, `start`, `new`, `shutdown`, configuration loading, logging and `print`
  have no effect on the decisions and are left out.
- The loop of `TVShowProbe.probe` over the shows (`src/probes/tv_show_probe.py:80-89`) is
  left out: it only calls `search_seasons` and `download_season`, which are modelled.
- The loop of `TVSeriesProbe.probe` over the series is modelled one series at a time
  (`SeriesProbe.ProbeSeriesWith`).
- Regular expressions are not modelled by a regex engine. Each of the four fixed patterns
  has a matcher of its own shape, with `re.search`'s scan over start positions.
- `str.lower()` is modelled for ASCII letters only.
- Dates are day numbers, not `strptime` results. A malformed date is not modelled.
- Python `set(...)` iteration order is taken as first-occurrence order (`Text.Dedup`),
  since Python leaves it unspecified.
- A NULL hash and an empty hash are both the empty string: Python treats both as false.
- Python integers are unbounded, so the unbounded `int` needs no wrap-around.
- The store's other queries (shows, seasons, episodes) are inputs. For example,
  `get_season_states` is the set of the shows' season states in the store
  (`TvShowProbe.SeasonStates`).
- `src/data/database.py` `get_all_movies` and `close` are plain reads and are left out.
- Database.DictFactory: requires at least as many row values as columns. SQLite always
  gives equal counts; fewer values would raise `IndexError`, which is not modelled.
- Database.UpdateMovie: the keyword arguments are a sequence, which admits a repeated key
  that Python keyword arguments cannot carry. A repeated key is accepted as the loop
  accepts it.
- Visuals.ValidateMovieFields: a check that raises after earlier checks flashed a message
  drops those messages. Flask's `flash` category is not modelled.
- TvShowProbe.Update: the deletion pass and the confinement of deletions are stated for
  the whole run. The effect of the season loop on the store is stated for a single row
  only (`TvShowProbe.SingleRowAggregates`).
- TvShowProbe.UpdateRows: only states that every action belongs to some row. What each
  row does is stated by `Aggregation.AggregateWrites` and `Reconcile.ReconcileSeason`.
- SeriesProbe.ProbeSeriesWith: a guide season number is an integer, where the source
  compares `int(season_number)` but adds the guide's key as it stands.
- MovieFinder.StartDownloadWith: the finder is modelled against the store of
  `tbot/data/database.py`, whose `SEARCHING` attribute it reads. As wired in
  `src/tbot.py:39-49` it is given the store of `src/data/database.py`, which keeps its
  states in a `states` dictionary and has no `SEARCHING` attribute, so `start_download`
  would raise `AttributeError` there before any search. That failure is not modelled.
- MovieProbe.Probe, MovieProbe.Update and States.Parse: the probes are modelled against
  a store that offers dotted state attributes, PAUSED and DELETING among them
  (`src/probes/probe.py:89-109`, `src/probes/movie_probe.py:65,95`), the queries
  `get_movies_by_state` and `delete_movie` (`src/probes/movie_probe.py:65,100`), and a
  `resolution_profile` column on movies (`src/probes/movie_probe.py:68-69`). The store of
  `src/data/database.py` has none of these: it keeps five states in a `states`
  dictionary (lines 19-25) and names the movies column `resolutions` (line 40). Against
  it, the probes would raise `AttributeError` or call `split` on None. Those failures are
  not modelled.
- SeriesProbe.ProbeSeries and SeriesProbe.ProbeSeriesAsWritten: the series row's
  `resolutions` value is taken as a list of resolutions and handed to the indexer client
  as it is (`src/tasks/series_probe.py:64`).
  The series schema is not part of this model. If that column is text, like the other
  resolution columns, the client would iterate it character by character, as the two
  movie tasks do in the Findings below.
- MoviesBot.StartDownload: the legacy client does not take an imdb id, so the query's
  imdb field is ignored by it.

## Findings

| source | as written | input that shows it | evidently intended | confidence | as-written member | corrected member |
|---|---|---|---|---|---|---|
| src/probes/tv_show_probe.py:138-185 | The per-episode ceiling is converted to bytes at line 138, multiplied by the episode count at line 145 or passed as it is at line 160, and converted again inside `download` at line 185 | 10 episodes of at most 1000 MB: the whole-season search ceiling is 10995116277760000 bytes instead of 10485760000, and each per-episode search's is 1099511627776000 instead of 1048576000 | The season ceiling is the episode ceiling times the number of episodes, and the episode ceiling is the episode's own, each converted once | high, not executed | TvShowProbe.DownloadSeasonAsWritten | TvShowProbe.DownloadSeason |
| src/tasks/series_probe.py:63,83,100 | `probe` converts the episode ceiling at line 63, multiplies it by the episode count at line 83, and `download_full_season` converts it again at line 100 | Any SEARCHING season with a non-zero ceiling: the ceiling sent is 1048576 times the intended one | The season ceiling is converted once | high, not executed | SeriesProbe.ProbeSeriesAsWritten | SeriesProbe.ProbeSeries |
| src/probes/tv_show_probe.py:164-167 | A found episode's hash is written with `id=season_id` | An incomplete season with row id 3 whose SEARCHING episode has row id 12 and is found: the write goes to episode row 3, and episode 12 stays SEARCHING | The found episode's own row is marked DOWNLOADING with the hash | high, not executed | TvShowProbe.EpisodeWriteMisdirected | TvShowProbe.DownloadSeason |
| src/tasks/movie_probe.py:73-91 | `movie.get("resolutions", …)` returns the stored text, and the indexer client iterates it character by character | The stored profile "720p,1080p" is searched as ten one-character resolutions, the first query being "movie+7" | The stored profile is split at commas into its resolutions, like the six-entry default list | medium, not executed | TaskMovieProbe.ProfilePerCharacter | TaskMovieProbe.ProfileCommaSeparated |
| src/tasks/movie_finder.py:34-52 | The same reading of the stored resolutions text in the movie finder | The stored profile "720p,1080p" is searched one character at a time | The stored profile is split at commas | medium, not executed | MovieFinder.StartDownloadAsWritten | MovieFinder.StartDownload |
| src/tasks/movie_probe.py:103-107 | `update` skips only SEARCHING, so a COMPLETED movie, whose torrent was removed, is queried again | A SEEDING movie past the retention period becomes COMPLETED, and on the next pass the client reports nothing, so it is marked DELETED | COMPLETED is final and skipped, as in `src/probes/movie_probe.py:95` | medium, not executed | TaskMovieProbe.CompletedRelabelledDeleted | TaskMovieProbe.CompletedStaysCompleted |

=== FILE: aggregation.dfy ===
/** How `TVShowProbe.update` recomputes a show's state from the set of its seasons'
    states: a precedence rule (SEARCHING, then DOWNLOADING, then PAUSED) that writes
    whenever it applies, and a unanimity rule for finished shows. */
module Aggregation {
  import opened Wrappers
  import opened States
  import opened Effects

  /** The first of SEARCHING, DOWNLOADING, PAUSED present among the season states. */
  function Precedence(seasons: set<State>): (r: Option<State>)
    ensures r.Some? <==> Searching in seasons || Downloading in seasons || Paused in seasons
    ensures r.Some? ==> r.value in seasons
    ensures r == Some(Downloading) ==> Searching !in seasons
    ensures r == Some(Paused) ==> Searching !in seasons && Downloading !in seasons
  {
    if Searching in seasons then Some(Searching)
    else if Downloading in seasons then Some(Downloading)
    else if Paused in seasons then Some(Paused)
    else None
  }

  /** A single season state, COMPLETED or SEEDING, that the show does not have yet. The
      show state tested is the one read with the season row, not the one the precedence
      rule may just have written. */
  function Unanimous(showState: State, seasons: set<State>): (r: Option<State>)
    ensures r.Some? <==> showState !in seasons && (seasons == {Completed} || seasons == {Seeding})
    ensures r.Some? ==> seasons == {r.value}
  {
    if |seasons| == 1 && showState !in seasons then
      if Completed in seasons then SingletonIs(seasons, Completed); Some(Completed)
      else if Seeding in seasons then SingletonIs(seasons, Seeding); Some(Seeding)
      else None
    else None
  }

  lemma SingletonIs(s: set<State>, x: State)
    requires |s| == 1 && x in s
    ensures s == {x}
  {
    assert |s - {x}| == 0;
  }

  /** The show state the two rules lead to. */
  function Aggregate(showState: State, seasons: set<State>): (r: State)
    ensures Searching in seasons ==> r == Searching
    ensures Searching !in seasons && Downloading in seasons ==> r == Downloading
    ensures Searching !in seasons && Downloading !in seasons && Paused in seasons ==> r == Paused
    ensures seasons == {Completed} || seasons == {Seeding} ==> seasons == {r}
    ensures r != showState ==> r in seasons
    ensures (Searching !in seasons && Downloading !in seasons && Paused !in seasons
             && seasons != {Completed} && seasons != {Seeding}) ==> r == showState
  {
    match Precedence(seasons)
    case Some(s) => s
    case None => Unanimous(showState, seasons).GetOr(showState)
  }

  /** The two rules never both write. */
  lemma RulesExclusive(showState: State, seasons: set<State>)
    ensures !(Precedence(seasons).Some? && Unanimous(showState, seasons).Some?)
  {
  }

  /** The show updates issued for one season row, in source order. */
  function AggregateWrites(showId: int, showState: State, seasons: set<State>): (r: seq<Action>)
    ensures |r| <= 1
    ensures forall a :: a in r ==> a == Store(SetState(Shows, showId, Aggregate(showState, seasons)))
    ensures r == [] <==> Precedence(seasons).None? && Unanimous(showState, seasons).None?
  {
    (match Precedence(seasons)
     case Some(s) => [Store(SetState(Shows, showId, s))]
     case None => [])
    + (match Unanimous(showState, seasons)
       case Some(s) => [Store(SetState(Shows, showId, s))]
       case None => [])
  }

  /** Applying the writes to a store in which the show has the state that was read
      leaves the show in the aggregate state and changes no other row. */
  lemma AggregateApplied(m: StateStore, showId: int, seasons: set<State>)
    requires (Shows, showId) in m
    ensures var m' := Apply(m, AggregateWrites(showId, m[(Shows, showId)], seasons));
      m' == m[(Shows, showId) := Aggregate(m[(Shows, showId)], seasons)]
  {
    var s := m[(Shows, showId)];
    var r := AggregateWrites(showId, s, seasons);
    if r == [] {
      assert m[(Shows, showId) := s] == m;
    } else {
      assert r == [Store(SetState(Shows, showId, Aggregate(s, seasons)))];
      ApplyOneWrite(m, Query(""), SetState(Shows, showId, Aggregate(s, seasons)));
    }
  }

  /** Aggregating again with the same season states changes nothing. */
  lemma AggregateIdempotent(showState: State, seasons: set<State>)
    ensures Aggregate(Aggregate(showState, seasons), seasons) == Aggregate(showState, seasons)
  {
  }

  /** Seasons that all finished seeding complete the show; a single seeding season makes
      it seeding. */
  lemma UnanimousExamples()
    ensures Aggregate(Downloading, {Seeding}) == Seeding
    ensures Aggregate(Seeding, {Completed}) == Completed
    ensures Aggregate(Completed, {Searching, Seeding}) == Searching
  {
  }

  /** A mix of finished states, or a show whose seasons are all being deleted, keeps the
      show's state. */
  lemma MixedOrDeletingUnchanged(showState: State)
    ensures Aggregate(showState, {Seeding, Completed}) == showState
    ensures Aggregate(showState, {Deleting}) == showState
  {
    assert {Seeding, Completed} != {Completed} by { assert Seeding !in {Completed}; }
    assert {Seeding, Completed} != {Seeding} by { assert Completed !in {Seeding}; }
  }
}

=== FILE: candidates.dfy ===
/** Search results returned by the indexer and their ranking: Python's
    `sorted(results, key=lambda i: i['Seeders'], reverse=True)`, a stable sort by
    seeder count, highest first. */
module Candidates {
  import opened Wrappers

  /** One indexer result: `Title`, `Size`, `Seeders`, `Imdb`, `MagnetUri`, `InfoHash`. */
  datatype Candidate = Candidate(
    title: string,
    size: int,
    seeders: int,
    imdb: Option<int>,
    magnet: string,
    infoHash: string)

  ghost predicate NonIncreasing(s: seq<Candidate>) {
    forall i, j :: 0 <= i < j < |s| ==> s[i].seeders >= s[j].seeders
  }

  /** The results with exactly `k` seeders, in their order in `s`. Stability of a sort
      is the statement that this subsequence is the same before and after. */
  function WithSeeders(s: seq<Candidate>, k: int): seq<Candidate>
    decreases |s|
  {
    if s == [] then []
    else (if s[0].seeders == k then [s[0]] else []) + WithSeeders(s[1..], k)
  }

  /** Places `x` before the first element with no more seeders than `x`. */
  function Insert(x: Candidate, s: seq<Candidate>): (r: seq<Candidate>)
    ensures multiset(r) == multiset(s) + multiset{x}
    decreases |s|
  {
    if s == [] || x.seeders >= s[0].seeders then [x] + s
    else
      assert s == [s[0]] + s[1..];
      [s[0]] + Insert(x, s[1..])
  }

  lemma {:induction false} InsertSorted(x: Candidate, s: seq<Candidate>)
    requires NonIncreasing(s)
    ensures NonIncreasing(Insert(x, s))
    decreases |s|
  {
    if s != [] && x.seeders < s[0].seeders {
      var t := Insert(x, s[1..]);
      InsertSorted(x, s[1..]);
      forall c | c in t ensures c.seeders <= s[0].seeders {
        assert c in multiset(t);
        assert c == x || c in multiset(s[1..]);
      }
      ConsSorted(s[0], t);
    }
  }

  /** A sorted tail behind a head with at least as many seeders as any of it is sorted. */
  lemma ConsSorted(h: Candidate, t: seq<Candidate>)
    requires NonIncreasing(t)
    requires forall c :: c in t ==> c.seeders <= h.seeders
    ensures NonIncreasing([h] + t)
  {
    var r := [h] + t;
    forall i, j | 0 <= i < j < |r| ensures r[i].seeders >= r[j].seeders {
      if i == 0 {
        assert r[j] in t;
      } else {
        assert r[i] == t[i - 1] && r[j] == t[j - 1];
      }
    }
  }

  /** In a sorted list the head has the most seeders. */
  lemma HeadIsMax(s: seq<Candidate>)
    requires NonIncreasing(s) && s != []
    ensures forall c :: c in s ==> s[0].seeders >= c.seeders
  {
    forall c | c in s ensures s[0].seeders >= c.seeders {
      var j :| 0 <= j < |s| && s[j] == c;
    }
  }

  lemma {:induction false} InsertStable(x: Candidate, s: seq<Candidate>, k: int)
    ensures WithSeeders(Insert(x, s), k) == (if x.seeders == k then [x] else []) + WithSeeders(s, k)
    decreases |s|
  {
    if s == [] || x.seeders >= s[0].seeders {
      assert ([x] + s)[1..] == s;
    } else {
      var t := Insert(x, s[1..]);
      InsertStable(x, s[1..], k);
      assert ([s[0]] + t)[1..] == t;
    }
  }

  /** The ranking applied to every search: sorted by seeders, highest first, ties in
      their original order, nothing added or dropped. */
  function SortBySeeders(s: seq<Candidate>): (r: seq<Candidate>)
    ensures NonIncreasing(r)
    ensures multiset(r) == multiset(s)
    ensures forall k :: WithSeeders(r, k) == WithSeeders(s, k)
    decreases |s|
  {
    if s == [] then []
    else
      var t := SortBySeeders(s[1..]);
      assert s == [s[0]] + s[1..];
      InsertSorted(s[0], t);
      assert forall k :: WithSeeders(Insert(s[0], t), k) == WithSeeders(s, k) by {
        forall k ensures WithSeeders(Insert(s[0], t), k) == WithSeeders(s, k) {
          InsertStable(s[0], t, k);
        }
      }
      Insert(s[0], t)
  }

  /** The first ranked result has at least as many seeders as every result. */
  lemma {:induction false} FirstIsBest(s: seq<Candidate>)
    requires s != []
    ensures SortBySeeders(s) != []
    ensures forall c :: c in s ==> SortBySeeders(s)[0].seeders >= c.seeders
  {
    var r := SortBySeeders(s);
    assert multiset(r) == multiset(s);
    assert s[0] in multiset(r);
    forall c | c in s ensures r[0].seeders >= c.seeders {
      assert c in multiset(r);
      var j :| 0 <= j < |r| && r[j] == c;
    }
  }
}

=== FILE: database.dfy ===
/** The movie store of src/data/database.py with the SQLite connection replaced by the
    statement it is given: the allowed state values, the state check of the query by
    state, the SET clause `update_movie` builds from its keyword arguments, the row
    mapping of `dict_factory`, and the constraints of the movies table. */
module Database {
  import opened Wrappers
  import opened Text
  import opened States

  /** A value bound to a statement parameter or read from a column. */
  datatype Value = IntValue(i: int) | TextValue(s: string) | NullValue

  /** The values of the `states` map, in declaration order. */
  const StateValues: seq<string> := ["SEARCHING", "DOWNLOADING", "SEEDING", "COMPLETED", "DELETED"]

  predicate AllowedState(s: string) {
    s in StateValues
  }

  /** The allowed values are the stored spellings of every state but PAUSED and DELETING. */
  lemma AllowedStates(s: State)
    ensures AllowedState(Name(s)) <==> s != Paused && s != Deleting
  {
  }

  lemma AllowedOnlyStateNames(v: string)
    ensures AllowedState(v) ==> Parse(v).Some?
  {
  }

  /** A row of the movies table. */
  datatype MovieRecord = MovieRecord(id: int, name: string, maxSizeMb: int, resolutions: string, state: string, hash: Option<string>)

  /** `SELECT * FROM movies WHERE state=?`, in table order. */
  function WithState(table: seq<MovieRecord>, state: string): (r: seq<MovieRecord>)
    ensures forall m :: m in r <==> m in table && m.state == state
    ensures |r| <= |table|
    decreases |table|
  {
    if table == [] then []
    else (if table[0].state == state then [table[0]] else []) + WithState(table[1..], state)
  }

  /** `get_movies`: a state outside the allowed values raises before the query. */
  function GetMovies(table: seq<MovieRecord>, state: string): (r: Result<seq<MovieRecord>>)
    ensures r.Failure? <==> !AllowedState(state)
    ensures r.Success? ==> forall m :: m in r.value <==> m in table && m.state == state
  {
    if !AllowedState(state) then Failure("Non allowed state=" + state + "!")
    else Success(WithState(table, state))
  }

  /** The columns `update_movie` accepts as keyword arguments. */
  const MovieColumns: seq<string> := ["name", "max_size_mb", "resolutions", "state", "hash"]

  /** An SQL text with the values bound to its parameters, in order. */
  datatype Statement = Statement(sql: string, params: seq<Value>)

  function Keys(kwargs: seq<(string, Value)>): (r: seq<string>)
    ensures |r| == |kwargs| && forall i :: 0 <= i < |kwargs| ==> r[i] == kwargs[i].0
  {
    seq(|kwargs|, i requires 0 <= i < |kwargs| => kwargs[i].0)
  }

  function Values(kwargs: seq<(string, Value)>): (r: seq<Value>)
    ensures |r| == |kwargs| && forall i :: 0 <= i < |kwargs| ==> r[i] == kwargs[i].1
  {
    seq(|kwargs|, i requires 0 <= i < |kwargs| => kwargs[i].1)
  }

  /** `key=?` for every key. */
  function Assignments(keys: seq<string>): (r: seq<string>)
    ensures |r| == |keys| && forall i :: 0 <= i < |keys| ==> r[i] == keys[i] + "=?"
  {
    seq(|keys|, i requires 0 <= i < |keys| => keys[i] + "=?")
  }

  /** Every part followed by ", ": the string the loop of `update_movie` accumulates. */
  function Terminated(parts: seq<string>): string
    decreases |parts|
  {
    if parts == [] then "" else parts[0] + ", " + Terminated(parts[1..])
  }

  lemma {:induction false} TerminatedSnoc(parts: seq<string>, p: string)
    ensures Terminated(parts + [p]) == Terminated(parts) + p + ", "
    decreases |parts|
  {
    if parts == [] {
      assert [p][1..] == [];
    } else {
      assert (parts + [p])[1..] == parts[1..] + [p];
      TerminatedSnoc(parts[1..], p);
    }
  }

  /** Dropping the trailing ", " of the accumulated string leaves the parts joined. */
  lemma {:induction false} TerminatedIsJoin(parts: seq<string>)
    requires parts != []
    ensures Terminated(parts) == Join(parts, ", ") + ", "
    decreases |parts|
  {
    if |parts| > 1 {
      TerminatedIsJoin(parts[1..]);
    } else {
      assert parts[1..] == [];
    }
  }

  lemma PrefixStep(kwargs: seq<(string, Value)>, i: int)
    requires 0 <= i < |kwargs|
    ensures Assignments(Keys(kwargs[..i + 1])) == Assignments(Keys(kwargs[..i])) + [kwargs[i].0 + "=?"]
    ensures Values(kwargs[..i + 1]) == Values(kwargs[..i]) + [kwargs[i].1]
  {
  }

  /** Dropping the last two characters of `s + ", "` gives back `s`. */
  lemma DropSeparator(s: string)
    ensures (s + ", ")[..|s + ", "| - 2] == s
  {
  }

  /** Every keyword argument names a column. */
  predicate AllKnown(kwargs: seq<(string, Value)>) {
    forall i :: 0 <= i < |kwargs| ==> kwargs[i].0 in MovieColumns
  }

  /** The fixed text around the SET clause of the movie update. */
  const SetPrefix := "UPDATE movies SET "
  const WhereId := " WHERE id=?"

  const NoArgument := "At least one argument must be specified"
  const UnknownKey := "The key argument must be one of the following: ['name', 'max_size_mb', 'resolutions', 'state', 'hash']"

  /** What `update_movie` executes, or the exception it raises: no keyword argument, or
      one that names no column. */
  function UpdateMovieSpec(id: Value, kwargs: seq<(string, Value)>): (r: Result<Statement>)
    ensures r.Failure? <==> kwargs == [] || exists i :: 0 <= i < |kwargs| && kwargs[i].0 !in MovieColumns
    ensures r.Success? ==> |r.value.params| == |kwargs| + 1 && r.value.params[|kwargs|] == id
    ensures r.Success? ==> forall i :: 0 <= i < |kwargs| ==> r.value.params[i] == kwargs[i].1
  {
    if kwargs == [] then Failure(NoArgument)
    else if !AllKnown(kwargs) then Failure(UnknownKey)
    else
      Success(Statement(SetPrefix + Join(Assignments(Keys(kwargs)), ", ") + WhereId, Values(kwargs) + [id]))
  }

  /** The loop of `update_movie`: accumulate `key=?, ` and the values, stop at the first
      unknown key, then drop the trailing ", " and bind the id last. */
  method UpdateMovie(id: Value, kwargs: seq<(string, Value)>) returns (r: Result<Statement>)
    ensures r == UpdateMovieSpec(id, kwargs)
  {
    if kwargs == [] {
      return Failure(NoArgument);
    }
    var columns := "";
    var values: seq<Value> := [];
    var i := 0;
    while i < |kwargs|
      invariant 0 <= i <= |kwargs|
      invariant columns == Terminated(Assignments(Keys(kwargs[..i])))
      invariant values == Values(kwargs[..i])
      invariant forall j :: 0 <= j < i ==> kwargs[j].0 in MovieColumns
    {
      var (key, value) := kwargs[i];
      if key !in MovieColumns {
        assert !AllKnown(kwargs);
        return Failure(UnknownKey);
      }
      PrefixStep(kwargs, i);
      TerminatedSnoc(Assignments(Keys(kwargs[..i])), key + "=?");
      columns := columns + key + "=?, ";
      values := values + [value];
      i := i + 1;
    }
    assert kwargs[..i] == kwargs;
    assert AllKnown(kwargs);
    var joined := Join(Assignments(Keys(kwargs)), ", ");
    TerminatedIsJoin(Assignments(Keys(kwargs)));
    DropSeparator(joined);
    values := values + [id];
    columns := columns[..|columns| - 2];
    assert columns == joined;
    return Success(Statement(SetPrefix + columns + WhereId, values));
  }

  /** Two keyword arguments give the two assignments in argument order. */
  lemma UpdateMovieExample()
    ensures UpdateMovieSpec(IntValue(7), [("state", TextValue("SEEDING")), ("hash", TextValue("ab"))])
      == Success(Statement(SetPrefix + "state=?, hash=?" + WhereId, [TextValue("SEEDING"), TextValue("ab"), IntValue(7)]))
  {
    var kwargs := [("state", TextValue("SEEDING")), ("hash", TextValue("ab"))];
    assert Keys(kwargs) == ["state", "hash"];
    assert MovieColumns[3] == "state" && MovieColumns[4] == "hash";
    assert AllKnown(kwargs);
    var a := Assignments(["state", "hash"]);
    assert a[0] == "state" + "=?" == "state=?";
    assert a[1] == "hash" + "=?" == "hash=?";
    assert a == ["state=?", "hash=?"];
    assert ["state=?", "hash=?"][1..] == ["hash=?"];
    assert Join(["state=?", "hash=?"], ", ") == "state=?" + ", " + "hash=?" == "state=?, hash=?";
    assert Values(kwargs) + [IntValue(7)] == [TextValue("SEEDING"), TextValue("ab"), IntValue(7)];
  }

  /** Column `i` is the last column of that name. */
  ghost predicate LastOccurrence(columns: seq<string>, i: int)
    requires 0 <= i < |columns|
  {
    forall j :: i < j < |columns| ==> columns[j] != columns[i]
  }

  /** `dict_factory`: the i-th column name maps to the i-th value; of two columns with the
      same name the later one wins. */
  method DictFactory(columns: seq<string>, row: seq<Value>) returns (r: map<string, Value>)
    requires |columns| <= |row|
    ensures forall c :: c in r <==> c in columns
    ensures forall i :: 0 <= i < |columns| && LastOccurrence(columns, i) ==> r[columns[i]] == row[i]
  {
    r := map[];
    var idx := 0;
    while idx < |columns|
      invariant 0 <= idx <= |columns|
      invariant forall c :: c in r <==> c in columns[..idx]
      invariant forall i :: 0 <= i < idx && (forall j :: i < j < idx ==> columns[j] != columns[i]) ==> r[columns[i]] == row[i]
    {
      assert columns[..idx + 1] == columns[..idx] + [columns[idx]];
      r := r[columns[idx] := row[idx]];
      idx := idx + 1;
    }
    assert columns[..idx] == columns;
  }

  /** What the movies table admits: a fresh row takes SEARCHING when no state is given,
      and a name already present is refused by the UNIQUE constraint. */
  function InsertMovie(table: seq<MovieRecord>, id: int, name: string, maxSizeMb: int, resolutions: string, state: Option<string>): (r: Result<seq<MovieRecord>>)
    ensures r.Failure? <==> exists i :: 0 <= i < |table| && table[i].name == name
    ensures r.Success? ==> |r.value| == |table| + 1 && r.value[..|table|] == table
    ensures r.Success? ==> r.value[|table|].name == name && r.value[|table|].hash.None?
    ensures r.Success? && state.None? ==> r.value[|table|].state == "SEARCHING"
  {
    if exists i :: 0 <= i < |table| && table[i].name == name then Failure("UNIQUE constraint failed: movies.name")
    else Success(table + [MovieRecord(id, name, maxSizeMb, resolutions, state.GetOr(Name(Searching)), None)])
  }

  ghost predicate UniqueNames(table: seq<MovieRecord>) {
    forall i, j :: 0 <= i < j < |table| ==> table[i].name != table[j].name
  }

  /** Insertion keeps movie names unique. */
  lemma InsertKeepsNamesUnique(table: seq<MovieRecord>, id: int, name: string, maxSizeMb: int, resolutions: string, state: Option<string>)
    requires UniqueNames(table)
    ensures InsertMovie(table, id, name, maxSizeMb, resolutions, state).Success? ==>
      UniqueNames(InsertMovie(table, id, name, maxSizeMb, resolutions, state).value)
  {
  }
}

=== FILE: effects.dfy ===
/** What the core does to the outside world, as data. Every operation returns the
    sequence of actions it performs, in order: commands to the torrent client, writes
    to the entity store and requests to the indexer. A store of row states gives the
    writes their meaning. */
module Effects {
  import opened Wrappers
  import opened Text
  import opened States
  import opened Jackett

  type Hash = string

  /** One entry of the client's `torrents_info` answer: `hash`, `state`, `added_on`. */
  datatype Torrent = Torrent(hash: Hash, state: string, addedOn: int)

  /** The torrent client's answer to `torrents_info(hashes=h)`. */
  type TorrentLookup = Hash -> seq<Torrent>

  datatype Table = Shows | Seasons | Episodes | Movies

  datatype Command =
    | Query(hash: Hash)                 // torrents_info(hashes=hash)
    | Remove(hashes: seq<Hash>)         // delete: removes the torrents, keeps the files
    | Resume(hash: Hash)
    | Stop(hash: Hash)
    | Add(magnet: string, dir: string)  // download(magnet, dir)

  datatype Write =
    | SetState(table: Table, id: int, state: State)
    | SetStateAndHash(table: Table, id: int, state: State, hash: Hash)
    | DeleteRow(table: Table, id: int)
    | AddSeason(showId: int, seasonNumber: int, episodeCount: int)
    | AddEpisode(showId: int, seasonNumber: int, episodeNumber: int, airDate: string)
    | SetEpisodeCount(showId: int, seasonNumber: int, episodeCount: int)
    | SetMovieFields(id: int, name: string, maxSizeMb: int, resolutions: string, state: State)

  datatype Action =
    | Client(command: Command)
    | Store(write: Write)
    | FindMovie(movieQuery: MovieQuery)
    | FindSeries(seriesQuery: SeriesQuery)

  /** The actions performed before the operation returned or raised, and the message of
      the exception it raised, if any. */
  datatype Run = Run(actions: seq<Action>, raised: Option<string>)

  /** `int(time.time()) - int(added_on) > retention`: strictly older than the period. */
  predicate Expired(now: int, addedOn: int, retention: int) {
    now - addedOn > retention
  }

  /** `'paused' in state.lower()`. */
  predicate IsPausedState(s: string) {
    Contains(Lower(s), "paused")
  }

  /** A write that marks row `id` of table `t` DOWNLOADING together with a non-empty hash. */
  predicate MarksDownloading(w: Write, t: Table, id: int) {
    w.SetStateAndHash? && w.table == t && w.id == id && w.state == Downloading && w.hash != ""
  }

  /** The row a write changes or removes, if it addresses an existing row. */
  function Target(w: Write): Option<(Table, int)> {
    match w
    case SetState(t, id, _) => Some((t, id))
    case SetStateAndHash(t, id, _, _) => Some((t, id))
    case DeleteRow(t, id) => Some((t, id))
    case SetMovieFields(id, _, _, _, _) => Some((Movies, id))
    case _ => None
  }

  /** The stored state of every existing row. */
  type StateStore = map<(Table, int), State>

  /** An UPDATE of a missing row changes nothing; a DELETE removes the row. */
  function ApplyWrite(m: StateStore, w: Write): (r: StateStore)
    ensures forall k :: Target(w) != Some(k) ==> (k in r <==> k in m) && (k in m ==> r[k] == m[k])
  {
    match w
    case SetState(t, id, s) => if (t, id) in m then m[(t, id) := s] else m
    case SetStateAndHash(t, id, s, _) => if (t, id) in m then m[(t, id) := s] else m
    case DeleteRow(t, id) => m - {(t, id)}
    case SetMovieFields(id, _, _, _, s) => if (Movies, id) in m then m[(Movies, id) := s] else m
    case _ => m
  }

  /** The store after the store writes among `actions`, in order. */
  function Apply(m: StateStore, actions: seq<Action>): StateStore
    decreases |actions|
  {
    if actions == [] then m
    else Apply(if actions[0].Store? then ApplyWrite(m, actions[0].write) else m, actions[1..])
  }

  /** Every store write among `actions` addresses row `key` or no existing row. */
  ghost predicate WritesOnlyTo(actions: seq<Action>, key: (Table, int)) {
    forall a :: a in actions && a.Store? ==> Target(a.write).None? || Target(a.write) == Some(key)
  }

  /** Writes confined to one row leave every other row as it was. */
  lemma {:induction false} ApplyLocal(m: StateStore, actions: seq<Action>, key: (Table, int))
    requires WritesOnlyTo(actions, key)
    ensures forall k :: k != key ==>
      (k in Apply(m, actions) <==> k in m) && (k in m ==> Apply(m, actions)[k] == m[k])
    decreases |actions|
  {
    if actions != [] {
      var m' := if actions[0].Store? then ApplyWrite(m, actions[0].write) else m;
      assert actions[0] in actions;
      assert forall a :: a in actions[1..] ==> a in actions;
      ApplyLocal(m', actions[1..], key);
    }
  }

  lemma {:induction false} ApplyAppend(m: StateStore, a: seq<Action>, b: seq<Action>)
    ensures Apply(m, a + b) == Apply(Apply(m, a), b)
    decreases |a|
  {
    if a == [] {
      assert a + b == b;
    } else {
      assert (a + b)[0] == a[0];
      assert (a + b)[1..] == a[1..] + b;
      ApplyAppend(if a[0].Store? then ApplyWrite(m, a[0].write) else m, a[1..], b);
    }
  }

  /** Client commands and indexer requests leave the store as it was. */
  lemma {:induction false} ApplyNoWrites(m: StateStore, actions: seq<Action>)
    requires forall a :: a in actions ==> !a.Store?
    ensures Apply(m, actions) == m
    decreases |actions|
  {
    if actions != [] {
      assert actions[0] in actions;
      assert forall a :: a in actions[1..] ==> a in actions;
      ApplyNoWrites(m, actions[1..]);
    }
  }

  /** A single write, possibly after a client command, is applied as it stands. */
  lemma ApplyOneWrite(m: StateStore, c: Command, w: Write)
    ensures Apply(m, [Store(w)]) == ApplyWrite(m, w)
    ensures Apply(m, [Client(c), Store(w)]) == ApplyWrite(m, w)
  {
    assert [Store(w)][1..] == [];
    assert [Client(c), Store(w)][1..] == [Store(w)];
  }
}

=== FILE: jackett.dfy ===
/** The indexer search client of src/tools/jackett.py with the HTTP request replaced by
    an `Indexer` oracle: given the query string and the category it returns the raw
    results. The client issues one query per resolution, drops every result a filter
    rejects, concatenates what remains and ranks it by seeders. */
module Jackett {
  import opened Wrappers
  import opened Text
  import opened Patterns
  import opened Candidates

  /** The indexer's answer to `query=<q>&category=<c>`. */
  type Indexer = (string, int) -> seq<Candidate>

  const MovieCategory: int := 2000
  const SeriesCategory: int := 5000

  /** The keyword arguments of `search_movies`; `None` stands for an omitted argument. */
  datatype MovieQuery = MovieQuery(
    name: string,
    resolutions: seq<string>,
    maxSize: Option<int>,
    year: Option<string>,
    lang: Option<string>,
    minSeeds: Option<int>,
    imdbid: Option<int>)

  /** The keyword arguments of `search_tvseries`. */
  datatype SeriesQuery = SeriesQuery(
    name: string,
    resolutions: seq<string>,
    season: int,
    maxSize: Option<int>,
    lang: Option<string>,
    minSeeds: Option<int>,
    episode: Option<int>,
    imdbid: Option<int>)

  /** Why a result was skipped: the first `continue` of the filter chain it hit. */
  datatype Rejection =
    | TooLarge | MissingYear | MissingLanguage | TooFewSeeds | ImdbMismatch
    | WrongSeason | UnwantedEpisode | WrongEpisode

  /** Python truthiness of an optional integer: present and non-zero. */
  predicate Truthy(o: Option<int>) {
    o.Some? && o.value != 0
  }

  /** The query string sent for one resolution. */
  function QueryString(name: string, res: string): (r: string)
    ensures StartsWith(r, name)
    ensures r == name <==> Lower(res) == "any"
    ensures r != name ==> r == name + "+" + res
  {
    if Lower(res) == "any" then name else name + "+" + res
  }

  /** The imdb filter: a result is dropped only when both ids are truthy and differ. */
  predicate ImdbAgrees(wanted: Option<int>, tracker: Option<int>) {
    !(Truthy(wanted) && Truthy(tracker) && tracker.value != wanted.value)
  }

  /** Every movie filter, stated as one conjunction; sizes and seed counts on the
      boundary pass. */
  predicate PassesMovie(q: MovieQuery, c: Candidate) {
    var title := Lower(c.title);
    && (q.maxSize.None? || c.size <= q.maxSize.value)
    && (q.year.None? || Contains(title, q.year.value))
    && (q.lang.None? || Contains(title, Lower(q.lang.value)))
    && (q.minSeeds.None? || c.seeders >= q.minSeeds.value)
    && ImdbAgrees(q.imdbid, c.imdb)
  }

  /** The `continue` chain of `search_movies` for one result, in source order. */
  function MovieRejection(q: MovieQuery, c: Candidate): (r: Option<Rejection>)
    ensures r.None? <==> PassesMovie(q, c)
  {
    var title := Lower(c.title);
    if q.maxSize.Some? && c.size > q.maxSize.value then Some(TooLarge)
    else if q.year.Some? && !Contains(title, q.year.value) then Some(MissingYear)
    else if q.lang.Some? && !Contains(title, Lower(q.lang.value)) then Some(MissingLanguage)
    else if q.minSeeds.Some? && c.seeders < q.minSeeds.value then Some(TooFewSeeds)
    else if Truthy(q.imdbid) && Truthy(c.imdb) && c.imdb.value != q.imdbid.value then Some(ImdbMismatch)
    else None
  }

  /** The results of one query that survive the filter chain, in indexer order. */
  function KeepMovies(q: MovieQuery, results: seq<Candidate>): (r: seq<Candidate>)
    ensures forall c :: c in r <==> c in results && PassesMovie(q, c)
    ensures |r| <= |results|
    decreases |results|
  {
    if results == [] then []
    else
      (if MovieRejection(q, results[0]).None? then [results[0]] else [])
      + KeepMovies(q, results[1..])
  }

  /** The accumulated `movies` list after the loop over `resolutions`. */
  function GatherMovies(q: MovieQuery, resolutions: seq<string>, indexer: Indexer): (r: seq<Candidate>)
    ensures forall c :: c in r <==>
      (exists i :: 0 <= i < |resolutions|
         && c in indexer(QueryString(q.name, resolutions[i]), MovieCategory))
      && PassesMovie(q, c)
    decreases |resolutions|
  {
    if resolutions == [] then []
    else
      var rest := GatherMovies(q, resolutions[1..], indexer);
      assert forall i :: 1 <= i < |resolutions| ==> resolutions[i] == resolutions[1..][i - 1];
      KeepMovies(q, indexer(QueryString(q.name, resolutions[0]), MovieCategory)) + rest
  }

  /** `search_movies`: passing results of every resolution query, ranked by seeders. */
  function SearchMovies(q: MovieQuery, indexer: Indexer): (r: seq<Candidate>)
    ensures forall c :: c in r ==> PassesMovie(q, c)
    ensures NonIncreasing(r)
    ensures multiset(r) == multiset(GatherMovies(q, q.resolutions, indexer))
    ensures forall k :: WithSeeders(r, k) == WithSeeders(GatherMovies(q, q.resolutions, indexer), k)
  {
    var all := GatherMovies(q, q.resolutions, indexer);
    var r := SortBySeeders(all);
    assert forall c :: c in r ==> c in multiset(all);
    r
  }

  /** The first ranked movie, the one the callers download, or None for no result. */
  function BestMovie(q: MovieQuery, indexer: Indexer): (r: Option<Candidate>)
    ensures r.None? <==> GatherMovies(q, q.resolutions, indexer) == []
    ensures r.Some? ==> r.value in GatherMovies(q, q.resolutions, indexer) && PassesMovie(q, r.value)
    ensures r.Some? ==> forall c :: c in GatherMovies(q, q.resolutions, indexer) ==> r.value.seeders >= c.seeders
  {
    var found := SearchMovies(q, indexer);
    var all := GatherMovies(q, q.resolutions, indexer);
    if found == [] then
      assert |all| == |multiset(all)| == |multiset(found)| == 0;
      None
    else
      assert found[0] in multiset(all);
      assert forall c :: c in all ==> c in multiset(found);
      Some(found[0])
  }

  /** Every series filter as one conjunction. */
  predicate PassesSeries(q: SeriesQuery, c: Candidate) {
    var title := Lower(c.title);
    && (q.maxSize.None? || c.size <= q.maxSize.value)
    && (q.lang.None? || Contains(title, Lower(q.lang.value)))
    && (q.minSeeds.None? || c.seeders >= q.minSeeds.value)
    && Search(SeasonOf(q.season), title)
    && (Truthy(q.episode) || !Search(AnyEpisode, title))
    && (!Truthy(q.episode) || Search(EpisodeOf(q.episode.value), title))
    && ImdbAgrees(q.imdbid, c.imdb)
  }

  /** The `continue` chain of `search_tvseries` for one result, in source order. */
  function SeriesRejection(q: SeriesQuery, c: Candidate): (r: Option<Rejection>)
    ensures r.None? <==> PassesSeries(q, c)
  {
    var title := Lower(c.title);
    if q.maxSize.Some? && c.size > q.maxSize.value then Some(TooLarge)
    else if q.lang.Some? && !Contains(title, Lower(q.lang.value)) then Some(MissingLanguage)
    else if q.minSeeds.Some? && c.seeders < q.minSeeds.value then Some(TooFewSeeds)
    else if !Search(SeasonOf(q.season), title) then Some(WrongSeason)
    else if !Truthy(q.episode) && Search(AnyEpisode, title) then Some(UnwantedEpisode)
    else if Truthy(q.episode) && !Search(EpisodeOf(q.episode.value), title) then Some(WrongEpisode)
    else if Truthy(q.imdbid) && Truthy(c.imdb) && c.imdb.value != q.imdbid.value then Some(ImdbMismatch)
    else None
  }

  function KeepSeries(q: SeriesQuery, results: seq<Candidate>): (r: seq<Candidate>)
    ensures forall c :: c in r <==> c in results && PassesSeries(q, c)
    decreases |results|
  {
    if results == [] then []
    else
      (if SeriesRejection(q, results[0]).None? then [results[0]] else [])
      + KeepSeries(q, results[1..])
  }

  function GatherSeries(q: SeriesQuery, resolutions: seq<string>, indexer: Indexer): (r: seq<Candidate>)
    ensures forall c :: c in r <==>
      (exists i :: 0 <= i < |resolutions|
         && c in indexer(QueryString(q.name, resolutions[i]), SeriesCategory))
      && PassesSeries(q, c)
    decreases |resolutions|
  {
    if resolutions == [] then []
    else
      var rest := GatherSeries(q, resolutions[1..], indexer);
      assert forall i :: 1 <= i < |resolutions| ==> resolutions[i] == resolutions[1..][i - 1];
      KeepSeries(q, indexer(QueryString(q.name, resolutions[0]), SeriesCategory)) + rest
  }

  /** `search_tvseries`: passing results of every resolution query, ranked by seeders. */
  function SearchTvSeries(q: SeriesQuery, indexer: Indexer): (r: seq<Candidate>)
    ensures forall c :: c in r ==> PassesSeries(q, c)
    ensures NonIncreasing(r)
    ensures multiset(r) == multiset(GatherSeries(q, q.resolutions, indexer))
    ensures forall k :: WithSeeders(r, k) == WithSeeders(GatherSeries(q, q.resolutions, indexer), k)
  {
    var all := GatherSeries(q, q.resolutions, indexer);
    var r := SortBySeeders(all);
    assert forall c :: c in r ==> c in multiset(all);
    r
  }

  /** Nothing is deduplicated: a result returned for two resolution queries appears
      once for each. */
  lemma {:induction false} NoDeduplication(q: MovieQuery, indexer: Indexer, c: Candidate)
    requires |q.resolutions| == 2
    requires indexer(QueryString(q.name, q.resolutions[0]), MovieCategory) == [c]
    requires indexer(QueryString(q.name, q.resolutions[1]), MovieCategory) == [c]
    requires PassesMovie(q, c)
    ensures multiset(SearchMovies(q, indexer))[c] == 2
  {
    assert q.resolutions[1..][1..] == [];
    assert KeepMovies(q, [c]) == [c];
    assert GatherMovies(q, q.resolutions[1..], indexer) == [c];
    assert GatherMovies(q, q.resolutions, indexer) == [c, c];
  }
}

=== FILE: legacy_database.dfy ===
/** The earlier movie store of tbot/data/database.py: four allowed states, a movies table
    without a hash column, and an update that always rewrites the four data columns. */
module LegacyDatabase {
  import opened Wrappers
  import opened Text
  import opened States
  import opened Database

  /** The allowed states of the earlier store, in declaration order. */
  const LegacyStateValues: seq<string> := ["SEARCHING", "DOWNLOADING", "SEEDING", "COMPLETED"]

  /** A row of the earlier movies table is read as a movie record without a hash: the
      earlier table has no hash column. */
  predicate LegacyRow(m: MovieRecord) {
    m.hash.None?
  }

  /** `get_movies` of the earlier store: a state outside its four raises. */
  function LegacyGetMovies(table: seq<MovieRecord>, state: string): (r: Result<seq<MovieRecord>>)
    ensures r.Failure? <==> state !in LegacyStateValues
    ensures r.Success? ==> forall m :: m in r.value <==> m in table && m.state == state
    ensures r.Success? ==> (forall m :: m in table ==> LegacyRow(m)) ==> forall m :: m in r.value ==> LegacyRow(m)
  {
    if state !in LegacyStateValues then Failure("Non allowed state=" + state + "!")
    else Success(WithState(table, state))
  }

  /** The earlier store accepts exactly the current one's states but DELETED. */
  lemma LegacyStatesAreCurrentButDeleted(s: string)
    ensures s in LegacyStateValues <==> AllowedState(s) && s != Name(Deleted)
  {
  }

  /** For a state both stores allow, both answer the same rows. */
  lemma LegacyGetAgrees(table: seq<MovieRecord>, state: string)
    requires state in LegacyStateValues
    ensures LegacyGetMovies(table, state) == GetMovies(table, state)
  {
    LegacyStatesAreCurrentButDeleted(state);
  }

  /** Asking the earlier store for DELETED movies raises; the current one answers. */
  lemma DeletedOnlyInCurrent(legacy: seq<MovieRecord>, current: seq<MovieRecord>)
    ensures LegacyGetMovies(legacy, "DELETED").Failure?
    ensures GetMovies(current, "DELETED").Success?
  {
    assert StateValues[4] == "DELETED";
  }

  /** The assignments of the earlier update, one per data column, comma separated. */
  const LegacyClause: string := "name=?" + ", " + "max_size_mb=?" + ", " + "resolutions=?" + ", " + "state=?"

  /** `update_movie` of the earlier store: the four data columns in a fixed order, then
      the id. */
  function LegacyUpdateMovie(id: Value, name: string, maxSizeMb: int, resolutions: string, state: string): (r: Statement)
    ensures r.params == [TextValue(name), IntValue(maxSizeMb), TextValue(resolutions), TextValue(state), id]
  {
    Statement(SetPrefix + LegacyClause + WhereId,
      [TextValue(name), IntValue(maxSizeMb), TextValue(resolutions), TextValue(state), id])
  }

  lemma JoinFour(p: string, q: string, t: string, u: string, sep: string)
    ensures Join([p, q, t, u], sep) == p + sep + q + sep + t + sep + u
  {
    assert [p, q, t, u][1..] == [q, t, u];
    assert [q, t, u][1..] == [t, u];
    assert [t, u][1..] == [u];
    assert Join([u], sep) == u;
    assert Join([t, u], sep) == t + sep + u;
    assert Join([q, t, u], sep) == q + sep + (t + sep + u);
    assert Join([p, q, t, u], sep) == p + sep + (q + sep + (t + sep + u));
  }

  lemma ClauseText()
    ensures Join(["name=?", "max_size_mb=?", "resolutions=?", "state=?"], ", ") == LegacyClause
  {
    JoinFour("name=?", "max_size_mb=?", "resolutions=?", "state=?", ", ");
  }

  /** The four data columns of the earlier update, as keyword arguments. */
  function DataColumns(name: string, maxSizeMb: int, resolutions: string, state: string): seq<(string, Value)> {
    [("name", TextValue(name)), ("max_size_mb", IntValue(maxSizeMb)),
     ("resolutions", TextValue(resolutions)), ("state", TextValue(state))]
  }

  lemma DataColumnsClause(name: string, maxSizeMb: int, resolutions: string, state: string)
    ensures AllKnown(DataColumns(name, maxSizeMb, resolutions, state))
    ensures Join(Assignments(Keys(DataColumns(name, maxSizeMb, resolutions, state))), ", ") == LegacyClause
  {
    var kwargs := DataColumns(name, maxSizeMb, resolutions, state);
    assert AllKnown(kwargs) by {
      assert MovieColumns[0] == "name" && MovieColumns[1] == "max_size_mb";
      assert MovieColumns[2] == "resolutions" && MovieColumns[3] == "state";
    }
    var a := Assignments(Keys(kwargs));
    assert a == ["name=?", "max_size_mb=?", "resolutions=?", "state=?"] by {
      assert a[0] == "name" + "=?" == "name=?";
      assert a[1] == "max_size_mb" + "=?" == "max_size_mb=?";
      assert a[2] == "resolutions" + "=?" == "resolutions=?";
      assert a[3] == "state" + "=?" == "state=?";
    }
    ClauseText();
  }

  /** The earlier fixed update is the current keyword update given the same four columns
      in the same order. */
  lemma LegacyUpdateIsKeywordUpdate(id: Value, name: string, maxSizeMb: int, resolutions: string, state: string)
    ensures UpdateMovieSpec(id, DataColumns(name, maxSizeMb, resolutions, state))
      == Success(LegacyUpdateMovie(id, name, maxSizeMb, resolutions, state))
  {
    var kwargs := DataColumns(name, maxSizeMb, resolutions, state);
    DataColumnsClause(name, maxSizeMb, resolutions, state);
    assert Values(kwargs) == [TextValue(name), IntValue(maxSizeMb), TextValue(resolutions), TextValue(state)];
    assert Values(kwargs) + [id] == [TextValue(name), IntValue(maxSizeMb), TextValue(resolutions), TextValue(state), id];
  }
}

=== FILE: legacy_jackett.dfy ===
/** The earlier indexer client of tbot/jackett/client.py: the query for every resolution
    is the name, a '+' and the resolution, with no 'any' case; movies are filtered by
    size, year, language and seeds only, series by size, language, seeds and a season
    pattern that needs exactly one character between the prefix and the number. */
module LegacyJackett {
  import opened Wrappers
  import opened Text
  import opened Patterns
  import opened Candidates
  import opened Jackett

  /** The query string for one resolution. */
  function LegacyQueryString(name: string, res: string): (r: string)
    ensures |r| == |name| + 1 + |res| && StartsWith(r, name) && r[|name|] == '+'
    ensures r[|name| + 1..] == res
  {
    name + "+" + res
  }

  /** The movie filters of the legacy client; there is no imdb filter. */
  predicate LegacyPassesMovie(q: MovieQuery, c: Candidate) {
    var title := Lower(c.title);
    && (q.maxSize.None? || c.size <= q.maxSize.value)
    && (q.year.None? || Contains(title, q.year.value))
    && (q.lang.None? || Contains(title, Lower(q.lang.value)))
    && (q.minSeeds.None? || c.seeders >= q.minSeeds.value)
  }

  function KeepLegacyMovies(q: MovieQuery, results: seq<Candidate>): (r: seq<Candidate>)
    ensures forall c :: c in r <==> c in results && LegacyPassesMovie(q, c)
    decreases |results|
  {
    if results == [] then []
    else
      (if LegacyPassesMovie(q, results[0]) then [results[0]] else [])
      + KeepLegacyMovies(q, results[1..])
  }

  function GatherLegacyMovies(q: MovieQuery, resolutions: seq<string>, indexer: Indexer): (r: seq<Candidate>)
    ensures forall c :: c in r <==>
      (exists i :: 0 <= i < |resolutions|
         && c in indexer(LegacyQueryString(q.name, resolutions[i]), MovieCategory))
      && LegacyPassesMovie(q, c)
    decreases |resolutions|
  {
    if resolutions == [] then []
    else
      var rest := GatherLegacyMovies(q, resolutions[1..], indexer);
      assert forall i :: 1 <= i < |resolutions| ==> resolutions[i] == resolutions[1..][i - 1];
      KeepLegacyMovies(q, indexer(LegacyQueryString(q.name, resolutions[0]), MovieCategory)) + rest
  }

  /** `search_movies` of the legacy client: passing results ranked by seeders. The
      `imdbid` field of the query is not an argument of this client and is ignored. */
  function LegacySearchMovies(q: MovieQuery, indexer: Indexer): (r: seq<Candidate>)
    ensures forall c :: c in r ==> LegacyPassesMovie(q, c)
    ensures NonIncreasing(r)
    ensures multiset(r) == multiset(GatherLegacyMovies(q, q.resolutions, indexer))
  {
    var all := GatherLegacyMovies(q, q.resolutions, indexer);
    var r := SortBySeeders(all);
    assert forall c :: c in r ==> c in multiset(all);
    r
  }

  /** Without an imdb id both clients apply the same movie filters. */
  lemma SameMovieFilters(q: MovieQuery, c: Candidate)
    requires q.imdbid.None?
    ensures LegacyPassesMovie(q, c) <==> PassesMovie(q, c)
  {
  }

  lemma {:induction false} KeepSame(q: MovieQuery, results: seq<Candidate>)
    requires q.imdbid.None?
    ensures KeepLegacyMovies(q, results) == KeepMovies(q, results)
    decreases |results|
  {
    if results != [] {
      KeepSame(q, results[1..]);
      SameMovieFilters(q, results[0]);
    }
  }

  /** When no resolution is 'any' and no imdb id is asked for, the legacy client sends
      the same queries, keeps the same results and ranks them the same way as the
      current one. */
  lemma {:induction false} LegacyAgreesWithoutAny(q: MovieQuery, resolutions: seq<string>, indexer: Indexer)
    requires q.imdbid.None?
    requires forall i :: 0 <= i < |resolutions| ==> Lower(resolutions[i]) != "any"
    ensures GatherLegacyMovies(q, resolutions, indexer) == GatherMovies(q, resolutions, indexer)
    decreases |resolutions|
  {
    if resolutions != [] {
      LegacyAgreesWithoutAny(q, resolutions[1..], indexer);
      assert QueryString(q.name, resolutions[0]) == LegacyQueryString(q.name, resolutions[0]);
      KeepSame(q, indexer(LegacyQueryString(q.name, resolutions[0]), MovieCategory));
    }
  }

  lemma LegacySearchAgrees(q: MovieQuery, indexer: Indexer)
    requires q.imdbid.None?
    requires forall i :: 0 <= i < |q.resolutions| ==> Lower(q.resolutions[i]) != "any"
    ensures LegacySearchMovies(q, indexer) == SearchMovies(q, indexer)
  {
    LegacyAgreesWithoutAny(q, q.resolutions, indexer);
  }

  /** The resolution 'any' is sent literally by the legacy client, and dropped from the
      query by the current one. */
  lemma AnyIsLiteral(name: string)
    ensures LegacyQueryString(name, "any") == name + "+any"
    ensures QueryString(name, "any") == name
  {
    assert Lower("any") == "any";
  }

  /** The series filters of the legacy client: no episode or imdb filter. */
  predicate LegacyPassesSeries(q: SeriesQuery, c: Candidate) {
    var title := Lower(c.title);
    && (q.maxSize.None? || c.size <= q.maxSize.value)
    && (q.lang.None? || Contains(title, Lower(q.lang.value)))
    && (q.minSeeds.None? || c.seeders >= q.minSeeds.value)
    && Search(LegacySeasonOf(q.season), title)
  }

  function KeepLegacySeries(q: SeriesQuery, results: seq<Candidate>): (r: seq<Candidate>)
    ensures forall c :: c in r <==> c in results && LegacyPassesSeries(q, c)
    decreases |results|
  {
    if results == [] then []
    else
      (if LegacyPassesSeries(q, results[0]) then [results[0]] else [])
      + KeepLegacySeries(q, results[1..])
  }

  function GatherLegacySeries(q: SeriesQuery, resolutions: seq<string>, indexer: Indexer): (r: seq<Candidate>)
    ensures forall c :: c in r <==>
      (exists i :: 0 <= i < |resolutions|
         && c in indexer(LegacyQueryString(q.name, resolutions[i]), SeriesCategory))
      && LegacyPassesSeries(q, c)
    decreases |resolutions|
  {
    if resolutions == [] then []
    else
      var rest := GatherLegacySeries(q, resolutions[1..], indexer);
      assert forall i :: 1 <= i < |resolutions| ==> resolutions[i] == resolutions[1..][i - 1];
      KeepLegacySeries(q, indexer(LegacyQueryString(q.name, resolutions[0]), SeriesCategory)) + rest
  }

  /** `search_tvseries` of the legacy client. */
  function LegacySearchTvSeries(q: SeriesQuery, indexer: Indexer): (r: seq<Candidate>)
    ensures forall c :: c in r ==> LegacyPassesSeries(q, c)
    ensures NonIncreasing(r)
    ensures multiset(r) == multiset(GatherLegacySeries(q, q.resolutions, indexer))
  {
    var all := GatherLegacySeries(q, q.resolutions, indexer);
    var r := SortBySeeders(all);
    assert forall c :: c in r ==> c in multiset(all);
    r
  }

  /** The legacy season pattern is stricter than the current one: every title it
      accepts, the current pattern accepts too. */
  lemma {:induction false} LegacySeasonStricter(n: int, t: string, i: nat)
    requires i <= |t|
    ensures SearchFrom(LegacySeasonOf(n), t, i) ==> SearchFrom(SeasonOf(n), t, i)
    decreases |t| - i
  {
    if i < |t| {
      LegacySeasonStricter(n, t, i + 1);
    }
  }

  /** "s2" names season 2 for the current pattern but not for the legacy one, which
      wants a character between the "s" and the number. */
  lemma LegacySeasonNeedsSeparator()
    ensures Search(SeasonOf(2), "s2")
    ensures !Search(LegacySeasonOf(2), "s2")
  {
    assert IntToString(2) == "2";
    assert MatchAt(SeasonOf(2), "s2", 0);
    assert !MatchAt(LegacySeasonOf(2), "s2", 0);
    assert !MatchAt(LegacySeasonOf(2), "s2", 1);
    assert !MatchAt(LegacySeasonOf(2), "s2", 2);
  }
}

=== FILE: movie_finder.dfy ===
/** `MovieFinder` of src/tasks/movie_finder.py, written against the store of
    tbot/data/database.py: SEARCHING movies are searched and, on a result, the best one
    is submitted and the row rewritten with its own name, size and resolutions and the
    DOWNLOADING state; the cleanup removes, in one call, every completed torrent older
    than the retention period. */
module MovieFinder {
  import opened Wrappers
  import opened States
  import opened Candidates
  import opened Jackett
  import opened Effects
  import opened Units
  import opened MovieProbe
  import opened TaskMovieProbe

  /** A movie row of the store: `resolutions` is a NOT NULL text column. */
  datatype FinderMovie = FinderMovie(id: int, name: string, maxSizeMb: int, resolutions: string, state: State)

  function FinderSearch(m: FinderMovie, reading: ProfileReading): (q: MovieQuery)
    ensures q.name == m.name && q.resolutions == Profile(reading, Some(m.resolutions))
    ensures q.maxSize == Some(m.maxSizeMb * 1048576) && q.minSeeds == Some(2)
    ensures q.year.None? && q.lang.None? && q.imdbid.None?
  {
    MovieQuery(m.name, Profile(reading, Some(m.resolutions)), Some(MbToBytes(m.maxSizeMb)), None, None, Some(2), None)
  }

  /** The row rewrite after a submission: every field as read, the state DOWNLOADING. */
  function Rewrite(m: FinderMovie): Write {
    SetMovieFields(m.id, m.name, m.maxSizeMb, m.resolutions, Downloading)
  }

  /** `start_download` for one SEARCHING movie. */
  function StartOne(m: FinderMovie, reading: ProfileReading, indexer: Indexer, dir: string): (r: seq<Action>)
    ensures r != [] && r[0] == FindMovie(FinderSearch(m, reading))
    ensures BestMovie(FinderSearch(m, reading), indexer).None? <==> |r| == 1
    ensures forall a :: a in r && a.Client? ==>
      var best := BestMovie(FinderSearch(m, reading), indexer);
      best.Some? && a.command == Add(best.value.magnet, dir)
    ensures forall a :: a in r && a.Store? ==>
      && a.write.SetMovieFields? && a.write.id == m.id && a.write.state == Downloading
      && a.write.name == m.name && a.write.maxSizeMb == m.maxSizeMb && a.write.resolutions == m.resolutions
  {
    var q := FinderSearch(m, reading);
    match BestMovie(q, indexer)
    case None => [FindMovie(q)]
    case Some(best) => [FindMovie(q), Client(Add(best.magnet, dir)), Store(Rewrite(m))]
  }

  /** The store after `start_download` for one movie: DOWNLOADING exactly when the search
      found something, unchanged otherwise. */
  lemma StartOneSubmits(m: FinderMovie, reading: ProfileReading, indexer: Indexer, dir: string, best: Candidate)
    requires BestMovie(FinderSearch(m, reading), indexer) == Some(best)
    ensures StartOne(m, reading, indexer, dir)
      == [FindMovie(FinderSearch(m, reading))] + [Client(Add(best.magnet, dir)), Store(Rewrite(m))]
  {
  }

  /** The submission and the rewrite after the search leave the row DOWNLOADING. */
  lemma SubmissionApplied(q: MovieQuery, m: FinderMovie, magnet: string, dir: string, store: StateStore)
    requires (Movies, m.id) in store
    ensures Apply(store, [FindMovie(q)] + [Client(Add(magnet, dir)), Store(Rewrite(m))]) == store[(Movies, m.id) := Downloading]
  {
    var tail := [Client(Add(magnet, dir)), Store(Rewrite(m))];
    ApplyAppend(store, [FindMovie(q)], tail);
    ApplyNoWrites(store, [FindMovie(q)]);
    ApplyOneWrite(store, Add(magnet, dir), Rewrite(m));
    assert ApplyWrite(store, Rewrite(m)) == store[(Movies, m.id) := Downloading];
  }

  lemma StartOneOutcome(m: FinderMovie, reading: ProfileReading, indexer: Indexer, dir: string, store: StateStore)
    requires (Movies, m.id) in store
    ensures BestMovie(FinderSearch(m, reading), indexer).None? ==> Apply(store, StartOne(m, reading, indexer, dir)) == store
    ensures BestMovie(FinderSearch(m, reading), indexer).Some? ==>
      Apply(store, StartOne(m, reading, indexer, dir)) == store[(Movies, m.id) := Downloading]
  {
    var q := FinderSearch(m, reading);
    match BestMovie(q, indexer)
    case None =>
      ApplyNoWrites(store, [FindMovie(q)]);
    case Some(best) =>
      StartOneSubmits(m, reading, indexer, dir, best);
      SubmissionApplied(q, m, best.magnet, dir, store);
  }

  /** `start_download`: every movie read in SEARCHING, in order; as written its stored
      resolutions string is iterated per character. */
  function StartDownloadWith(movies: seq<FinderMovie>, reading: ProfileReading, indexer: Indexer, dir: string): (r: seq<Action>)
    ensures forall i :: 0 <= i < |movies| && movies[i].state == Searching ==> FindMovie(FinderSearch(movies[i], reading)) in r
    ensures forall a :: a in r && a.Store? ==>
      exists i :: 0 <= i < |movies| && movies[i].state == Searching && a.write == Rewrite(movies[i])
    decreases |movies|
  {
    if movies == [] then []
    else
      var head := if movies[0].state == Searching then StartOne(movies[0], reading, indexer, dir) else [];
      var rest := StartDownloadWith(movies[1..], reading, indexer, dir);
      assert forall i :: 1 <= i < |movies| ==> movies[i] == movies[1..][i - 1];
      assert forall a :: a in head + rest <==> a in head || a in rest;
      head + rest
  }

  function StartDownloadAsWritten(movies: seq<FinderMovie>, indexer: Indexer, dir: string): (r: seq<Action>)
    ensures forall i :: 0 <= i < |movies| && movies[i].state == Searching ==>
      FindMovie(FinderSearch(movies[i], PerCharacter)) in r
  {
    StartDownloadWith(movies, PerCharacter, indexer, dir)
  }

  function StartDownload(movies: seq<FinderMovie>, indexer: Indexer, dir: string): (r: seq<Action>)
    ensures forall i :: 0 <= i < |movies| && movies[i].state == Searching ==>
      FindMovie(FinderSearch(movies[i], CommaSeparated)) in r
  {
    StartDownloadWith(movies, CommaSeparated, indexer, dir)
  }

  /** The hashes of the completed torrents strictly older than the retention period, in
      the client's order. */
  function SelectExpired(completed: seq<Torrent>, now: int, retention: int): (r: seq<Hash>)
    ensures |r| <= |completed|
    ensures forall h :: h in r <==>
      exists i :: 0 <= i < |completed| && completed[i].hash == h && Expired(now, completed[i].addedOn, retention)
    decreases |completed|
  {
    if completed == [] then []
    else
      var rest := SelectExpired(completed[1..], now, retention);
      assert forall i :: 1 <= i < |completed| ==> completed[i] == completed[1..][i - 1];
      KeepIfExpired(completed[0], now, retention) + rest
  }

  /** The selection's contribution of one torrent: its hash when it is expired. */
  function KeepIfExpired(t: Torrent, now: int, retention: int): (r: seq<Hash>)
    ensures r == [] || r == [t.hash]
    ensures t.hash in r <==> Expired(now, t.addedOn, retention)
  {
    if Expired(now, t.addedOn, retention) then [t.hash] else []
  }

  lemma SelectExpiredUnfold(s: seq<Torrent>, now: int, retention: int)
    requires s != []
    ensures SelectExpired(s, now, retention) == KeepIfExpired(s[0], now, retention) + SelectExpired(s[1..], now, retention)
  {
  }

  /** The selection goes torrent by torrent: it distributes over concatenation, so the
      order of the client's answer is kept. */
  lemma {:induction false} SelectExpiredAppend(a: seq<Torrent>, b: seq<Torrent>, now: int, retention: int)
    ensures SelectExpired(a + b, now, retention) == SelectExpired(a, now, retention) + SelectExpired(b, now, retention)
    decreases |a|
  {
    if a == [] {
      assert a + b == b;
    } else {
      var k := KeepIfExpired(a[0], now, retention);
      assert (a + b)[0] == a[0];
      assert (a + b)[1..] == a[1..] + b;
      SelectExpiredUnfold(a + b, now, retention);
      SelectExpiredUnfold(a, now, retention);
      SelectExpiredAppend(a[1..], b, now, retention);
      assert SelectExpired(a + b, now, retention)
        == k + (SelectExpired(a[1..], now, retention) + SelectExpired(b, now, retention));
    }
  }

  /** A torrent exactly the retention period old is kept; one second older, removed. */
  lemma SelectExpiredBoundary(h: Hash, state: string, now: int, retention: int)
    ensures SelectExpired([Torrent(h, state, now - retention)], now, retention) == []
    ensures SelectExpired([Torrent(h, state, now - retention - 1)], now, retention) == [h]
  {
    assert [Torrent(h, state, now - retention)][1..] == [];
    assert [Torrent(h, state, now - retention - 1)][1..] == [];
  }

  /** `cleanup`: one removal carrying the selection, issued even when it is empty. */
  function Cleanup(completed: seq<Torrent>, now: int, retention: int): (r: seq<Action>)
    ensures |r| == 1 && r[0].Client? && r[0].command.Remove?
    ensures |r[0].command.hashes| <= |completed|
    ensures forall h :: h in r[0].command.hashes <==>
      exists i :: 0 <= i < |completed| && completed[i].hash == h && Expired(now, completed[i].addedOn, retention)
  {
    [Client(Remove(SelectExpired(completed, now, retention)))]
  }
}

=== FILE: movie_probe.dfy ===
/** `MovieProbe` of src/probes/movie_probe.py: SEARCHING movies are searched with their
    comma-separated resolution profile and the best result is submitted; the update pass
    leaves SEARCHING and COMPLETED movies alone, deletes movies without a hash and hands
    every other one to the shared transfer reconciliation. */
module MovieProbe {
  import opened Wrappers
  import opened Text
  import opened States
  import opened Candidates
  import opened Jackett
  import opened Effects
  import opened Units
  import opened Reconcile

  /** A movie row as this probe reads it. */
  datatype MovieRow = MovieRow(id: int, name: string, maxSizeMb: int, resolutionProfile: string, state: State, hash: Hash)

  /** The resolutions searched: the distinct comma-separated entries of the profile. */
  function ProfileResolutions(profile: string): (r: seq<string>)
    ensures forall res :: res in r <==> res in Split(profile, ',')
    ensures forall i, j :: 0 <= i < j < |r| ==> r[i] != r[j]
  {
    Dedup(Split(profile, ','))
  }

  /** The search of `probe`: the profile's resolutions, the ceiling in bytes, two seeds. */
  function MovieSearch(row: MovieRow): (q: MovieQuery)
    ensures q.name == row.name && q.minSeeds == Some(2) && q.year.None? && q.lang.None? && q.imdbid.None?
    ensures q.maxSize == Some(row.maxSizeMb * 1048576)
    ensures forall res :: res in q.resolutions ==> ',' !in res
  {
    MovieQuery(row.name, ProfileResolutions(row.resolutionProfile), Some(MbToBytes(row.maxSizeMb)), None, None, Some(2), None)
  }

  /** What submitting the best result of `q` for movie `id` may do: the search, a
      submission to `dir`, or marking the movie DOWNLOADING. */
  ghost predicate SubmitAction(q: MovieQuery, id: int, dir: string, a: Action) {
    || a == FindMovie(q)
    || (a.Client? && a.command.Add? && a.command.dir == dir)
    || (a.Store? && a.write.SetStateAndHash? && a.write.table == Movies && a.write.id == id && a.write.state == Downloading)
  }

  /** Search with `q`; on a result, submit the best one's magnet and mark movie `id`
      DOWNLOADING with its info hash; without one, nothing but the search. */
  function SubmitBest(q: MovieQuery, id: int, indexer: Indexer, dir: string): (r: seq<Action>)
    ensures r != [] && r[0] == FindMovie(q)
    ensures BestMovie(q, indexer).None? <==> |r| == 1
    ensures |r| == 1 || |r| == 3
    ensures |r| == 3 ==>
      && r[1] == Client(Add(BestMovie(q, indexer).value.magnet, dir))
      && r[2] == Store(SetStateAndHash(Movies, id, Downloading, BestMovie(q, indexer).value.infoHash))
    ensures forall a :: a in r ==> SubmitAction(q, id, dir, a)
  {
    match BestMovie(q, indexer)
    case None => [FindMovie(q)]
    case Some(best) =>
      [FindMovie(q), Client(Add(best.magnet, dir)), Store(SetStateAndHash(Movies, id, Downloading, best.infoHash))]
  }

  /** The store after a submission: movie `id` is DOWNLOADING exactly when the search found
      something and keeps its state otherwise; every other row is unchanged. */
  lemma SubmitBestOutcome(q: MovieQuery, id: int, indexer: Indexer, dir: string, m: StateStore)
    requires (Movies, id) in m
    ensures var m' := Apply(m, SubmitBest(q, id, indexer, dir));
      && (Movies, id) in m'
      && (BestMovie(q, indexer).Some? ==> m'[(Movies, id)] == Downloading)
      && (BestMovie(q, indexer).None? ==> m' == m)
      && forall k :: k != (Movies, id) ==> (k in m' <==> k in m) && (k in m ==> m'[k] == m[k])
  {
    var r := SubmitBest(q, id, indexer, dir);
    if |r| == 1 {
      assert r == [r[0]] && !r[0].Store?;
      ApplyNoWrites(m, r);
    } else {
      var w := SetStateAndHash(Movies, id, Downloading, BestMovie(q, indexer).value.infoHash);
      assert r == [r[0]] + [r[1], Store(w)];
      ApplyAppend(m, [r[0]], [r[1], Store(w)]);
      ApplyNoWrites(m, [r[0]]);
      ApplyOneWrite(m, r[1].command, w);
      assert Apply(m, r) == m[(Movies, id) := Downloading];
    }
  }

  /** `probe` for one SEARCHING movie. */
  function ProbeMovie(row: MovieRow, indexer: Indexer, dir: string): (r: seq<Action>)
    ensures r != [] && r[0] == FindMovie(MovieSearch(row))
    ensures forall a :: a in r ==> SubmitAction(MovieSearch(row), row.id, dir, a)
  {
    SubmitBest(MovieSearch(row), row.id, indexer, dir)
  }

  /** The store after probing one SEARCHING movie: DOWNLOADING exactly when the search
      found something, SEARCHING otherwise. */
  lemma ProbeMovieOutcome(row: MovieRow, indexer: Indexer, dir: string, m: StateStore)
    requires (Movies, row.id) in m && m[(Movies, row.id)] == Searching
    ensures var m' := Apply(m, ProbeMovie(row, indexer, dir));
      && (Movies, row.id) in m'
      && (m'[(Movies, row.id)] == Downloading <==> GatherMovies(MovieSearch(row), MovieSearch(row).resolutions, indexer) != [])
      && (m'[(Movies, row.id)] == Searching <==> GatherMovies(MovieSearch(row), MovieSearch(row).resolutions, indexer) == [])
  {
    SubmitBestOutcome(MovieSearch(row), row.id, indexer, dir, m);
  }

  /** `probe`: every movie read in SEARCHING, in order. */
  function Probe(rows: seq<MovieRow>, indexer: Indexer, dir: string): (r: seq<Action>)
    ensures forall a :: a in r ==> exists i :: 0 <= i < |rows| && rows[i].state == Searching && SubmitAction(MovieSearch(rows[i]), rows[i].id, dir, a)
    ensures forall i :: 0 <= i < |rows| && rows[i].state == Searching ==> FindMovie(MovieSearch(rows[i])) in r
    decreases |rows|
  {
    if rows == [] then []
    else
      var head := if rows[0].state == Searching then ProbeMovie(rows[0], indexer, dir) else [];
      var rest := Probe(rows[1..], indexer, dir);
      assert forall i :: 1 <= i < |rows| ==> rows[i] == rows[1..][i - 1];
      assert forall a :: a in head + rest <==> a in head || a in rest;
      head + rest
  }

  /** What updating one movie may do to the client: query, resume, stop or remove its
      own torrent, and only when it has a hash. */
  ghost predicate OwnCommand(row: MovieRow, c: Command) {
    && row.hash != ""
    && (c == Query(row.hash) || c == Resume(row.hash) || c == Stop(row.hash) || c == Remove([row.hash]))
  }

  lemma MovieKindParsed()
    ensures ParseKind("MOVIE") == Some(MovieKind)
  {
  }

  /** `update_torrent_states` with the MOVIE type never raises: it is the transfer
      reconciliation of the movie's own row. */
  function ReconcileMovie(id: int, hash: Hash, current: State, ts: seq<Torrent>, now: int, retention: int): (r: seq<Action>)
    ensures r != [] && r[0] == Client(Query(hash))
    ensures Store(DeleteRow(Movies, id)) in r <==> ts == [] || current == Deleting
    ensures forall a :: a in r && a.Store? ==> Target(a.write) == Some((Movies, id))
    ensures forall a :: a in r && a.Client? ==>
      a.command == Query(hash) || a.command == Resume(hash) || a.command == Stop(hash) || a.command == Remove([hash])
  {
    MovieKindParsed();
    LeafTouchesOwnRow(MovieKind, id, hash, current, ts, now, retention);
    UpdateTorrentStates(id, hash, current, "MOVIE", ts, now, retention).actions
  }

  lemma ReconcileMovieIsLeaf(id: int, hash: Hash, current: State, ts: seq<Torrent>, now: int, retention: int)
    ensures ReconcileMovie(id, hash, current, ts, now, retention) == ReconcileLeaf(MovieKind, id, hash, current, ts, now, retention)
  {
    MovieKindParsed();
  }

  /** What updating a movie that is not skipped may do: command its own torrent or
      write its own row. */
  ghost predicate UpdateAction(row: MovieRow, a: Action) {
    && row.state != Searching && row.state != Completed
    && ((a.Client? && OwnCommand(row, a.command)) || (a.Store? && Target(a.write) == Some((Movies, row.id))))
  }

  lemma ReconciledAreUpdateActions(row: MovieRow, ts: seq<Torrent>, now: int, retention: int, r: seq<Action>)
    requires row.state != Searching && row.state != Completed && row.hash != ""
    requires r == ReconcileMovie(row.id, row.hash, row.state, ts, now, retention)
    ensures forall a :: a in r ==> UpdateAction(row, a)
  {
    forall a | a in r ensures UpdateAction(row, a) {
      assert a.Client? || a.Store? by {
        ReconcileMovieIsLeaf(row.id, row.hash, row.state, ts, now, retention);
        assert a == r[0] || a in r[1..];
      }
    }
  }

  /** `update` for one movie. */
  function UpdateMovie(row: MovieRow, client: TorrentLookup, now: int, retention: int): (r: Run)
    ensures r.raised.None?
    ensures r.actions == [] <==> row.state == Searching || row.state == Completed
    ensures row.state != Searching && row.state != Completed && row.hash == "" ==>
      r.actions == [Store(DeleteRow(Movies, row.id))]
    ensures row.state != Searching && row.state != Completed && row.hash != "" ==>
      && r.actions[0] == Client(Query(row.hash))
      && (Store(DeleteRow(Movies, row.id)) in r.actions <==> client(row.hash) == [] || row.state == Deleting)
    ensures forall a :: a in r.actions ==> UpdateAction(row, a)
  {
    if row.state == Searching || row.state == Completed then Run([], None)
    else if row.hash == "" then Run([Store(DeleteRow(Movies, row.id))], None)
    else
      var r := ReconcileMovie(row.id, row.hash, row.state, client(row.hash), now, retention);
      ReconciledAreUpdateActions(row, client(row.hash), now, retention, r);
      Run(r, None)
  }

  /** With one torrent reported for a hashed, non-skipped movie, the stored state follows
      the reference state machine, or the row is gone when it was DELETING. */
  lemma UpdateMovieOutcome(row: MovieRow, torrent: Torrent, client: TorrentLookup, now: int, retention: int, m: StateStore)
    requires row.state != Searching && row.state != Completed && row.hash != ""
    requires client(row.hash) == [torrent]
    requires (Movies, row.id) in m && m[(Movies, row.id)] == row.state
    ensures var m' := Apply(m, UpdateMovie(row, client, now, retention).actions);
      && ((Movies, row.id) in m' <==> row.state != Deleting)
      && (row.state != Deleting ==> m'[(Movies, row.id)] == NextLeafState(row.state, torrent, now, retention))
  {
    ReconcileMovieIsLeaf(row.id, row.hash, row.state, [torrent], now, retention);
    LeafOutcome(MovieKind, row.id, row.hash, row.state, torrent, now, retention, m);
  }

  /** `update`: every movie in turn. */
  function Update(rows: seq<MovieRow>, client: TorrentLookup, now: int, retention: int): (r: seq<Action>)
    ensures forall a :: a in r ==> exists i :: 0 <= i < |rows| && UpdateAction(rows[i], a)
    ensures forall i :: 0 <= i < |rows| && rows[i].state != Searching && rows[i].state != Completed && rows[i].hash == "" ==>
      Store(DeleteRow(Movies, rows[i].id)) in r
    decreases |rows|
  {
    if rows == [] then []
    else
      var head := UpdateMovie(rows[0], client, now, retention).actions;
      var rest := Update(rows[1..], client, now, retention);
      assert forall i :: 1 <= i < |rows| ==> rows[i] == rows[1..][i - 1];
      assert forall a :: a in head + rest <==> a in head || a in rest;
      head + rest
  }
}

=== FILE: movies_bot.dfy ===
/** `MoviesBot` of tbot/bots/movies_bot.py: each movie of a given list is searched with
    the legacy indexer client and only the best result is submitted; the cleanup is the
    same selection of expired completed torrents as the movie finder's. */
module MoviesBot {
  import opened Wrappers
  import opened Candidates
  import opened Jackett
  import opened LegacyJackett
  import opened Effects
  import opened TaskMovieProbe
  import opened MovieFinder

  /** One entry of the movie list: every key but the name may be absent. */
  datatype BotMovie = BotMovie(
    name: string,
    maxSizeBytes: Option<int>,
    year: Option<string>,
    res: Option<seq<string>>,
    lang: Option<string>)

  /** The search for an entry: its size taken as bytes as it stands, the default profile
      when `res` is absent, two seeds. */
  function BotSearch(m: BotMovie): (q: MovieQuery)
    ensures q.name == m.name && q.maxSize == m.maxSizeBytes && q.year == m.year && q.lang == m.lang
    ensures q.resolutions == (if m.res.Some? then m.res.value else DefaultProfile)
    ensures q.minSeeds == Some(2) && q.imdbid.None?
  {
    MovieQuery(m.name, m.res.GetOr(DefaultProfile), m.maxSizeBytes, m.year, m.lang, Some(2), None)
  }

  /** `start_download` for one entry: the search, then the best result's magnet when
      there is one. Nothing is written to a store. */
  function StartOne(m: BotMovie, indexer: Indexer, dir: string): (r: seq<Action>)
    ensures r != [] && r[0] == FindMovie(BotSearch(m)) && |r| <= 2
    ensures forall a :: a in r ==> a == FindMovie(BotSearch(m)) || (a.Client? && a.command.Add? && a.command.dir == dir)
    ensures |r| == 1 <==> LegacySearchMovies(BotSearch(m), indexer) == []
    ensures |r| > 1 ==>
      var found := LegacySearchMovies(BotSearch(m), indexer);
      && |r| == 2 && r[1] == Client(Add(found[0].magnet, dir))
      && forall c :: c in found ==> found[0].seeders >= c.seeders
  {
    var q := BotSearch(m);
    var found := LegacySearchMovies(q, indexer);
    if found == [] then [FindMovie(q)]
    else
      HeadIsMax(found);
      [FindMovie(q), Client(Add(found[0].magnet, dir))]
  }

  /** `start_download` over the whole list: at most one submission per entry. */
  function StartDownload(movies: seq<BotMovie>, indexer: Indexer, dir: string): (r: seq<Action>)
    ensures |r| <= 2 * |movies|
    ensures forall a :: a in r ==> a.FindMovie? || (a.Client? && a.command.Add? && a.command.dir == dir)
    ensures forall i :: 0 <= i < |movies| ==> FindMovie(BotSearch(movies[i])) in r
    decreases |movies|
  {
    if movies == [] then []
    else
      var head := StartOne(movies[0], indexer, dir);
      var rest := StartDownload(movies[1..], indexer, dir);
      assert forall i :: 1 <= i < |movies| ==> movies[i] == movies[1..][i - 1];
      assert forall a :: a in head + rest <==> a in head || a in rest;
      head + rest
  }

  /** `cleanup` of the bot. */
  function BotCleanup(completed: seq<Torrent>, now: int, retention: int): (r: seq<Action>)
    ensures |r| == 1 && r[0] == Client(Remove(SelectExpired(completed, now, retention)))
  {
    Cleanup(completed, now, retention)
  }
}

=== FILE: patterns.dfy ===
/** The four regular expressions the indexer clients apply to lower-cased result titles,
    each with `re.search` semantics (a match may start anywhere in the title). The
    model is a direct matcher for each fixed pattern shape, not a regex engine:
    `.` is any character but a newline, `?` and `*` are tried in every way. */
module Patterns {
  import opened Text

  datatype Pattern =
    | SeasonOf(n: int)        // (season|s).?[0-9]?{n}
    | LegacySeasonOf(n: int)  // (season|s).[0-9]?{n}
    | AnyEpisode              // (episode|ep|e).?[0-9]+
    | EpisodeOf(n: int)       // (episode|ep|e).?0*{n}

  predicate AnyChar(c: char) {
    c != '\n'
  }

  /** `.?[0-9]?` followed by the digits `d`. */
  predicate SeasonTail(u: string, d: string) {
    StartsWith(u, d)
    || (|u| > 0 && AnyChar(u[0])
        && (StartsWith(u[1..], d) || (|u| > 1 && IsDigit(u[1]) && StartsWith(u[2..], d))))
  }

  /** `.[0-9]?` followed by the digits `d`: exactly one character is required first. */
  predicate LegacySeasonTail(u: string, d: string) {
    |u| > 0 && AnyChar(u[0])
    && (StartsWith(u[1..], d) || (|u| > 1 && IsDigit(u[1]) && StartsWith(u[2..], d)))
  }

  /** `.?[0-9]+`: at least one digit, possibly after one character. */
  predicate AnyEpisodeTail(u: string) {
    (|u| > 0 && IsDigit(u[0])) || (|u| > 1 && AnyChar(u[0]) && IsDigit(u[1]))
  }

  /** `0*` followed by the digits `d`. */
  predicate ZerosThen(u: string, d: string)
    decreases |u|
  {
    StartsWith(u, d) || (|u| > 0 && u[0] == '0' && ZerosThen(u[1..], d))
  }

  /** `.?0*` followed by the digits `d`. */
  predicate EpisodeTail(u: string, d: string) {
    ZerosThen(u, d) || (|u| > 0 && AnyChar(u[0]) && ZerosThen(u[1..], d))
  }

  predicate SeasonPrefixThen(u: string, tail: string -> bool) {
    (StartsWith(u, "season") && tail(u[6..])) || (StartsWith(u, "s") && tail(u[1..]))
  }

  predicate EpisodePrefixThen(u: string, tail: string -> bool) {
    (StartsWith(u, "episode") && tail(u[7..]))
    || (StartsWith(u, "ep") && tail(u[2..]))
    || (StartsWith(u, "e") && tail(u[1..]))
  }

  /** The pattern matches the title starting at position `i`. */
  predicate MatchAt(p: Pattern, t: string, i: nat)
    requires i <= |t|
  {
    var u := t[i..];
    match p
    case SeasonOf(n) => SeasonPrefixThen(u, v => SeasonTail(v, IntToString(n)))
    case LegacySeasonOf(n) => SeasonPrefixThen(u, v => LegacySeasonTail(v, IntToString(n)))
    case AnyEpisode => EpisodePrefixThen(u, v => AnyEpisodeTail(v))
    case EpisodeOf(n) => EpisodePrefixThen(u, v => EpisodeTail(v, IntToString(n)))
  }

  predicate SearchFrom(p: Pattern, t: string, i: nat)
    requires i <= |t|
    decreases |t| - i
  {
    MatchAt(p, t, i) || (i < |t| && SearchFrom(p, t, i + 1))
  }

  /** `re.search(p, t) is not None`. */
  predicate Search(p: Pattern, t: string) {
    SearchFrom(p, t, 0)
  }

  /** The scan from `i` finds a match exactly when some start position at or after `i` matches. */
  lemma {:induction false} SearchFromIff(p: Pattern, t: string, i: nat)
    requires i <= |t|
    ensures SearchFrom(p, t, i) <==> exists j :: i <= j <= |t| && MatchAt(p, t, j)
    decreases |t| - i
  {
    if i < |t| {
      SearchFromIff(p, t, i + 1);
    }
  }
}

=== FILE: reconcile.dfy ===
/** The per-transfer reconciliation of a stored entity against the torrent client:
    `Probe.update_torrent_states` of src/probes/probe.py for episodes, seasons and
    movies, and the season loop body shared by src/probes/tv_show_probe.py and
    src/tasks/series_probe.py. `now` is `int(time.time())`; the torrents are the client's
    answer to the query for the entity's hash. */
module Reconcile {
  import opened Wrappers
  import opened States
  import opened Effects

  /** The `type` argument of `update_torrent_states`. */
  datatype Kind = EpisodeKind | SeasonKind | MovieKind

  function KindName(k: Kind): string {
    match k
    case EpisodeKind => "EPISODE"
    case SeasonKind => "SEASON"
    case MovieKind => "MOVIE"
  }

  /** Accepts exactly the three type names; anything else is the source's "invalid type". */
  function ParseKind(t: string): (r: Option<Kind>)
    ensures r.Some? <==> t == "SEASON" || t == "EPISODE" || t == "MOVIE"
    ensures r.Some? ==> KindName(r.value) == t
  {
    if t == "SEASON" then Some(SeasonKind)
    else if t == "EPISODE" then Some(EpisodeKind)
    else if t == "MOVIE" then Some(MovieKind)
    else None
  }

  /** The table `_delete_db_entry` and `_update_db_entry_state` address for a type. */
  function TableOf(k: Kind): (r: Table)
    ensures r != Shows
  {
    match k
    case EpisodeKind => Episodes
    case SeasonKind => Seasons
    case MovieKind => Movies
  }

  ghost predicate SomePaused(ts: seq<Torrent>) {
    exists i :: 0 <= i < |ts| && IsPausedState(ts[i].state)
  }

  ghost predicate SomeNotPaused(ts: seq<Torrent>) {
    exists i :: 0 <= i < |ts| && !IsPausedState(ts[i].state)
  }

  ghost predicate SomeExpired(ts: seq<Torrent>, now: int, retention: int) {
    exists i :: 0 <= i < |ts| && Expired(now, ts[i].addedOn, retention)
  }

  ghost predicate SomeUploading(ts: seq<Torrent>) {
    exists i :: 0 <= i < |ts| && ts[i].state == "uploading"
  }

  /** One pass of the loop over the torrents: five independent `if`s, all tested
      against the state read before the loop. */
  function LeafStep(t: Table, id: int, hash: Hash, current: State, torrent: Torrent, now: int, retention: int): (r: seq<Action>)
    ensures forall a :: a in r ==> LeafAction(a, t, id, hash)
    ensures Client(Resume(hash)) in r <==> current != Paused && IsPausedState(torrent.state)
    ensures Client(Stop(hash)) in r <==> current == Paused && !IsPausedState(torrent.state)
    ensures Store(SetState(t, id, Completed)) in r <==> current == Seeding && Expired(now, torrent.addedOn, retention)
    ensures Store(SetState(t, id, Seeding)) in r <==> current == Downloading && torrent.state == "uploading"
    ensures Store(DeleteRow(t, id)) in r <==> current == Deleting
    ensures Client(Remove([hash])) in r <==>
      current == Deleting || (current == Seeding && Expired(now, torrent.addedOn, retention))
  {
    (if current == Deleting then [Client(Remove([hash])), Store(DeleteRow(t, id))] else [])
    + (if current != Paused && IsPausedState(torrent.state) then [Client(Resume(hash))] else [])
    + (if current == Seeding && Expired(now, torrent.addedOn, retention)
       then [Client(Remove([hash])), Store(SetState(t, id, Completed))] else [])
    + (if current == Downloading && torrent.state == "uploading" then [Store(SetState(t, id, Seeding))] else [])
    + (if current == Paused && !IsPausedState(torrent.state) then [Client(Stop(hash))] else [])
  }

  /** The action kinds the loop can produce for one entity, and nothing else. */
  ghost predicate LeafAction(a: Action, t: Table, id: int, hash: Hash) {
    || a == Client(Remove([hash])) || a == Client(Resume(hash)) || a == Client(Stop(hash))
    || a == Store(DeleteRow(t, id)) || a == Store(SetState(t, id, Completed))
    || a == Store(SetState(t, id, Seeding))
  }

  /** The whole loop over the torrents the client returned. */
  function LeafSteps(t: Table, id: int, hash: Hash, current: State, ts: seq<Torrent>, now: int, retention: int): (r: seq<Action>)
    ensures forall a :: a in r ==> LeafAction(a, t, id, hash)
    ensures Client(Resume(hash)) in r <==> current != Paused && SomePaused(ts)
    ensures Client(Stop(hash)) in r <==> current == Paused && SomeNotPaused(ts)
    ensures Store(SetState(t, id, Completed)) in r <==> current == Seeding && SomeExpired(ts, now, retention)
    ensures Store(SetState(t, id, Seeding)) in r <==> current == Downloading && SomeUploading(ts)
    ensures Store(DeleteRow(t, id)) in r <==> current == Deleting && ts != []
    ensures Client(Remove([hash])) in r <==>
      (current == Deleting && ts != []) || (current == Seeding && SomeExpired(ts, now, retention))
    decreases |ts|
  {
    if ts == [] then []
    else
      var r := LeafStep(t, id, hash, current, ts[0], now, retention)
        + LeafSteps(t, id, hash, current, ts[1..], now, retention);
      assert forall i :: 1 <= i < |ts| ==> ts[i] == ts[1..][i - 1];
      r
  }

  /** `update_torrent_states` once the type is known: query the client, delete the
      entry when the torrent is gone, otherwise run the loop over the torrents. */
  function ReconcileLeaf(kind: Kind, id: int, hash: Hash, current: State, ts: seq<Torrent>, now: int, retention: int): (r: seq<Action>)
    ensures r != [] && r[0] == Client(Query(hash))
    ensures WritesOnlyTo(r, (TableOf(kind), id))
    ensures !(Client(Resume(hash)) in r && Client(Stop(hash)) in r)
    ensures ts == [] ==> r == [Client(Query(hash)), Store(DeleteRow(TableOf(kind), id))]
    ensures Store(DeleteRow(TableOf(kind), id)) in r <==> ts == [] || current == Deleting
    ensures Store(SetState(TableOf(kind), id, Completed)) in r <==> current == Seeding && SomeExpired(ts, now, retention)
    ensures Store(SetState(TableOf(kind), id, Seeding)) in r <==> current == Downloading && SomeUploading(ts)
    ensures Client(Resume(hash)) in r <==> current != Paused && SomePaused(ts)
    ensures Client(Stop(hash)) in r <==> current == Paused && SomeNotPaused(ts)
    ensures Client(Remove([hash])) in r <==>
      ts != [] && (current == Deleting || (current == Seeding && SomeExpired(ts, now, retention)))
    ensures forall a :: a in r[1..] ==> LeafAction(a, TableOf(kind), id, hash)
  {
    var rest := if ts == [] then [Store(DeleteRow(TableOf(kind), id))]
                else LeafSteps(TableOf(kind), id, hash, current, ts, now, retention);
    assert ([Client(Query(hash))] + rest)[1..] == rest;
    assert forall a :: a in [Client(Query(hash))] + rest <==> a == Client(Query(hash)) || a in rest;
    [Client(Query(hash))] + rest
  }

  /** `update_torrent_states(id, hash, current_state, type)`: an unknown type raises
      before the client is queried or the store touched. */
  function UpdateTorrentStates(id: int, hash: Hash, current: State, typ: string, ts: seq<Torrent>, now: int, retention: int): (r: Run)
    ensures r.raised.Some? <==> !(typ == "SEASON" || typ == "EPISODE" || typ == "MOVIE")
    ensures r.raised.Some? ==> r.actions == []
    ensures r.raised.None? ==>
      && r.actions != [] && r.actions[0] == Client(Query(hash))
      && WritesOnlyTo(r.actions, (TableOf(ParseKind(typ).value), id))
  {
    match ParseKind(typ)
    case None => Run([], Some("invalid type: " + typ))
    case Some(k) => Run(ReconcileLeaf(k, id, hash, current, ts, now, retention), None)
  }

  /** Every write goes to the entry's own row and every command to its own torrent. */
  lemma LeafTouchesOwnRow(kind: Kind, id: int, hash: Hash, current: State, ts: seq<Torrent>, now: int, retention: int)
    ensures forall a :: a in ReconcileLeaf(kind, id, hash, current, ts, now, retention) && a.Store? ==>
      Target(a.write) == Some((TableOf(kind), id))
    ensures forall a :: a in ReconcileLeaf(kind, id, hash, current, ts, now, retention) && a.Client? ==>
      a.command == Query(hash) || a.command == Resume(hash) || a.command == Stop(hash) || a.command == Remove([hash])
  {
    var r := ReconcileLeaf(kind, id, hash, current, ts, now, retention);
    assert forall a :: a in r ==> a == r[0] || a in r[1..];
  }

  /** The state machine of one transfer as a reference: retention expiry completes a
      seeding entry, an uploading torrent turns a downloading entry into seeding,
      everything else keeps its state (deletion aside). */
  function NextLeafState(current: State, torrent: Torrent, now: int, retention: int): State {
    if current == Seeding && Expired(now, torrent.addedOn, retention) then Completed
    else if current == Downloading && torrent.state == "uploading" then Seeding
    else current
  }

  /** The effect of one pass of the loop on the store. */
  lemma ApplyLeafStep(t: Table, id: int, hash: Hash, current: State, torrent: Torrent, now: int, retention: int, m: StateStore)
    ensures Apply(m, LeafStep(t, id, hash, current, torrent, now, retention))
      == if current == Deleting then m - {(t, id)}
         else if (t, id) in m && current != NextLeafState(current, torrent, now, retention)
         then m[(t, id) := NextLeafState(current, torrent, now, retention)]
         else m
  {
    var key := (t, id);
    var s1 := if current == Deleting then [Client(Remove([hash])), Store(DeleteRow(t, id))] else [];
    var s2 := if current != Paused && IsPausedState(torrent.state) then [Client(Resume(hash))] else [];
    var s3 := if current == Seeding && Expired(now, torrent.addedOn, retention)
              then [Client(Remove([hash])), Store(SetState(t, id, Completed))] else [];
    var s4 := if current == Downloading && torrent.state == "uploading" then [Store(SetState(t, id, Seeding))] else [];
    var s5 := if current == Paused && !IsPausedState(torrent.state) then [Client(Stop(hash))] else [];
    assert Apply(m, LeafStep(t, id, hash, current, torrent, now, retention))
      == Apply(Apply(Apply(Apply(Apply(m, s1), s2), s3), s4), s5) by {
      assert LeafStep(t, id, hash, current, torrent, now, retention) == s1 + s2 + s3 + s4 + s5;
      ApplyAppend(m, s1 + s2 + s3 + s4, s5);
      ApplyAppend(m, s1 + s2 + s3, s4);
      ApplyAppend(m, s1 + s2, s3);
      ApplyAppend(m, s1, s2);
    }
    var m1 := Apply(m, s1);
    assert m1 == if current == Deleting then m - {key} else m by {
      if current == Deleting { ApplyOneWrite(m, Remove([hash]), DeleteRow(t, id)); } else { ApplyNoWrites(m, s1); }
    }
    ApplyNoWrites(m1, s2);
    var m3 := Apply(m1, s3);
    assert m3 == if s3 != [] && key in m1 then m1[key := Completed] else m1 by {
      if s3 != [] { ApplyOneWrite(m1, Remove([hash]), SetState(t, id, Completed)); } else { ApplyNoWrites(m1, s3); }
    }
    var m4 := Apply(m3, s4);
    assert m4 == if s4 != [] && key in m3 then m3[key := Seeding] else m3 by {
      if s4 != [] { ApplyOneWrite(m3, Stop(hash), SetState(t, id, Seeding)); } else { ApplyNoWrites(m3, s4); }
    }
    ApplyNoWrites(m4, s5);
  }

  /** With one torrent reported, the writes leave the entry deleted exactly when it was
      DELETING and otherwise in the reference state; no other row changes. */
  lemma {:induction false} LeafOutcome(kind: Kind, id: int, hash: Hash, current: State, torrent: Torrent, now: int, retention: int, m: StateStore)
    requires (TableOf(kind), id) in m && m[(TableOf(kind), id)] == current
    ensures var m' := Apply(m, ReconcileLeaf(kind, id, hash, current, [torrent], now, retention));
      && ((TableOf(kind), id) in m' <==> current != Deleting)
      && (current != Deleting ==> m'[(TableOf(kind), id)] == NextLeafState(current, torrent, now, retention))
      && (forall k :: k != (TableOf(kind), id) ==> (k in m' <==> k in m) && (k in m ==> m'[k] == m[k]))
  {
    var t := TableOf(kind);
    var r := ReconcileLeaf(kind, id, hash, current, [torrent], now, retention);
    ApplyLocal(m, r, (t, id));
    var q := [Client(Query(hash))];
    var step := LeafStep(t, id, hash, current, torrent, now, retention);
    assert r == q + step by {
      assert [torrent][1..] == [];
      assert LeafSteps(t, id, hash, current, [torrent], now, retention) == step + [];
    }
    ApplyAppend(m, q, step);
    ApplyNoWrites(m, q);
    ApplyLeafStep(t, id, hash, current, torrent, now, retention, m);
  }

  /** No torrent reported: the entry is removed and nothing is sent to the client
      beyond the query. */
  lemma LeafOrphanDeleted(kind: Kind, id: int, hash: Hash, current: State, now: int, retention: int, m: StateStore)
    ensures (TableOf(kind), id) !in Apply(m, ReconcileLeaf(kind, id, hash, current, [], now, retention))
    ensures forall c :: Client(c) in ReconcileLeaf(kind, id, hash, current, [], now, retention) ==> c == Query(hash)
  {
    var r := ReconcileLeaf(kind, id, hash, current, [], now, retention);
    assert r[1..] == [Store(DeleteRow(TableOf(kind), id))];
    assert r[1..][1..] == [];
    assert Apply(m, r) == Apply(m, r[1..]);
    assert Apply(m, r[1..]) == Apply(m - {(TableOf(kind), id)}, []);
  }

  /** With an unchanged snapshot of its torrent, a transfer reaches a state whose next
      reconciliation writes nothing within two passes. */
  lemma {:induction false} LeafConverges(kind: Kind, id: int, hash: Hash, current: State, torrent: Torrent, now: int, retention: int)
    requires current != Deleting
    ensures var s2 := NextLeafState(NextLeafState(current, torrent, now, retention), torrent, now, retention);
      forall a :: a in ReconcileLeaf(kind, id, hash, s2, [torrent], now, retention) ==> !a.Store?
  {
    var s2 := NextLeafState(NextLeafState(current, torrent, now, retention), torrent, now, retention);
    var r := ReconcileLeaf(kind, id, hash, s2, [torrent], now, retention);
    assert !SomeExpired([torrent], now, retention) ==> !Expired(now, torrent.addedOn, retention) by {
      assert [torrent][0] == torrent;
    }
    assert SomeUploading([torrent]) ==> torrent.state == "uploading";
    forall a | a in r ensures !a.Store? {
      if a != r[0] {
        assert a in r[1..];
      }
    }
  }

  /** One pass of the season loop: the resume test, then an `if`/`elif`/`elif` chain. */
  function SeasonStep(id: int, hash: Hash, state: State, torrent: Torrent, now: int, retention: int): (r: seq<Action>)
    ensures Client(Resume(hash)) in r <==> state != Paused && IsPausedState(torrent.state)
    ensures Client(Stop(hash)) in r <==> state == Paused && !IsPausedState(torrent.state)
    ensures Store(SetState(Seasons, id, Completed)) in r <==> state == Seeding && Expired(now, torrent.addedOn, retention)
    ensures Client(Remove([hash])) in r <==> state == Seeding && Expired(now, torrent.addedOn, retention)
    ensures Store(SetState(Seasons, id, Seeding)) in r <==> state == Downloading && torrent.state == "uploading"
    ensures |r| <= 3
  {
    (if state != Paused && IsPausedState(torrent.state) then [Client(Resume(hash))] else [])
    + (if state == Seeding then
         (if Expired(now, torrent.addedOn, retention)
          then [Client(Remove([hash])), Store(SetState(Seasons, id, Completed))] else [])
       else if state == Downloading && torrent.state == "uploading" then [Store(SetState(Seasons, id, Seeding))]
       else if state == Paused && !IsPausedState(torrent.state) then [Client(Stop(hash))]
       else [])
  }

  /** The season loop over the torrents the client returned. */
  function SeasonSteps(id: int, hash: Hash, state: State, ts: seq<Torrent>, now: int, retention: int): (r: seq<Action>)
    ensures forall a :: a in r ==>
      || (a == Client(Resume(hash)) && state != Paused)
      || (a == Client(Remove([hash])) && state == Seeding)
      || (a == Store(SetState(Seasons, id, Completed)) && state == Seeding)
      || (a == Store(SetState(Seasons, id, Seeding)) && state == Downloading)
      || (a == Client(Stop(hash)) && state == Paused)
    ensures Client(Resume(hash)) in r <==> state != Paused && SomePaused(ts)
    ensures Client(Stop(hash)) in r <==> state == Paused && SomeNotPaused(ts)
    ensures Store(SetState(Seasons, id, Completed)) in r <==> state == Seeding && SomeExpired(ts, now, retention)
    ensures Client(Remove([hash])) in r <==> state == Seeding && SomeExpired(ts, now, retention)
    ensures Store(SetState(Seasons, id, Seeding)) in r <==> state == Downloading && SomeUploading(ts)
    decreases |ts|
  {
    if ts == [] then []
    else
      var r := SeasonStep(id, hash, state, ts[0], now, retention)
        + SeasonSteps(id, hash, state, ts[1..], now, retention);
      assert forall i :: 1 <= i < |ts| ==> ts[i] == ts[1..][i - 1];
      r
  }

  /** The season update of both show probes: SEARCHING and COMPLETED seasons are skipped
      without querying the client; the others are queried and run through the loop. A
      season whose torrent is gone is left as it is. */
  function ReconcileSeason(id: int, hash: Hash, state: State, ts: seq<Torrent>, now: int, retention: int): (r: seq<Action>)
    ensures state == Searching || state == Completed ==> r == []
    ensures state != Searching && state != Completed ==> r != [] && r[0] == Client(Query(hash))
    ensures WritesOnlyTo(r, (Seasons, id))
    ensures forall a :: a in r && a.Store? ==>
      || (a.write == SetState(Seasons, id, Completed) && state == Seeding)
      || (a.write == SetState(Seasons, id, Seeding) && state == Downloading)
    ensures forall a :: a in r ==>
      || a.Store?
      || a == Client(Query(hash)) || a == Client(Resume(hash)) || a == Client(Stop(hash)) || a == Client(Remove([hash]))
    ensures !(Client(Resume(hash)) in r && Client(Stop(hash)) in r)
    ensures Store(SetState(Seasons, id, Completed)) in r <==> state == Seeding && SomeExpired(ts, now, retention)
    ensures Store(SetState(Seasons, id, Seeding)) in r <==> state == Downloading && SomeUploading(ts)
    ensures Client(Stop(hash)) in r <==> state == Paused && SomeNotPaused(ts)
    ensures ts == [] ==> forall a :: a in r ==> a == Client(Query(hash))
  {
    if state == Searching || state == Completed then []
    else
      var rest := SeasonSteps(id, hash, state, ts, now, retention);
      assert forall a :: a in [Client(Query(hash))] + rest ==> a == Client(Query(hash)) || a in rest;
      [Client(Query(hash))] + rest
  }
}

=== FILE: series_probe.dfy ===
/** `TVSeriesProbe` of src/tasks/series_probe.py, the earlier series probe: seasons of
    the episode guide missing from the store are added once complete, SEARCHING seasons
    are downloaded whole, and the update pass reconciles seasons before removing
    series marked DELETING. */
module SeriesProbe {
  import opened Wrappers
  import opened States
  import opened Jackett
  import opened Effects
  import opened Units
  import opened Reconcile
  import opened TvShowProbe

  /** `is_season_complete`: strictly more than two whole days since the last release
      date. An empty episode list raises IndexError. */
  function IsSeasonComplete(releaseDays: seq<int>, now: int): (r: Result<bool>)
    ensures r.Failure? <==> releaseDays == []
    ensures r.Success? ==> (r.value <==> now >= (releaseDays[|releaseDays| - 1] + 3) * 86400)
  {
    if releaseDays == [] then Failure("IndexError: list index out of range")
    else Success(ElapsedDays(now, releaseDays[|releaseDays| - 1]) > 2)
  }

  /** One season of the episode guide: its number and its episodes' release days. */
  datatype GuideSeason = GuideSeason(number: int, releaseDays: seq<int>)

  /** A season of the series as read before the probe. */
  datatype SeriesSeason = SeriesSeason(seasonId: int, seasonNumber: int, episodeCount: int, state: State)

  /** The series row: `resolutions` is the value handed to the indexer client as is. */
  datatype SeriesRow = SeriesRow(id: int, name: string, maxEpisodeSizeMb: int, resolutions: seq<string>)

  /** The search for missing seasons: a guide season whose number is not stored is added,
      with its episode count, once complete. An incomplete season is skipped; an empty
      one raises, and since only HTTP errors are caught, that ends the whole probe pass,
      the remaining series included. */
  function DiscoverMissing(seriesId: int, known: seq<int>, guide: seq<GuideSeason>, now: int): (r: Run)
    ensures forall a :: a in r.actions ==>
      && a.Store? && a.write.AddSeason? && a.write.showId == seriesId && a.write.seasonNumber !in known
      && exists i :: 0 <= i < |guide| && guide[i].number == a.write.seasonNumber
           && a.write.episodeCount == |guide[i].releaseDays| && IsSeasonComplete(guide[i].releaseDays, now) == Success(true)
    ensures r.raised.None? <==> forall i :: 0 <= i < |guide| && guide[i].number !in known ==> guide[i].releaseDays != []
    ensures r.raised.None? ==> forall i ::
      (0 <= i < |guide| && guide[i].number !in known && IsSeasonComplete(guide[i].releaseDays, now) == Success(true)) ==>
      Store(AddSeason(seriesId, guide[i].number, |guide[i].releaseDays|)) in r.actions
    decreases |guide|
  {
    if guide == [] then Run([], None)
    else
      var g := guide[0];
      assert forall i :: 1 <= i < |guide| ==> guide[i] == guide[1..][i - 1];
      if g.number in known then DiscoverMissing(seriesId, known, guide[1..], now)
      else
        match IsSeasonComplete(g.releaseDays, now)
        case Failure(e) => Run([], Some(e))
        case Success(complete) =>
          var rest := DiscoverMissing(seriesId, known, guide[1..], now);
          var head := if complete then [Store(AddSeason(seriesId, g.number, |g.releaseDays|))] else [];
          assert forall a :: a in head + rest.actions <==> a in head || a in rest.actions;
          Run(head + rest.actions, rest.raised)
  }

  /** What the probe passes to `download_full_season` as the season's size: as written,
      the per-episode ceiling already converted to bytes times the episode count; as
      intended, megabytes times the episode count. The callee converts once more. */
  datatype Ceiling = AsWrittenCeiling | IntendedCeiling

  function SeasonSizeArgument(c: Ceiling, maxEpisodeSizeMb: int, episodeCount: int): int {
    match c
    case AsWrittenCeiling => MbToBytes(maxEpisodeSizeMb) * episodeCount
    case IntendedCeiling => maxEpisodeSizeMb * episodeCount
  }

  /** `download_full_season` for one stored season, with the size argument `c` selects. */
  function SeasonFound(row: SeriesRow, s: SeriesSeason, c: Ceiling, indexer: Indexer, dir: string): (r: Found)
    ensures var q := SeasonQuery(row.name, s.seasonNumber, SeasonSizeArgument(c, row.maxEpisodeSizeMb, s.episodeCount), row.resolutions, None);
      && FindSeries(q) in r.actions
      && forall a :: a in r.actions ==> a == FindSeries(q) || (a.Client? && a.command.Add? && a.command.dir == dir)
  {
    Download(row.name, s.seasonNumber, SeasonSizeArgument(c, row.maxEpisodeSizeMb, s.episodeCount), row.resolutions, None, indexer, dir)
  }

  /** The download of one stored season: only SEARCHING seasons are searched, and a found
      hash marks the season DOWNLOADING. */
  function DownloadStoredSeason(row: SeriesRow, s: SeriesSeason, c: Ceiling, indexer: Indexer, dir: string): (r: seq<Action>)
    ensures forall a :: a in r ==>
      || (a.FindSeries? && s.state == Searching
          && a.seriesQuery == SeasonQuery(row.name, s.seasonNumber, SeasonSizeArgument(c, row.maxEpisodeSizeMb, s.episodeCount), row.resolutions, None))
      || (a.Store? && s.state == Searching && MarksDownloading(a.write, Seasons, s.seasonId))
      || (a.Client? && a.command.Add? && a.command.dir == dir)
    ensures s.state == Searching ==>
      FindSeries(SeasonQuery(row.name, s.seasonNumber, SeasonSizeArgument(c, row.maxEpisodeSizeMb, s.episodeCount), row.resolutions, None)) in r
    ensures s.state == Searching && SeasonFound(row, s, c, indexer, dir).hash != "" ==>
      Store(SetStateAndHash(Seasons, s.seasonId, Downloading, SeasonFound(row, s, c, indexer, dir).hash)) in r
    ensures forall a :: a in r && a.Store? ==>
      && s.state == Searching && SeasonFound(row, s, c, indexer, dir).hash != ""
      && a.write == SetStateAndHash(Seasons, s.seasonId, Downloading, SeasonFound(row, s, c, indexer, dir).hash)
  {
    if s.state != Searching then []
    else
      var f := SeasonFound(row, s, c, indexer, dir);
      var mark := if f.hash != "" then [Store(SetStateAndHash(Seasons, s.seasonId, Downloading, f.hash))] else [];
      assert forall a :: a in f.actions ==> !a.Store?;
      assert forall a :: a in f.actions + mark <==> a in f.actions || a in mark;
      f.actions + mark
  }

  function DownloadStoredSeasons(row: SeriesRow, seasons: seq<SeriesSeason>, c: Ceiling, indexer: Indexer, dir: string): (r: seq<Action>)
    ensures forall a :: a in r <==> exists i :: 0 <= i < |seasons| && a in DownloadStoredSeason(row, seasons[i], c, indexer, dir)
    ensures forall i :: 0 <= i < |seasons| && seasons[i].state == Searching && SeasonFound(row, seasons[i], c, indexer, dir).hash != "" ==>
      Store(SetStateAndHash(Seasons, seasons[i].seasonId, Downloading, SeasonFound(row, seasons[i], c, indexer, dir).hash)) in r
    ensures forall a :: a in r && a.Store? ==> exists i :: 0 <= i < |seasons| && FoundMark(row, seasons[i], c, indexer, dir, a.write)
    decreases |seasons|
  {
    if seasons == [] then []
    else
      var head := DownloadStoredSeason(row, seasons[0], c, indexer, dir);
      var rest := DownloadStoredSeasons(row, seasons[1..], c, indexer, dir);
      assert forall i :: 1 <= i < |seasons| ==> seasons[i] == seasons[1..][i - 1];
      assert forall a :: a in head + rest <==> a in head || a in rest;
      head + rest
  }

  /** `w` marks stored season `s` DOWNLOADING with the hash its search found. */
  predicate FoundMark(row: SeriesRow, s: SeriesSeason, c: Ceiling, indexer: Indexer, dir: string, w: Write) {
    && s.state == Searching && SeasonFound(row, s, c, indexer, dir).hash != ""
    && w == SetStateAndHash(Seasons, s.seasonId, Downloading, SeasonFound(row, s, c, indexer, dir).hash)
  }

  function SeasonNumbers(seasons: seq<SeriesSeason>): (r: seq<int>)
    ensures |r| == |seasons| && forall i :: 0 <= i < |seasons| ==> r[i] == seasons[i].seasonNumber
  {
    seq(|seasons|, i requires 0 <= i < |seasons| => seasons[i].seasonNumber)
  }

  /** The loop body of `probe` for one series. `guide` is None when the guide lookup
      failed with an HTTP error, which is logged and skipped. */
  function ProbeSeriesWith(row: SeriesRow, seasons: seq<SeriesSeason>, guide: Option<seq<GuideSeason>>, now: int, c: Ceiling, indexer: Indexer, dir: string): (r: Run)
    ensures guide.None? ==> r.raised.None?
    ensures r.raised.Some? ==> forall a :: a in r.actions ==> !a.FindSeries?
    ensures r.raised.None? ==> forall i :: 0 <= i < |seasons| && seasons[i].state == Searching ==>
      FindSeries(SeasonQuery(row.name, seasons[i].seasonNumber, SeasonSizeArgument(c, row.maxEpisodeSizeMb, seasons[i].episodeCount), row.resolutions, None)) in r.actions
    ensures forall a :: a in r.actions && a.FindSeries? ==>
      exists i :: 0 <= i < |seasons| && seasons[i].state == Searching
        && a.seriesQuery.season == seasons[i].seasonNumber
        && a.seriesQuery.maxSize == Some(MbToBytes(SeasonSizeArgument(c, row.maxEpisodeSizeMb, seasons[i].episodeCount)))
    ensures forall a :: a in r.actions && a.Store? ==>
      || (a.write.AddSeason? && a.write.seasonNumber !in SeasonNumbers(seasons))
      || (exists i :: 0 <= i < |seasons| && seasons[i].state == Searching && MarksDownloading(a.write, Seasons, seasons[i].seasonId))
  {
    var found := if guide.None? then Run([], None) else DiscoverMissing(row.id, SeasonNumbers(seasons), guide.value, now);
    if found.raised.Some? then found
    else
      var downloads := DownloadStoredSeasons(row, seasons, c, indexer, dir);
      StoredSeasonsActions(row, seasons, c, indexer, dir);
      assert forall a :: a in found.actions + downloads <==> a in found.actions || a in downloads;
      Run(found.actions + downloads, None)
  }

  /** What the downloads of the stored seasons issue, season by season. */
  lemma StoredSeasonsActions(row: SeriesRow, seasons: seq<SeriesSeason>, c: Ceiling, indexer: Indexer, dir: string)
    ensures var d := DownloadStoredSeasons(row, seasons, c, indexer, dir);
      forall i :: 0 <= i < |seasons| && seasons[i].state == Searching ==>
        FindSeries(SeasonQuery(row.name, seasons[i].seasonNumber, SeasonSizeArgument(c, row.maxEpisodeSizeMb, seasons[i].episodeCount), row.resolutions, None)) in d
    ensures var d := DownloadStoredSeasons(row, seasons, c, indexer, dir);
      forall a :: a in d && a.FindSeries? ==>
        exists i :: 0 <= i < |seasons| && seasons[i].state == Searching
          && a.seriesQuery.season == seasons[i].seasonNumber
          && a.seriesQuery.maxSize == Some(MbToBytes(SeasonSizeArgument(c, row.maxEpisodeSizeMb, seasons[i].episodeCount)))
    ensures var d := DownloadStoredSeasons(row, seasons, c, indexer, dir);
      forall a :: a in d && a.Store? ==>
        exists i :: 0 <= i < |seasons| && seasons[i].state == Searching && MarksDownloading(a.write, Seasons, seasons[i].seasonId)
  {
    var d := DownloadStoredSeasons(row, seasons, c, indexer, dir);
    forall a | a in d && a.FindSeries?
      ensures exists i :: (0 <= i < |seasons| && seasons[i].state == Searching
        && a.seriesQuery.season == seasons[i].seasonNumber
        && a.seriesQuery.maxSize == Some(MbToBytes(SeasonSizeArgument(c, row.maxEpisodeSizeMb, seasons[i].episodeCount))))
    {
      var i :| 0 <= i < |seasons| && a in DownloadStoredSeason(row, seasons[i], c, indexer, dir);
      assert a.seriesQuery == SeasonQuery(row.name, seasons[i].seasonNumber, SeasonSizeArgument(c, row.maxEpisodeSizeMb, seasons[i].episodeCount), row.resolutions, None);
    }
    forall a | a in d && a.Store?
      ensures exists i :: 0 <= i < |seasons| && seasons[i].state == Searching && MarksDownloading(a.write, Seasons, seasons[i].seasonId)
    {
      var i :| 0 <= i < |seasons| && a in DownloadStoredSeason(row, seasons[i], c, indexer, dir);
    }
  }

  /** When nothing raises, every SEARCHING season whose search found a hash is marked
      DOWNLOADING with it; every write other than an added season is such a mark. */
  lemma ProbeSeriesWithMarksFound(row: SeriesRow, seasons: seq<SeriesSeason>, guide: Option<seq<GuideSeason>>, now: int, c: Ceiling, indexer: Indexer, dir: string)
    ensures var r := ProbeSeriesWith(row, seasons, guide, now, c, indexer, dir);
      r.raised.None? ==> forall i ::
        0 <= i < |seasons| && seasons[i].state == Searching && SeasonFound(row, seasons[i], c, indexer, dir).hash != "" ==>
        Store(SetStateAndHash(Seasons, seasons[i].seasonId, Downloading, SeasonFound(row, seasons[i], c, indexer, dir).hash)) in r.actions
    ensures var r := ProbeSeriesWith(row, seasons, guide, now, c, indexer, dir);
      forall a :: a in r.actions && a.Store? && !a.write.AddSeason? ==>
        exists i :: 0 <= i < |seasons| && FoundMark(row, seasons[i], c, indexer, dir, a.write)
  {
    var found := if guide.None? then Run([], None) else DiscoverMissing(row.id, SeasonNumbers(seasons), guide.value, now);
    if found.raised.None? {
      var downloads := DownloadStoredSeasons(row, seasons, c, indexer, dir);
      assert ProbeSeriesWith(row, seasons, guide, now, c, indexer, dir).actions == found.actions + downloads;
      assert forall a :: a in found.actions + downloads <==> a in found.actions || a in downloads;
      assert forall a :: a in found.actions && a.Store? ==> a.write.AddSeason?;
    }
  }

  /** The probe of one series as written. */
  function ProbeSeriesAsWritten(row: SeriesRow, seasons: seq<SeriesSeason>, guide: Option<seq<GuideSeason>>, now: int, indexer: Indexer, dir: string): (r: Run)
    ensures forall a :: a in r.actions && a.FindSeries? ==>
      exists i :: 0 <= i < |seasons| && seasons[i].state == Searching
        && a.seriesQuery.maxSize == Some(MbToBytes(MbToBytes(row.maxEpisodeSizeMb) * seasons[i].episodeCount))
  {
    ProbeSeriesWith(row, seasons, guide, now, AsWrittenCeiling, indexer, dir)
  }

  /** The probe of one series with the season ceiling converted once. */
  function ProbeSeries(row: SeriesRow, seasons: seq<SeriesSeason>, guide: Option<seq<GuideSeason>>, now: int, indexer: Indexer, dir: string): (r: Run)
    ensures forall a :: a in r.actions && a.FindSeries? ==>
      exists i :: 0 <= i < |seasons| && seasons[i].state == Searching
        && a.seriesQuery.maxSize == Some(row.maxEpisodeSizeMb * seasons[i].episodeCount * 1048576)
    ensures r.raised.None? ==> forall i :: 0 <= i < |seasons| && seasons[i].state == Searching ==>
      exists a :: a in r.actions && a.FindSeries? && a.seriesQuery.season == seasons[i].seasonNumber
  {
    var r := ProbeSeriesWith(row, seasons, guide, now, IntendedCeiling, indexer, dir);
    IntendedCeilings(row, seasons);
    assert forall i :: 0 <= i < |seasons| && seasons[i].state == Searching && r.raised.None? ==>
      FindSeries(SeasonQuery(row.name, seasons[i].seasonNumber, SeasonSizeArgument(IntendedCeiling, row.maxEpisodeSizeMb, seasons[i].episodeCount), row.resolutions, None)) in r.actions;
    r
  }

  /** When nothing raises, every SEARCHING season whose search found a hash is marked
      DOWNLOADING with it; every other write adds a season, and a mark always carries
      the hash its own season's search found. */
  lemma ProbeSeriesMarksFound(row: SeriesRow, seasons: seq<SeriesSeason>, guide: Option<seq<GuideSeason>>, now: int, indexer: Indexer, dir: string)
    ensures var r := ProbeSeries(row, seasons, guide, now, indexer, dir);
      r.raised.None? ==> forall i ::
        0 <= i < |seasons| && seasons[i].state == Searching && SeasonFound(row, seasons[i], IntendedCeiling, indexer, dir).hash != "" ==>
        Store(SetStateAndHash(Seasons, seasons[i].seasonId, Downloading, SeasonFound(row, seasons[i], IntendedCeiling, indexer, dir).hash)) in r.actions
    ensures var r := ProbeSeries(row, seasons, guide, now, indexer, dir);
      forall a :: a in r.actions && a.Store? && !a.write.AddSeason? ==>
        exists i :: 0 <= i < |seasons| && FoundMark(row, seasons[i], IntendedCeiling, indexer, dir, a.write)
  {
    ProbeSeriesWithMarksFound(row, seasons, guide, now, IntendedCeiling, indexer, dir);
    assert ProbeSeries(row, seasons, guide, now, indexer, dir) == ProbeSeriesWith(row, seasons, guide, now, IntendedCeiling, indexer, dir);
  }

  lemma IntendedCeilings(row: SeriesRow, seasons: seq<SeriesSeason>)
    ensures forall i :: 0 <= i < |seasons| ==>
      MbToBytes(SeasonSizeArgument(IntendedCeiling, row.maxEpisodeSizeMb, seasons[i].episodeCount))
        == row.maxEpisodeSizeMb * seasons[i].episodeCount * 1048576
  {
  }

  /** As written, each season is searched with a ceiling 1048576 times the intended one. */
  lemma SeriesCeilingOverconverted(maxEpisodeSizeMb: int, episodeCount: int)
    ensures MbToBytes(SeasonSizeArgument(AsWrittenCeiling, maxEpisodeSizeMb, episodeCount))
      == MbToBytes(SeasonSizeArgument(IntendedCeiling, maxEpisodeSizeMb, episodeCount)) * 1048576
  {
    MbToBytesScale(maxEpisodeSizeMb, episodeCount);
  }

  /** A season of the store as the update pass reads it. */
  datatype SeasonState = SeasonState(seasonId: int, state: State, hash: Hash)

  /** What reconciling one stored season may do: query, resume, stop or remove the
      season's own torrent, or set the season's own state. */
  ghost predicate SeasonAction(s: SeasonState, a: Action) {
    && s.state != Searching && s.state != Completed
    && (|| (a.Store? && a.write.SetState? && a.write.table == Seasons && a.write.id == s.seasonId)
        || a == Client(Query(s.hash)) || a == Client(Resume(s.hash))
        || a == Client(Stop(s.hash)) || a == Client(Remove([s.hash])))
  }

  /** The reconciliation of one stored season against the client's answer for its hash. */
  function ReconcileStored(s: SeasonState, client: TorrentLookup, now: int, retention: int): (r: seq<Action>)
    ensures forall a :: a in r ==> SeasonAction(s, a)
    ensures s.state != Searching && s.state != Completed ==> Client(Query(s.hash)) in r
  {
    ReconcileSeason(s.seasonId, s.hash, s.state, client(s.hash), now, retention)
  }

  /** The reconciliation loop over all stored seasons. */
  function ReconcileSeasons(rows: seq<SeasonState>, client: TorrentLookup, now: int, retention: int): (r: seq<Action>)
    ensures forall a :: a in r ==> exists i :: 0 <= i < |rows| && SeasonAction(rows[i], a)
    ensures forall i :: 0 <= i < |rows| && rows[i].state != Searching && rows[i].state != Completed ==>
      Client(Query(rows[i].hash)) in r
    decreases |rows|
  {
    if rows == [] then []
    else
      var s := rows[0];
      var head := ReconcileStored(s, client, now, retention);
      var rest := ReconcileSeasons(rows[1..], client, now, retention);
      assert forall i :: 1 <= i < |rows| ==> rows[i] == rows[1..][i - 1];
      assert forall a :: a in head + rest <==> a in head || a in rest;
      head + rest
  }

  /** What deleting one series may do: remove one of its season hashes, set or not, or
      delete its row. */
  ghost predicate DeletionAction(d: DeletingShow, a: Action) {
    || a == Store(DeleteRow(Shows, d.id))
    || exists j :: 0 <= j < |d.seasonHashes| && a == Client(Remove([d.seasonHashes[j]]))
  }

  /** The removals and the row deletion for one series marked DELETING. */
  function DeleteOneSeries(d: DeletingShow): (r: seq<Action>)
    ensures forall a :: a in r <==> DeletionAction(d, a)
    ensures |r| == |d.seasonHashes| + 1 && r[|r| - 1] == Store(DeleteRow(Shows, d.id))
  {
    var hashes := d.seasonHashes;
    var removes := seq(|hashes|, j requires 0 <= j < |hashes| => Client(Remove([hashes[j]])));
    var r := removes + [Store(DeleteRow(Shows, d.id))];
    assert forall j :: 0 <= j < |hashes| ==> r[j] == Client(Remove([hashes[j]]));
    r
  }

  /** The deletion of series marked DELETING: every season's hash is removed, whether set
      or not, then the series row is deleted. */
  function DeleteSeries(series: seq<DeletingShow>): (r: seq<Action>)
    ensures forall a :: a in r <==> exists i :: 0 <= i < |series| && DeletionAction(series[i], a)
    decreases |series|
  {
    if series == [] then []
    else
      var head := DeleteOneSeries(series[0]);
      var rest := DeleteSeries(series[1..]);
      assert forall i :: 1 <= i < |series| ==> series[i] == series[1..][i - 1];
      assert forall a :: a in head + rest <==> a in head || a in rest;
      head + rest
  }

  /** `update`: reconcile every season, then remove the series marked DELETING. */
  function Update(rows: seq<SeasonState>, deleting: seq<DeletingShow>, client: TorrentLookup, now: int, retention: int): (r: seq<Action>)
    ensures forall i :: 0 <= i < |deleting| ==> Store(DeleteRow(Shows, deleting[i].id)) in r
    ensures forall i, j :: 0 <= i < |deleting| && 0 <= j < |deleting[i].seasonHashes| ==>
      Client(Remove([deleting[i].seasonHashes[j]])) in r
    ensures forall a :: a in r ==>
      || (exists i :: 0 <= i < |rows| && SeasonAction(rows[i], a))
      || (exists i :: 0 <= i < |deleting| && DeletionAction(deleting[i], a))
  {
    var s := ReconcileSeasons(rows, client, now, retention);
    var d := DeleteSeries(deleting);
    assert forall a :: a in s + d <==> a in s || a in d;
    assert forall i :: 0 <= i < |deleting| ==> DeletionAction(deleting[i], Store(DeleteRow(Shows, deleting[i].id)));
    s + d
  }
}

=== FILE: states.dfy ===
/** The state enumeration shared by movies, shows, seasons and episodes, and the
    string form under which it is stored. `Paused` and `Deleting` are the side states
    the reconciliation honours; `Deleted` is written only by the older movie probe. */
module States {
  import opened Wrappers

  datatype State = Searching | Downloading | Seeding | Completed | Paused | Deleting | Deleted

  /** The stored spelling of a state. */
  function Name(s: State): string {
    match s
    case Searching => "SEARCHING"
    case Downloading => "DOWNLOADING"
    case Seeding => "SEEDING"
    case Completed => "COMPLETED"
    case Paused => "PAUSED"
    case Deleting => "DELETING"
    case Deleted => "DELETED"
  }

  /** Reads a stored state string back; anything else is not a state. */
  function Parse(n: string): (r: Option<State>)
    ensures r.Some? ==> Name(r.value) == n
    ensures r.None? ==> forall s :: Name(s) != n
  {
    if n == "SEARCHING" then Some(Searching)
    else if n == "DOWNLOADING" then Some(Downloading)
    else if n == "SEEDING" then Some(Seeding)
    else if n == "COMPLETED" then Some(Completed)
    else if n == "PAUSED" then Some(Paused)
    else if n == "DELETING" then Some(Deleting)
    else if n == "DELETED" then Some(Deleted)
    else None
  }

  /** Every state survives a write and a read of its stored spelling. */
  lemma ParseName(s: State)
    ensures Parse(Name(s)) == Some(s)
  {
  }
}

=== FILE: task_movie_probe.dfy ===
/** `MovieProbe` of src/tasks/movie_probe.py, the earlier movie probe: SEARCHING movies
    are searched and the best result submitted; the update pass skips only SEARCHING
    movies, marks a movie DELETED when the client reports no torrent for its hash and
    otherwise moves SEEDING to COMPLETED after the retention period and anything else
    to SEEDING once the torrent is uploading. */
module TaskMovieProbe {
  import opened Wrappers
  import opened Text
  import opened States
  import opened Jackett
  import opened Effects
  import opened Units
  import opened Reconcile
  import opened MovieProbe

  /** A movie row; `resolutions` is None when the row has no such column. */
  datatype TaskMovie = TaskMovie(id: int, name: string, maxSizeMb: int, resolutions: Option<string>, state: State, hash: Hash)

  /** The profile used when the row carries no resolutions. */
  const DefaultProfile: seq<string> :=
    ["1080p+bluray", "1080p+webrip", "1080p+web-dl", "720p+bluray", "720p+webrip", "720p+web-dl"]

  /** How the stored resolutions string becomes the list of resolutions searched: as
      written, the string itself is handed over and iterated character by character; as
      intended, it is split at commas. */
  datatype ProfileReading = PerCharacter | CommaSeparated

  function Profile(reading: ProfileReading, stored: Option<string>): (r: seq<string>)
    ensures stored.None? ==> r == DefaultProfile
    ensures stored.Some? && reading == PerCharacter ==> |r| == |stored.value|
    ensures stored.Some? && reading == PerCharacter ==> forall i :: 0 <= i < |r| ==> r[i] == [stored.value[i]]
    ensures stored.Some? && reading == CommaSeparated ==> Join(r, ",") == stored.value
    ensures stored.Some? && reading == CommaSeparated ==> forall res :: res in r ==> ',' !in res
  {
    match stored
    case None => DefaultProfile
    case Some(s) =>
      if reading == PerCharacter then Characters(s)
      else
        JoinSplit(s, ',');
        Split(s, ',')
  }

  /** `find_movie`'s search: the profile, the ceiling in bytes, no language, two seeds. */
  function TaskSearch(m: TaskMovie, reading: ProfileReading): (q: MovieQuery)
    ensures q.name == m.name && q.resolutions == Profile(reading, m.resolutions)
    ensures q.maxSize == Some(m.maxSizeMb * 1048576) && q.minSeeds == Some(2)
    ensures q.year.None? && q.lang.None? && q.imdbid.None?
  {
    MovieQuery(m.name, Profile(reading, m.resolutions), Some(MbToBytes(m.maxSizeMb)), None, None, Some(2), None)
  }

  /** `probe` for one movie read from the store: only a SEARCHING one is searched. */
  function ProbeOne(m: TaskMovie, reading: ProfileReading, indexer: Indexer, dir: string): (r: seq<Action>)
    ensures forall a :: a in r ==> m.state == Searching && SubmitAction(TaskSearch(m, reading), m.id, dir, a)
    ensures m.state == Searching ==> FindMovie(TaskSearch(m, reading)) in r
  {
    if m.state == Searching then SubmitBest(TaskSearch(m, reading), m.id, indexer, dir) else []
  }

  /** `probe`: every movie read in SEARCHING, each searched and, on a result, submitted
      and marked DOWNLOADING. */
  function ProbeWith(movies: seq<TaskMovie>, reading: ProfileReading, indexer: Indexer, dir: string): (r: seq<Action>)
    ensures forall a :: a in r ==>
      exists i :: 0 <= i < |movies| && movies[i].state == Searching && SubmitAction(TaskSearch(movies[i], reading), movies[i].id, dir, a)
    ensures forall i :: 0 <= i < |movies| && movies[i].state == Searching ==> FindMovie(TaskSearch(movies[i], reading)) in r
    decreases |movies|
  {
    if movies == [] then []
    else
      var head := ProbeOne(movies[0], reading, indexer, dir);
      var rest := ProbeWith(movies[1..], reading, indexer, dir);
      assert forall i :: 1 <= i < |movies| ==> movies[i] == movies[1..][i - 1];
      assert forall a :: a in head + rest <==> a in head || a in rest;
      head + rest
  }

  function ProbeAsWritten(movies: seq<TaskMovie>, indexer: Indexer, dir: string): (r: seq<Action>)
    ensures forall i :: 0 <= i < |movies| && movies[i].state == Searching ==>
      FindMovie(TaskSearch(movies[i], PerCharacter)) in r
  {
    ProbeWith(movies, PerCharacter, indexer, dir)
  }

  function Probe(movies: seq<TaskMovie>, indexer: Indexer, dir: string): (r: seq<Action>)
    ensures forall i :: 0 <= i < |movies| && movies[i].state == Searching ==>
      FindMovie(TaskSearch(movies[i], CommaSeparated)) in r
  {
    ProbeWith(movies, CommaSeparated, indexer, dir)
  }

  /** As written, a stored profile "720p,1080p" is searched as ten one-character
      resolutions, the first query being the name followed by "+7". */
  lemma ProfilePerCharacter()
    ensures Profile(PerCharacter, Some("720p,1080p")) ==
      ["7", "2", "0", "p", ",", "1", "0", "8", "0", "p"]
    ensures QueryString("movie", Profile(PerCharacter, Some("720p,1080p"))[0]) == "movie+7"
  {
    assert Lower("7") == "7";
  }

  /** Split at commas, the same profile is searched as its two resolutions. */
  lemma ProfileCommaSeparated()
    ensures Profile(CommaSeparated, Some("720p,1080p")) == ["720p", "1080p"]
  {
    var first, second := "720p", "1080p";
    assert ',' !in first && ',' !in second by {
      assert forall i :: 0 <= i < |first| ==> first[i] != ',';
      assert forall i :: 0 <= i < |second| ==> second[i] != ',';
    }
    assert "720p,1080p" == first + [','] + second;
    SplitAfterPiece(first, ',', second);
    SplitNoSeparator(second, ',');
    assert Split("720p,1080p", ',') == [first, second];
  }

  /** One pass of the loop over the torrents: SEEDING completes after the retention
      period, its torrent removed first; anything else becomes SEEDING on an exactly
      "uploading" torrent. Each action is issued at most once. */
  function TaskStep(m: TaskMovie, t: Torrent, now: int, retention: int): (r: seq<Action>)
    ensures forall a :: a in r ==> a == Client(Remove([m.hash])) || a == Store(SetState(Movies, m.id, LoopTarget(m.state)))
    ensures Client(Remove([m.hash])) in r <==> m.state == Seeding && Expired(now, t.addedOn, retention)
    ensures Store(SetState(Movies, m.id, LoopTarget(m.state))) in r
      <==> (if m.state == Seeding then Expired(now, t.addedOn, retention) else t.state == "uploading")
    ensures |r| <= 2 && (r != [] ==> r[|r| - 1].Store?)
    ensures |r| == 2 ==> r[0] == Client(Remove([m.hash]))
  {
    if m.state == Seeding then
      if Expired(now, t.addedOn, retention) then [Client(Remove([m.hash])), Store(SetState(Movies, m.id, Completed))] else []
    else if t.state == "uploading" then [Store(SetState(Movies, m.id, Seeding))]
    else []
  }

  /** The state the loop writes, if any: COMPLETED from SEEDING, SEEDING otherwise. */
  function LoopTarget(current: State): State {
    if current == Seeding then Completed else Seeding
  }

  /** Some torrent triggers the loop's write for a movie in state `current`. */
  ghost predicate LoopFires(current: State, ts: seq<Torrent>, now: int, retention: int) {
    if current == Seeding then SomeExpired(ts, now, retention) else SomeUploading(ts)
  }

  function TaskSteps(m: TaskMovie, ts: seq<Torrent>, now: int, retention: int): (r: seq<Action>)
    ensures forall a :: a in r ==>
      a == Client(Remove([m.hash])) || a == Store(SetState(Movies, m.id, LoopTarget(m.state)))
    ensures Store(SetState(Movies, m.id, LoopTarget(m.state))) in r <==> LoopFires(m.state, ts, now, retention)
    ensures Client(Remove([m.hash])) in r <==> m.state == Seeding && SomeExpired(ts, now, retention)
    decreases |ts|
  {
    if ts == [] then []
    else
      var head := TaskStep(m, ts[0], now, retention);
      var rest := TaskSteps(m, ts[1..], now, retention);
      assert forall i :: 1 <= i < |ts| ==> ts[i] == ts[1..][i - 1];
      assert forall a :: a in head + rest <==> a in head || a in rest;
      assert ts[0] in ts;
      head + rest
  }

  /** Store writes that all set row `key` to `v` leave it at `v` if there is any, and
      leave the store as it was if there is none. */
  lemma {:induction false} ApplySameState(m: StateStore, actions: seq<Action>, key: (Table, int), v: State)
    requires key in m
    requires forall a :: a in actions && a.Store? ==> a.write == SetState(key.0, key.1, v)
    ensures Apply(m, actions) == if exists a :: a in actions && a.Store? then m[key := v] else m
    decreases |actions|
  {
    if actions != [] {
      var m' := if actions[0].Store? then ApplyWrite(m, actions[0].write) else m;
      assert forall a :: a in actions <==> a == actions[0] || a in actions[1..];
      ApplySameState(m', actions[1..], key, v);
      if actions[0].Store? {
        assert m' == m[key := v];
        assert m'[key := v] == m';
      }
    }
  }

  /** `update` for one movie: as written only SEARCHING is skipped; the corrected pass
      also leaves COMPLETED movies alone. */
  function UpdateMovieWith(skipCompleted: bool, m: TaskMovie, ts: seq<Torrent>, now: int, retention: int): (r: seq<Action>)
    ensures var skipped := m.state == Searching || (skipCompleted && m.state == Completed);
      && (r == [] <==> skipped)
      && (!skipped ==> r[0] == Client(Query(m.hash)))
      && (Store(SetState(Movies, m.id, Deleted)) in r <==> !skipped && ts == [])
      && (Store(SetState(Movies, m.id, LoopTarget(m.state))) in r <==> !skipped && LoopFires(m.state, ts, now, retention))
      && (Client(Remove([m.hash])) in r <==> !skipped && m.state == Seeding && SomeExpired(ts, now, retention))
    ensures forall a :: a in r && a.Store? ==>
      || a.write == SetState(Movies, m.id, Deleted)
      || a.write == SetState(Movies, m.id, LoopTarget(m.state))
    ensures forall a :: a in r && a.Client? ==> a.command == Query(m.hash) || a.command == Remove([m.hash])
  {
    if m.state == Searching || (skipCompleted && m.state == Completed) then []
    else
      var gone := if ts == [] then [Store(SetState(Movies, m.id, Deleted))] else [];
      var loop := TaskSteps(m, ts, now, retention);
      assert LoopTarget(m.state) != Deleted;
      assert forall a :: a in [Client(Query(m.hash))] + gone + loop <==> a == Client(Query(m.hash)) || a in gone || a in loop;
      [Client(Query(m.hash))] + gone + loop
  }

  /** The stored state after one update, as a reference: no torrent means DELETED; else
      the loop's write if some torrent fires it; else unchanged. */
  ghost function NextTaskState(current: State, ts: seq<Torrent>, now: int, retention: int): State {
    if ts == [] then Deleted
    else if LoopFires(current, ts, now, retention) then LoopTarget(current)
    else current
  }

  /** The update moves the movie's row to the reference state and changes nothing else. */
  lemma UpdateMovieOutcome(skipCompleted: bool, m: TaskMovie, ts: seq<Torrent>, now: int, retention: int, store: StateStore)
    requires (Movies, m.id) in store && store[(Movies, m.id)] == m.state
    ensures var skipped := m.state == Searching || (skipCompleted && m.state == Completed);
      Apply(store, UpdateMovieWith(skipCompleted, m, ts, now, retention))
        == if skipped then store else store[(Movies, m.id) := NextTaskState(m.state, ts, now, retention)]
  {
    var key := (Movies, m.id);
    var r := UpdateMovieWith(skipCompleted, m, ts, now, retention);
    if r != [] {
      var loop := TaskSteps(m, ts, now, retention);
      if ts == [] {
        assert r == [Client(Query(m.hash)), Store(SetState(Movies, m.id, Deleted))];
        ApplyOneWrite(store, Query(m.hash), SetState(Movies, m.id, Deleted));
      } else {
        assert r == [Client(Query(m.hash))] + loop;
        ApplyAppend(store, [Client(Query(m.hash))], loop);
        ApplyNoWrites(store, [Client(Query(m.hash))]);
        ApplySameState(store, loop, key, LoopTarget(m.state));
        if !LoopFires(m.state, ts, now, retention) {
          assert store[key := m.state] == store;
        }
      }
    }
  }

  /** As written, a movie the update completed is marked DELETED on the next pass: its
      torrent was removed, so the client reports nothing for its hash. */
  lemma CompletedRelabelledDeleted(m: TaskMovie, t: Torrent, now: int, retention: int, store: StateStore)
    requires m.state == Seeding && Expired(now, t.addedOn, retention)
    requires (Movies, m.id) in store && store[(Movies, m.id)] == Seeding
    ensures var first := UpdateMovieWith(false, m, [t], now, retention);
      var after := Apply(store, first);
      && Client(Remove([m.hash])) in first
      && (Movies, m.id) in after && after[(Movies, m.id)] == Completed
      && var second := Apply(after, UpdateMovieWith(false, m.(state := Completed), [], now, retention));
         (Movies, m.id) in second && second[(Movies, m.id)] == Deleted
  {
    UpdateMovieOutcome(false, m, [t], now, retention, store);
    var after := Apply(store, UpdateMovieWith(false, m, [t], now, retention));
    UpdateMovieOutcome(false, m.(state := Completed), [], now, retention, after);
  }

  /** Corrected, COMPLETED is final: the movie is left alone whatever the client reports. */
  lemma CompletedStaysCompleted(m: TaskMovie, ts: seq<Torrent>, now: int, retention: int, store: StateStore)
    requires m.state == Completed
    ensures UpdateMovieWith(true, m, ts, now, retention) == []
    ensures Apply(store, UpdateMovieWith(true, m, ts, now, retention)) == store
  {
  }

  /** `update` over every movie, as written or corrected. */
  function UpdateWith(skipCompleted: bool, movies: seq<TaskMovie>, client: TorrentLookup, now: int, retention: int): (r: seq<Action>)
    ensures forall a :: a in r && a.Store? ==> exists i :: 0 <= i < |movies| && Target(a.write) == Some((Movies, movies[i].id))
    ensures forall i :: 0 <= i < |movies| && movies[i].state != Searching ==>
      (skipCompleted && movies[i].state == Completed) || Client(Query(movies[i].hash)) in r
    decreases |movies|
  {
    if movies == [] then []
    else
      var m := movies[0];
      var head := UpdateMovieWith(skipCompleted, m, client(m.hash), now, retention);
      var rest := UpdateWith(skipCompleted, movies[1..], client, now, retention);
      assert forall i :: 1 <= i < |movies| ==> movies[i] == movies[1..][i - 1];
      assert forall a :: a in head + rest <==> a in head || a in rest;
      head + rest
  }

  function UpdateAsWritten(movies: seq<TaskMovie>, client: TorrentLookup, now: int, retention: int): (r: seq<Action>)
    ensures forall i :: 0 <= i < |movies| && movies[i].state != Searching ==> Client(Query(movies[i].hash)) in r
  {
    UpdateWith(false, movies, client, now, retention)
  }

  function Update(movies: seq<TaskMovie>, client: TorrentLookup, now: int, retention: int): (r: seq<Action>)
    ensures forall i :: 0 <= i < |movies| && movies[i].state != Searching && movies[i].state != Completed ==>
      Client(Query(movies[i].hash)) in r
  {
    UpdateWith(true, movies, client, now, retention)
  }
}

=== FILE: text.dfy ===
/** String helpers standing in for the Python string operations the core relies on:
    `str.lower()` (ASCII letters only), the `in` substring test, `str.split(sep)`,
    `set(...)` over a list of strings, and `f"{n}"` for integers. */
module Text {

  function LowerChar(c: char): char {
    if 'A' <= c <= 'Z' then (c as int + 32) as char else c
  }

  /** `s.lower()` restricted to ASCII letters. */
  function Lower(s: string): (r: string)
    ensures |r| == |s|
  {
    seq(|s|, i requires 0 <= i < |s| => LowerChar(s[i]))
  }

  predicate StartsWith(s: string, p: string) {
    |p| <= |s| && s[..|p|] == p
  }

  /** `sub` occurs in `s` at position `i`. */
  ghost predicate OccursAt(s: string, sub: string, i: int) {
    0 <= i && i + |sub| <= |s| && s[i..i + |sub|] == sub
  }

  /** Python's `sub in s` for strings, computed by scanning the start positions. */
  predicate Contains(s: string, sub: string)
    decreases |s|
  {
    StartsWith(s, sub) || (|s| > 0 && Contains(s[1..], sub))
  }

  /** The scan finds `sub` exactly when it occurs somewhere in `s`. */
  lemma {:induction false} ContainsIff(s: string, sub: string)
    ensures Contains(s, sub) <==> exists i :: OccursAt(s, sub, i)
    decreases |s|
  {
    assert OccursAt(s, sub, 0) ==> StartsWith(s, sub);
    if StartsWith(s, sub) {
      assert OccursAt(s, sub, 0);
    } else if |s| == 0 {
      assert forall i :: OccursAt(s, sub, i) ==> i == 0;
    } else {
      ContainsIff(s[1..], sub);
      forall i | OccursAt(s[1..], sub, i) ensures OccursAt(s, sub, i + 1) {
        assert s[1..][i..i + |sub|] == s[i + 1..i + 1 + |sub|];
      }
      forall i | OccursAt(s, sub, i) && i > 0 ensures OccursAt(s[1..], sub, i - 1) {
        assert s[1..][i - 1..i - 1 + |sub|] == s[i..i + |sub|];
      }
    }
  }

  /** Python's `s.split(sep)`: the pieces between separators, at least one piece. */
  function Split(s: string, sep: char): (r: seq<string>)
    ensures |r| >= 1
    ensures forall i :: 0 <= i < |r| ==> sep !in r[i]
    decreases |s|
  {
    if s == [] then [""]
    else
      var rest := Split(s[1..], sep);
      if s[0] == sep then [""] + rest
      else [[s[0]] + rest[0]] + rest[1..]
  }

  /** Python's `sep.join(parts)`. */
  function Join(parts: seq<string>, sep: string): string
    decreases |parts|
  {
    if |parts| == 0 then ""
    else if |parts| == 1 then parts[0]
    else parts[0] + sep + Join(parts[1..], sep)
  }

  /** Joining the pieces of a split gives back the original string. */
  lemma {:induction false} JoinSplit(s: string, sep: char)
    ensures Join(Split(s, sep), [sep]) == s
    decreases |s|
  {
    if s != [] {
      var rest := Split(s[1..], sep);
      JoinSplit(s[1..], sep);
      if s[0] == sep {
        assert Join(Split(s, sep), [sep]) == "" + [sep] + Join(rest, [sep]);
      } else if |rest| == 1 {
        assert Join(Split(s, sep), [sep]) == [s[0]] + rest[0];
      } else {
        assert Join(rest, [sep]) == rest[0] + [sep] + Join(rest[1..], [sep]);
        assert Split(s, sep)[1..] == rest[1..];
        assert Join(Split(s, sep), [sep]) == [s[0]] + rest[0] + [sep] + Join(rest[1..], [sep]);
      }
    }
  }

  /** Splitting `p + sep + t` where `p` has no separator yields `p` followed by the pieces of `t`. */
  lemma {:induction false} SplitAfterPiece(p: string, sep: char, t: string)
    requires sep !in p
    ensures Split(p + [sep] + t, sep) == [p] + Split(t, sep)
    decreases |p|
  {
    if p == [] {
      assert p + [sep] + t == [sep] + t;
      assert ([sep] + t)[1..] == t;
    } else {
      SplitAfterPiece(p[1..], sep, t);
      assert (p + [sep] + t)[1..] == p[1..] + [sep] + t;
      assert [p[0]] + p[1..] == p;
    }
  }

  /** A string without separators splits into itself. */
  lemma {:induction false} SplitNoSeparator(p: string, sep: char)
    requires sep !in p
    ensures Split(p, sep) == [p]
    decreases |p|
  {
    if p != [] {
      SplitNoSeparator(p[1..], sep);
      assert [p[0]] + p[1..] == p;
    }
  }

  /** Splitting a join of separator-free pieces gives back the pieces. */
  lemma {:induction false} SplitJoin(parts: seq<string>, sep: char)
    requires |parts| >= 1
    requires forall i :: 0 <= i < |parts| ==> sep !in parts[i]
    ensures Split(Join(parts, [sep]), sep) == parts
    decreases |parts|
  {
    if |parts| == 1 {
      SplitNoSeparator(parts[0], sep);
    } else {
      SplitJoin(parts[1..], sep);
      SplitAfterPiece(parts[0], sep, Join(parts[1..], [sep]));
      assert [parts[0]] + parts[1..] == parts;
    }
  }

  /** The distinct elements of `s` in order of first occurrence: the model's iteration
      order for a Python `set(...)` built from a list. */
  function Dedup(s: seq<string>): (r: seq<string>)
    ensures forall x :: x in r <==> x in s
    ensures forall i, j :: 0 <= i < j < |r| ==> r[i] != r[j]
    decreases |s|
  {
    if s == [] then []
    else
      var rest := Dedup(s[..|s| - 1]);
      if s[|s| - 1] in rest then rest else rest + [s[|s| - 1]]
  }

  /** The one-character strings of `s`, in order: what iterating over a string yields. */
  function Characters(s: string): (r: seq<string>)
    ensures |r| == |s| && forall i :: 0 <= i < |s| ==> r[i] == [s[i]]
  {
    seq(|s|, i requires 0 <= i < |s| => [s[i]])
  }

  function DigitChar(d: int): char
    requires 0 <= d < 10
  {
    ('0' as int + d) as char
  }

  predicate IsDigit(c: char) {
    '0' <= c <= '9'
  }

  function NatToString(n: nat): (r: string)
    ensures |r| >= 1
    ensures forall i :: 0 <= i < |r| ==> IsDigit(r[i])
    decreases n
  {
    if n < 10 then [DigitChar(n)] else NatToString(n / 10) + [DigitChar(n % 10)]
  }

  /** `f"{n}"` for an integer. */
  function IntToString(n: int): string {
    if n < 0 then "-" + NatToString(-n) else NatToString(n)
  }
}

=== FILE: tv_show_probe.dfy ===
/** `TVShowProbe` of src/probes/tv_show_probe.py: discovery of new seasons and episodes
    from the show catalog, the choice between a whole-season and a per-episode download,
    and the update pass (deletion of shows, show-state aggregation, season
    reconciliation). The catalog, the indexer and the torrent client are inputs. */
module TvShowProbe {
  import opened Wrappers
  import opened Text
  import opened States
  import opened Candidates
  import opened Jackett
  import opened Effects
  import opened Units
  import opened Reconcile
  import opened Aggregation

  // ---------------------------------------------------------------------------------
  // Discovery (`search_seasons`)

  /** One episode of the catalog; `airDate` is its 'original air date', when present. */
  datatype CatalogEpisode = CatalogEpisode(number: int, airDate: Option<string>)

  /** One season of the catalog with its episodes, in catalog order. */
  datatype CatalogSeason = CatalogSeason(number: int, episodes: seq<CatalogEpisode>)

  /** The episode numbers already stored for a season number of the show. */
  function KnownEpisodes(knownEpisodes: map<int, set<int>>, n: int): set<int> {
    if n in knownEpisodes then knownEpisodes[n] else {}
  }

  /** The episode numbers the actions add to season `n` of show `showId`. */
  ghost function AddedEpisodes(r: seq<Action>, showId: int, n: int): set<int> {
    set a | a in r && a.Store? && a.write.AddEpisode? && a.write.showId == showId && a.write.seasonNumber == n
      :: a.write.episodeNumber
  }

  ghost predicate DatedIn(eps: seq<CatalogEpisode>, number: int, date: string) {
    exists j :: 0 <= j < |eps| && eps[j] == CatalogEpisode(number, Some(date))
  }

  /** The episodes of a season that is new to the store: exactly the dated ones. */
  function NewSeasonEpisodes(showId: int, n: int, eps: seq<CatalogEpisode>): (r: seq<Action>)
    ensures forall a :: a in r ==>
      && a.Store? && a.write.AddEpisode? && a.write.showId == showId && a.write.seasonNumber == n
      && DatedIn(eps, a.write.episodeNumber, a.write.airDate)
    ensures forall j :: 0 <= j < |eps| && eps[j].airDate.Some? ==>
      Store(AddEpisode(showId, n, eps[j].number, eps[j].airDate.value)) in r
    decreases |eps|
  {
    if eps == [] then []
    else
      assert forall j :: 1 <= j < |eps| ==> eps[j] == eps[1..][j - 1];
      (if eps[0].airDate.Some? then [Store(AddEpisode(showId, n, eps[0].number, eps[0].airDate.value))] else [])
      + NewSeasonEpisodes(showId, n, eps[1..])
  }

  /** The episodes of the last, already known season: an unknown dated episode is added
      and the season's episode count is rewritten after every catalog episode. An
      episode added here counts as known for the rest of the loop. */
  function RefreshEpisodes(showId: int, n: int, count: int, eps: seq<CatalogEpisode>, known: set<int>): (r: seq<Action>)
    ensures forall a :: a in r ==>
      || a == Store(SetEpisodeCount(showId, n, count))
      || (&& a.Store? && a.write.AddEpisode? && a.write.showId == showId && a.write.seasonNumber == n
          && a.write.episodeNumber !in known && DatedIn(eps, a.write.episodeNumber, a.write.airDate))
    ensures forall j :: 0 <= j < |eps| && eps[j].airDate.Some? && eps[j].number !in known ==>
      eps[j].number in AddedEpisodes(r, showId, n)
    ensures eps != [] ==> Store(SetEpisodeCount(showId, n, count)) in r
    decreases |eps|
  {
    if eps == [] then []
    else
      var e := eps[0];
      var add := e.number !in known && e.airDate.Some?;
      var head := (if add then [Store(AddEpisode(showId, n, e.number, e.airDate.value))] else [])
        + [Store(SetEpisodeCount(showId, n, count))];
      var rest := RefreshEpisodes(showId, n, count, eps[1..], if add then known + {e.number} else known);
      assert forall j :: 1 <= j < |eps| ==> eps[j] == eps[1..][j - 1];
      assert forall a :: a in head + rest <==> a in head || a in rest;
      assert add ==> e.number in AddedEpisodes(head + rest, showId, n) by {
        if add {
          assert (head + rest)[0] == Store(AddEpisode(showId, n, e.number, e.airDate.value));
        }
      }
      head + rest
  }

  /** The body of `search_seasons` for one catalog season. */
  function DiscoverSeason(showId: int, known: set<int>, s: CatalogSeason, last: int, knownEpisodes: map<int, set<int>>): (r: seq<Action>)
    ensures forall a :: a in r ==>
      && a.Store? && (a.write.AddSeason? || a.write.AddEpisode? || a.write.SetEpisodeCount?)
      && a.write.showId == showId && a.write.seasonNumber == s.number
    ensures s.number !in known ==> Store(AddSeason(showId, s.number, |s.episodes|)) in r
    ensures s.number !in known ==> forall j :: 0 <= j < |s.episodes| && s.episodes[j].airDate.Some? ==>
      Store(AddEpisode(showId, s.number, s.episodes[j].number, s.episodes[j].airDate.value)) in r
    ensures forall a :: a in r && a.write.AddSeason? ==> s.number !in known && a.write.episodeCount == |s.episodes|
    ensures forall a :: a in r && a.write.SetEpisodeCount? ==>
      s.number in known && s.number == last && a.write.episodeCount == |s.episodes|
    ensures forall a :: a in r && a.write.AddEpisode? ==>
      && DatedIn(s.episodes, a.write.episodeNumber, a.write.airDate)
      && (s.number !in known || (s.number == last && a.write.episodeNumber !in KnownEpisodes(knownEpisodes, last)))
    ensures s.number in known && s.number == last ==>
      forall j ::
        (0 <= j < |s.episodes| && s.episodes[j].airDate.Some?
         && s.episodes[j].number !in KnownEpisodes(knownEpisodes, last)) ==>
        s.episodes[j].number in AddedEpisodes(r, showId, last)
    ensures s.number in known && s.number != last ==> r == []
  {
    if s.number !in known then
      var eps := NewSeasonEpisodes(showId, s.number, s.episodes);
      assert forall a :: a in [Store(AddSeason(showId, s.number, |s.episodes|))] + eps <==>
        a == Store(AddSeason(showId, s.number, |s.episodes|)) || a in eps;
      [Store(AddSeason(showId, s.number, |s.episodes|))] + eps
    else if s.number == last then
      RefreshEpisodes(showId, s.number, |s.episodes|, s.episodes, KnownEpisodes(knownEpisodes, s.number))
    else []
  }

  /** The loop of `search_seasons`: the actions of every catalog season, in order. */
  function DiscoverSeasons(showId: int, known: set<int>, seasons: seq<CatalogSeason>, last: int, knownEpisodes: map<int, set<int>>): (r: seq<Action>)
    ensures forall a :: a in r <==>
      exists i :: 0 <= i < |seasons| && a in DiscoverSeason(showId, known, seasons[i], last, knownEpisodes)
    decreases |seasons|
  {
    if seasons == [] then []
    else
      var head := DiscoverSeason(showId, known, seasons[0], last, knownEpisodes);
      var rest := DiscoverSeasons(showId, known, seasons[1..], last, knownEpisodes);
      assert forall i :: 1 <= i < |seasons| ==> seasons[i] == seasons[1..][i - 1];
      assert forall a :: a in head + rest <==> a in head || a in rest;
      head + rest
  }

  /** `search_seasons`: the last season is the one whose number equals the number of
      catalog seasons. Unknown seasons are added with their catalog episode count and
      their dated episodes; the last known season gains its unknown dated episodes and
      has its count rewritten; every other known season is left alone. */
  function SearchSeasons(showId: int, known: set<int>, catalog: seq<CatalogSeason>, knownEpisodes: map<int, set<int>>): (r: seq<Action>)
    ensures forall a :: a in r ==>
      a.Store? && (a.write.AddSeason? || a.write.AddEpisode? || a.write.SetEpisodeCount?) && a.write.showId == showId
    ensures forall i :: 0 <= i < |catalog| && catalog[i].number !in known ==>
      Store(AddSeason(showId, catalog[i].number, |catalog[i].episodes|)) in r
    ensures forall a :: a in r && a.write.AddSeason? ==>
      && a.write.seasonNumber !in known
      && exists i :: 0 <= i < |catalog| && catalog[i].number == a.write.seasonNumber
                     && |catalog[i].episodes| == a.write.episodeCount
    ensures forall a :: a in r && a.write.SetEpisodeCount? ==> a.write.seasonNumber == |catalog| && |catalog| in known
    ensures forall a :: a in r && a.write.AddEpisode? ==>
      && (exists i :: 0 <= i < |catalog| && catalog[i].number == a.write.seasonNumber
                      && DatedIn(catalog[i].episodes, a.write.episodeNumber, a.write.airDate))
      && (a.write.seasonNumber !in known
          || (a.write.seasonNumber == |catalog| && a.write.episodeNumber !in KnownEpisodes(knownEpisodes, |catalog|)))
    ensures forall i, j ::
      (0 <= i < |catalog| && 0 <= j < |catalog[i].episodes| && catalog[i].number !in known
       && catalog[i].episodes[j].airDate.Some?) ==>
      Store(AddEpisode(showId, catalog[i].number, catalog[i].episodes[j].number, catalog[i].episodes[j].airDate.value)) in r
  {
    var r := DiscoverSeasons(showId, known, catalog, |catalog|, knownEpisodes);
    DiscoveredShape(showId, known, catalog, knownEpisodes, r);
    DiscoveredComplete(showId, known, catalog, knownEpisodes, r);
    r
  }

  /** What every action of `search_seasons` is. */
  lemma DiscoveredShape(showId: int, known: set<int>, catalog: seq<CatalogSeason>, knownEpisodes: map<int, set<int>>, r: seq<Action>)
    requires r == DiscoverSeasons(showId, known, catalog, |catalog|, knownEpisodes)
    ensures forall a :: a in r ==>
      a.Store? && (a.write.AddSeason? || a.write.AddEpisode? || a.write.SetEpisodeCount?) && a.write.showId == showId
    ensures forall a :: a in r && a.write.AddSeason? ==>
      && a.write.seasonNumber !in known
      && exists i :: 0 <= i < |catalog| && catalog[i].number == a.write.seasonNumber
                     && |catalog[i].episodes| == a.write.episodeCount
    ensures forall a :: a in r && a.write.SetEpisodeCount? ==> a.write.seasonNumber == |catalog| && |catalog| in known
    ensures forall a :: a in r && a.write.AddEpisode? ==>
      && (exists i :: 0 <= i < |catalog| && catalog[i].number == a.write.seasonNumber
                      && DatedIn(catalog[i].episodes, a.write.episodeNumber, a.write.airDate))
      && (a.write.seasonNumber !in known
          || (a.write.seasonNumber == |catalog| && a.write.episodeNumber !in KnownEpisodes(knownEpisodes, |catalog|)))
  {
  }

  /** Every unknown season, and every dated episode of it, is added. */
  lemma DiscoveredComplete(showId: int, known: set<int>, catalog: seq<CatalogSeason>, knownEpisodes: map<int, set<int>>, r: seq<Action>)
    requires r == DiscoverSeasons(showId, known, catalog, |catalog|, knownEpisodes)
    ensures forall i :: 0 <= i < |catalog| && catalog[i].number !in known ==>
      Store(AddSeason(showId, catalog[i].number, |catalog[i].episodes|)) in r
    ensures forall i, j ::
      (0 <= i < |catalog| && 0 <= j < |catalog[i].episodes| && catalog[i].number !in known
       && catalog[i].episodes[j].airDate.Some?) ==>
      Store(AddEpisode(showId, catalog[i].number, catalog[i].episodes[j].number, catalog[i].episodes[j].airDate.value)) in r
  {
    forall i | 0 <= i < |catalog| && catalog[i].number !in known
      ensures Store(AddSeason(showId, catalog[i].number, |catalog[i].episodes|)) in r
    {
      assert Store(AddSeason(showId, catalog[i].number, |catalog[i].episodes|))
        in DiscoverSeason(showId, known, catalog[i], |catalog|, knownEpisodes);
    }
    forall i, j | 0 <= i < |catalog| && 0 <= j < |catalog[i].episodes| && catalog[i].number !in known
                  && catalog[i].episodes[j].airDate.Some?
      ensures Store(AddEpisode(showId, catalog[i].number, catalog[i].episodes[j].number, catalog[i].episodes[j].airDate.value)) in r
    {
      var e := catalog[i].episodes[j];
      assert Store(AddEpisode(showId, catalog[i].number, e.number, e.airDate.value))
        in DiscoverSeason(showId, known, catalog[i], |catalog|, knownEpisodes);
    }
  }

  /** Every unknown dated episode of the last known season is added. */
  lemma {:induction false} LastSeasonRefreshed(showId: int, known: set<int>, catalog: seq<CatalogSeason>, knownEpisodes: map<int, set<int>>, i: int, j: int)
    requires 0 <= i < |catalog| && 0 <= j < |catalog[i].episodes|
    requires catalog[i].number == |catalog| && |catalog| in known
    requires catalog[i].episodes[j].airDate.Some?
    requires catalog[i].episodes[j].number !in KnownEpisodes(knownEpisodes, |catalog|)
    ensures exists a ::
      && a in SearchSeasons(showId, known, catalog, knownEpisodes) && a.Store? && a.write.AddEpisode?
      && a.write.seasonNumber == |catalog| && a.write.episodeNumber == catalog[i].episodes[j].number
  {
    var d := DiscoverSeason(showId, known, catalog[i], |catalog|, knownEpisodes);
    var n := catalog[i].episodes[j].number;
    assert n in AddedEpisodes(d, showId, |catalog|);
    var a :| a in d && a.Store? && a.write.AddEpisode? && a.write.showId == showId
      && a.write.seasonNumber == |catalog| && a.write.episodeNumber == n;
    assert a in DiscoverSeasons(showId, known, catalog, |catalog|, knownEpisodes);
  }

  // ---------------------------------------------------------------------------------
  // Acquisition (`download_season`, `is_season_complete`, `download`)

  /** A stored episode; `airDay` is its air date as a day number. */
  datatype EpisodeRow = EpisodeRow(id: int, number: int, state: State, airDay: int)

  /** The season row `download_season` receives. */
  datatype SeasonRow = SeasonRow(
    seasonId: int,
    seasonNumber: int,
    episodeCount: int,
    resolutionProfile: string,
    maxEpisodeSizeMb: int,
    showName: string)

  /** `set(profile.split(','))`, listed in first-occurrence order. */
  function ResolutionSet(profile: string): (r: seq<string>)
    ensures forall x :: x in r <==> x in Split(profile, ',')
  {
    Dedup(Split(profile, ','))
  }

  /** A season may be downloaded whole once no episode has left SEARCHING and at least a
      whole day has passed since the last episode aired. An empty season is not complete. */
  predicate IsSeasonComplete(episodes: seq<EpisodeRow>, now: int): (r: bool)
    ensures episodes == [] ==> !r
    ensures (exists i :: 0 <= i < |episodes| && episodes[i].state != Searching) ==> !r
    ensures r ==> now - episodes[|episodes| - 1].airDay * 86400 >= 86400
    ensures (&& episodes != []
             && (forall i :: 0 <= i < |episodes| ==> episodes[i].state == Searching)
             && now - episodes[|episodes| - 1].airDay * 86400 >= 86400) ==> r
  {
    && episodes != []
    && (forall i :: 0 <= i < |episodes| ==> episodes[i].state == Searching)
    && ElapsedDays(now, episodes[|episodes| - 1].airDay) > 0
  }

  /** Completeness is never lost as time passes, and any episode already taken out of
      SEARCHING rules it out. */
  lemma {:induction false} SeasonCompleteStable(episodes: seq<EpisodeRow>, now: int, later: int)
    requires now <= later
    ensures IsSeasonComplete(episodes, now) ==> IsSeasonComplete(episodes, later)
    ensures (exists i :: 0 <= i < |episodes| && episodes[i].state != Searching) ==> !IsSeasonComplete(episodes, later)
  {
    if episodes != [] {
      ElapsedDaysMonotone(now, later, episodes[|episodes| - 1].airDay);
    }
  }

  /** A season whose last episode aired yesterday is complete; one airing today or
      tomorrow is not. */
  lemma SeasonCompleteExamples(id: int, day: int, secondOfDay: int)
    requires 0 <= secondOfDay < 86400
    ensures IsSeasonComplete([EpisodeRow(id, 1, Searching, day - 1)], day * 86400 + secondOfDay)
    ensures !IsSeasonComplete([EpisodeRow(id, 1, Searching, day)], day * 86400 + secondOfDay)
    ensures !IsSeasonComplete([EpisodeRow(id, 1, Searching, day + 1)], day * 86400 + secondOfDay)
  {
  }

  /** What `download` did and the hash it returned ("" for none). */
  datatype Found = Found(actions: seq<Action>, hash: Hash)

  /** The query `download` sends: the size argument converted to bytes once more, two
      seeds at least. */
  function SeasonQuery(name: string, season: int, maxMb: int, resolutions: seq<string>, episode: Option<int>): (q: SeriesQuery)
    ensures q.name == name && q.season == season && q.episode == episode && q.resolutions == resolutions
    ensures q.maxSize == Some(maxMb * 1048576) && q.minSeeds == Some(2)
    ensures q.lang.None? && q.imdbid.None?
  {
    SeriesQuery(name, resolutions, season, Some(MbToBytes(maxMb)), None, Some(2), episode, None)
  }

  /** `download`: search, then submit the best-seeded result and return its hash. */
  function Download(name: string, season: int, maxMb: int, resolutions: seq<string>, episode: Option<int>, indexer: Indexer, dir: string): (r: Found)
    ensures var q := SeasonQuery(name, season, maxMb, resolutions, episode);
      var found := SearchTvSeries(q, indexer);
      && (found == [] ==> r == Found([FindSeries(q)], ""))
      && (found != [] ==> r == Found([FindSeries(q), Client(Add(found[0].magnet, dir))], found[0].infoHash))
      && (found != [] ==> forall c :: c in found ==> found[0].seeders >= c.seeders)
  {
    var q := SeasonQuery(name, season, maxMb, resolutions, episode);
    var found := SearchTvSeries(q, indexer);
    if found == [] then Found([FindSeries(q)], "")
    else
      HeadIsMax(found);
      Found([FindSeries(q), Client(Add(found[0].magnet, dir))], found[0].infoHash)
  }

  /** Which row a per-episode hit is written to: as written, the episode row whose id is
      the season's id; as intended, the episode's own row. */
  datatype EpisodeKey = SeasonIdKey | EpisodeIdKey

  function EpisodeTarget(key: EpisodeKey, row: SeasonRow, e: EpisodeRow): int {
    match key
    case SeasonIdKey => row.seasonId
    case EpisodeIdKey => e.id
  }

  /** One pass of the per-episode loop: an episode still in SEARCHING is searched on its
      own, and a found hash marks the row `key` selects DOWNLOADING. */
  function EpisodeDownload(row: SeasonRow, res: seq<string>, e: EpisodeRow, maxMb: int, key: EpisodeKey, indexer: Indexer, dir: string): (r: seq<Action>)
    ensures forall a :: a in r ==>
      || (a.FindSeries? && e.state == Searching
          && a.seriesQuery == SeasonQuery(row.showName, row.seasonNumber, maxMb, res, Some(e.number)))
      || (a.Store? && e.state == Searching && MarksDownloading(a.write, Episodes, EpisodeTarget(key, row, e)))
      || (a.Client? && a.command.Add? && a.command.dir == dir)
    ensures e.state == Searching ==>
      var f := Download(row.showName, row.seasonNumber, maxMb, res, Some(e.number), indexer, dir);
      f.hash != "" ==> Store(SetStateAndHash(Episodes, EpisodeTarget(key, row, e), Downloading, f.hash)) in r
    ensures var f := Download(row.showName, row.seasonNumber, maxMb, res, Some(e.number), indexer, dir);
      forall a :: a in r && a.Store? ==>
        && e.state == Searching && f.hash != ""
        && a.write == SetStateAndHash(Episodes, EpisodeTarget(key, row, e), Downloading, f.hash)
  {
    if e.state != Searching then []
    else
      var f := Download(row.showName, row.seasonNumber, maxMb, res, Some(e.number), indexer, dir);
      var mark := if f.hash != "" then [Store(SetStateAndHash(Episodes, EpisodeTarget(key, row, e), Downloading, f.hash))] else [];
      assert forall a :: a in f.actions + mark <==> a in f.actions || a in mark;
      f.actions + mark
  }

  /** The per-episode branch of `download_season`. */
  function EpisodeDownloads(row: SeasonRow, res: seq<string>, eps: seq<EpisodeRow>, maxMb: int, key: EpisodeKey, indexer: Indexer, dir: string): (r: seq<Action>)
    ensures forall a :: a in r <==> exists i :: 0 <= i < |eps| && a in EpisodeDownload(row, res, eps[i], maxMb, key, indexer, dir)
    decreases |eps|
  {
    if eps == [] then []
    else
      var head := EpisodeDownload(row, res, eps[0], maxMb, key, indexer, dir);
      var rest := EpisodeDownloads(row, res, eps[1..], maxMb, key, indexer, dir);
      assert forall i :: 1 <= i < |eps| ==> eps[i] == eps[1..][i - 1];
      assert forall a :: a in head + rest <==> a in head || a in rest;
      head + rest
  }

  /** The whole-season branch: one search without an episode; a found hash marks the
      season DOWNLOADING. */
  function WholeSeasonDownload(row: SeasonRow, res: seq<string>, maxMb: int, indexer: Indexer, dir: string): (r: seq<Action>)
    ensures r != [] && r[0] == FindSeries(SeasonQuery(row.showName, row.seasonNumber, maxMb, res, None))
    ensures forall a :: a in r && a.Store? ==> MarksDownloading(a.write, Seasons, row.seasonId)
    ensures var f := Download(row.showName, row.seasonNumber, maxMb, res, None, indexer, dir);
      f.hash != "" <==> Store(SetStateAndHash(Seasons, row.seasonId, Downloading, f.hash)) in r
    ensures var f := Download(row.showName, row.seasonNumber, maxMb, res, None, indexer, dir);
      forall a :: a in r && a.Store? ==> f.hash != "" && a.write == SetStateAndHash(Seasons, row.seasonId, Downloading, f.hash)
  {
    var f := Download(row.showName, row.seasonNumber, maxMb, res, None, indexer, dir);
    var mark := if f.hash != "" then [Store(SetStateAndHash(Seasons, row.seasonId, Downloading, f.hash))] else [];
    assert forall a :: a in f.actions ==> !a.Store?;
    assert forall a :: a in f.actions + mark <==> a in f.actions || a in mark;
    f.actions + mark
  }

  /** `download_season` with the two size arguments passed to `download` and the
      episode-row key as parameters. */
  function SeasonDownload(row: SeasonRow, eps: seq<EpisodeRow>, now: int, seasonMaxMb: int, episodeMaxMb: int, key: EpisodeKey, indexer: Indexer, dir: string): (r: seq<Action>)
    ensures IsSeasonComplete(eps, now) ==>
      && r != [] && r[0] == FindSeries(SeasonQuery(row.showName, row.seasonNumber, seasonMaxMb, ResolutionSet(row.resolutionProfile), None))
      && forall a :: a in r && a.Store? ==> MarksDownloading(a.write, Seasons, row.seasonId)
    ensures !IsSeasonComplete(eps, now) ==>
      r == EpisodeDownloads(row, ResolutionSet(row.resolutionProfile), eps, episodeMaxMb, key, indexer, dir)
  {
    var res := ResolutionSet(row.resolutionProfile);
    if IsSeasonComplete(eps, now) then WholeSeasonDownload(row, res, seasonMaxMb, indexer, dir)
    else EpisodeDownloads(row, res, eps, episodeMaxMb, key, indexer, dir)
  }

  /** `download_season` as written: the byte ceilings, of the season and of each
      episode, are converted to bytes a second time inside `download`, and a per-episode
      hit is written to the episode whose id equals the season's id. */
  function DownloadSeasonAsWritten(row: SeasonRow, eps: seq<EpisodeRow>, now: int, indexer: Indexer, dir: string): (r: seq<Action>)
    ensures IsSeasonComplete(eps, now) ==>
      && r != [] && r[0].FindSeries?
      && r[0].seriesQuery.maxSize == Some(MbToBytes(MbToBytes(row.maxEpisodeSizeMb) * row.episodeCount))
    ensures !IsSeasonComplete(eps, now) ==> forall a :: a in r && a.FindSeries? ==>
      a.seriesQuery.maxSize == Some(MbToBytes(MbToBytes(row.maxEpisodeSizeMb)))
    ensures forall a :: a in r && a.Store? && !IsSeasonComplete(eps, now) ==>
      Target(a.write) == Some((Episodes, row.seasonId))
  {
    SeasonDownload(row, eps, now, MbToBytes(row.maxEpisodeSizeMb) * row.episodeCount, MbToBytes(row.maxEpisodeSizeMb),
      SeasonIdKey, indexer, dir)
  }

  /** `download_season` as evidently intended: the season ceiling is the episode ceiling
      times the number of episodes, in bytes, and a per-episode hit marks that episode
      DOWNLOADING with its hash. */
  function DownloadSeason(row: SeasonRow, eps: seq<EpisodeRow>, now: int, indexer: Indexer, dir: string): (r: seq<Action>)
    ensures IsSeasonComplete(eps, now) ==>
      && r != [] && r[0].FindSeries? && r[0].seriesQuery.episode.None?
      && r[0].seriesQuery.maxSize == Some(MbToBytes(row.maxEpisodeSizeMb * row.episodeCount))
      && r[0].seriesQuery.minSeeds == Some(2)
      && forall a :: a in r && a.Store? ==> MarksDownloading(a.write, Seasons, row.seasonId)
    ensures !IsSeasonComplete(eps, now) ==>
      && (forall a :: a in r && a.FindSeries? ==>
            && a.seriesQuery.maxSize == Some(MbToBytes(row.maxEpisodeSizeMb))
            && exists i :: 0 <= i < |eps| && eps[i].state == Searching && a.seriesQuery.episode == Some(eps[i].number))
      && (forall a :: a in r && a.Store? ==>
            exists i :: 0 <= i < |eps| && eps[i].state == Searching && MarksDownloading(a.write, Episodes, eps[i].id))
  {
    SeasonDownload(row, eps, now, row.maxEpisodeSizeMb * row.episodeCount, row.maxEpisodeSizeMb, EpisodeIdKey, indexer, dir)
  }

  /** As written, the whole-season ceiling is 1048576 times the intended one. */
  lemma SeasonCeilingOverconverted(row: SeasonRow, eps: seq<EpisodeRow>, now: int, indexer: Indexer, dir: string)
    requires IsSeasonComplete(eps, now)
    ensures DownloadSeasonAsWritten(row, eps, now, indexer, dir)[0].seriesQuery.maxSize.value
      == DownloadSeason(row, eps, now, indexer, dir)[0].seriesQuery.maxSize.value * 1048576
  {
    var x := row.maxEpisodeSizeMb;
    var n := row.episodeCount;
    assert DownloadSeasonAsWritten(row, eps, now, indexer, dir)[0].seriesQuery.maxSize == Some(MbToBytes(MbToBytes(x) * n));
    assert DownloadSeason(row, eps, now, indexer, dir)[0].seriesQuery.maxSize == Some(MbToBytes(x * n));
    MbToBytesScale(x, n);
    assert MbToBytes(MbToBytes(x * n)) == MbToBytes(x * n) * 1048576;
  }

  /** As written, every per-episode search asks for 1048576 times the intended ceiling. */
  lemma EpisodeCeilingOverconverted(row: SeasonRow, eps: seq<EpisodeRow>, now: int, indexer: Indexer, dir: string)
    requires !IsSeasonComplete(eps, now)
    ensures forall a :: a in DownloadSeasonAsWritten(row, eps, now, indexer, dir) && a.FindSeries? ==>
      a.seriesQuery.maxSize.value == MbToBytes(row.maxEpisodeSizeMb) * 1048576
    ensures forall a :: a in DownloadSeason(row, eps, now, indexer, dir) && a.FindSeries? ==>
      a.seriesQuery.maxSize.value == MbToBytes(row.maxEpisodeSizeMb)
  {
  }

  /** The as-written and intended ceilings for 10 episodes of at most 1000 MB: of the
      whole season, then of one episode. */
  lemma SeasonCeilingExample()
    ensures MbToBytes(MbToBytes(1000) * 10) == 10995116277760000
    ensures MbToBytes(1000 * 10) == 10485760000
    ensures MbToBytes(MbToBytes(1000)) == 1099511627776000
    ensures MbToBytes(1000) == 1048576000
  {
  }

  /** As written, a found episode never reaches its own row when its id differs from the
      season's: the write goes to episode row `seasonId` instead. As intended, the
      episode's own row is marked. */
  lemma {:induction false} EpisodeWriteMisdirected(row: SeasonRow, e: EpisodeRow, now: int, indexer: Indexer, dir: string)
    requires e.state == Searching && e.id != row.seasonId
    requires !IsSeasonComplete([e], now)
    requires Download(row.showName, row.seasonNumber, MbToBytes(row.maxEpisodeSizeMb), ResolutionSet(row.resolutionProfile),
                      Some(e.number), indexer, dir).hash != ""
    ensures forall a :: a in DownloadSeasonAsWritten(row, [e], now, indexer, dir) && a.Store? ==>
      Target(a.write) != Some((Episodes, e.id))
    ensures exists a :: a in DownloadSeasonAsWritten(row, [e], now, indexer, dir) && a.Store?
    ensures Download(row.showName, row.seasonNumber, row.maxEpisodeSizeMb, ResolutionSet(row.resolutionProfile),
                     Some(e.number), indexer, dir).hash != "" ==>
      exists a :: a in DownloadSeason(row, [e], now, indexer, dir) && a.Store? && Target(a.write) == Some((Episodes, e.id))
  {
    var res := ResolutionSet(row.resolutionProfile);
    var x := row.maxEpisodeSizeMb;
    var w := DownloadSeasonAsWritten(row, [e], now, indexer, dir);
    var v := DownloadSeason(row, [e], now, indexer, dir);
    assert w == EpisodeDownload(row, res, e, MbToBytes(x), SeasonIdKey, indexer, dir) by {
      EpisodeDownloadsSingle(row, res, e, MbToBytes(x), SeasonIdKey, indexer, dir);
    }
    assert v == EpisodeDownload(row, res, e, x, EpisodeIdKey, indexer, dir) by {
      EpisodeDownloadsSingle(row, res, e, x, EpisodeIdKey, indexer, dir);
    }
    var f := Download(row.showName, row.seasonNumber, MbToBytes(x), res, Some(e.number), indexer, dir);
    assert Store(SetStateAndHash(Episodes, row.seasonId, Downloading, f.hash)) in w;
    var g := Download(row.showName, row.seasonNumber, x, res, Some(e.number), indexer, dir);
    if g.hash != "" {
      assert Store(SetStateAndHash(Episodes, e.id, Downloading, g.hash)) in v;
    }
  }

  lemma EpisodeDownloadsSingle(row: SeasonRow, res: seq<string>, e: EpisodeRow, maxMb: int, key: EpisodeKey, indexer: Indexer, dir: string)
    ensures EpisodeDownloads(row, res, [e], maxMb, key, indexer, dir) == EpisodeDownload(row, res, e, maxMb, key, indexer, dir)
  {
    assert [e][0] == e && [e][1..] == [];
  }

  // ---------------------------------------------------------------------------------
  // Update pass (`update`)

  /** A show in DELETING with the hashes of its seasons ("" for a season without one). */
  datatype DeletingShow = DeletingShow(id: int, seasonHashes: seq<Hash>)

  /** The torrent removals for one deleted show: only seasons with a hash. */
  function RemoveSeasonTorrents(hashes: seq<Hash>): (r: seq<Action>)
    ensures forall a :: a in r ==>
      a.Client? && a.command.Remove? && |a.command.hashes| == 1 && a.command.hashes[0] in hashes && a.command.hashes[0] != ""
    ensures forall j :: 0 <= j < |hashes| && hashes[j] != "" ==> Client(Remove([hashes[j]])) in r
    decreases |hashes|
  {
    if hashes == [] then []
    else
      assert forall j :: 1 <= j < |hashes| ==> hashes[j] == hashes[1..][j - 1];
      (if hashes[0] != "" then [Client(Remove([hashes[0]]))] else []) + RemoveSeasonTorrents(hashes[1..])
  }

  /** The block of one deleted show: its seasons' torrent removals, then, last and only
      there, the deletion of the show row. */
  function DeleteOneShow(d: DeletingShow): (r: seq<Action>)
    ensures r != [] && r[|r| - 1] == Store(DeleteRow(Shows, d.id))
    ensures |r| <= |d.seasonHashes| + 1
    ensures forall k :: 0 <= k < |r| - 1 ==>
      && r[k].Client? && r[k].command.Remove? && |r[k].command.hashes| == 1
      && r[k].command.hashes[0] in d.seasonHashes && r[k].command.hashes[0] != ""
    ensures forall j :: 0 <= j < |d.seasonHashes| && d.seasonHashes[j] != "" ==>
      Client(Remove([d.seasonHashes[j]])) in r[..|r| - 1]
  {
    var removes := RemoveSeasonTorrents(d.seasonHashes);
    RemoveSeasonTorrentsLength(d.seasonHashes);
    var r := removes + [Store(DeleteRow(Shows, d.id))];
    assert r[..|r| - 1] == removes;
    assert forall k :: 0 <= k < |r| - 1 ==> r[k] == removes[k] && removes[k] in removes;
    r
  }

  lemma {:induction false} RemoveSeasonTorrentsLength(hashes: seq<Hash>)
    ensures |RemoveSeasonTorrents(hashes)| <= |hashes|
    decreases |hashes|
  {
    if hashes != [] {
      RemoveSeasonTorrentsLength(hashes[1..]);
    }
  }

  /** The deletion loop: each show's season torrents, then the show itself. */
  function DeleteShows(shows: seq<DeletingShow>): (r: seq<Action>)
    ensures forall i :: 0 <= i < |shows| ==> Store(DeleteRow(Shows, shows[i].id)) in r
    ensures forall i, j :: 0 <= i < |shows| && 0 <= j < |shows[i].seasonHashes| && shows[i].seasonHashes[j] != "" ==>
      Client(Remove([shows[i].seasonHashes[j]])) in r
    ensures forall a :: a in r && a.Store? ==> exists i :: 0 <= i < |shows| && a.write == DeleteRow(Shows, shows[i].id)
    ensures forall a :: a in r && a.Client? ==> a.command.Remove? && |a.command.hashes| == 1 && a.command.hashes[0] != ""
    ensures forall a :: a in r ==> a.Store? || a.Client?
    decreases |shows|
  {
    if shows == [] then []
    else
      var head := DeleteOneShow(shows[0]);
      assert head == RemoveSeasonTorrents(shows[0].seasonHashes) + [Store(DeleteRow(Shows, shows[0].id))];
      var rest := DeleteShows(shows[1..]);
      assert forall i :: 1 <= i < |shows| ==> shows[i] == shows[1..][i - 1];
      assert forall a :: a in head + rest <==> a in head || a in rest;
      head + rest
  }

  lemma DeleteShowsUnfold(shows: seq<DeletingShow>)
    requires shows != []
    ensures DeleteShows(shows) == DeleteOneShow(shows[0]) + DeleteShows(shows[1..])
  {
  }

  lemma ConcatAssoc(x: seq<Action>, y: seq<Action>, z: seq<Action>)
    ensures x + (y + z) == (x + y) + z
  {
  }

  /** A single show is deleted as its own block. */
  lemma DeleteShowsSingle(d: DeletingShow)
    ensures DeleteShows([d]) == DeleteOneShow(d)
  {
    DeleteShowsUnfold([d]);
    assert [d][1..] == [];
  }

  /** The shows are deleted one after another, each as its own block, in the order they
      were read. */
  lemma {:induction false} DeleteShowsInOrder(a: seq<DeletingShow>, b: seq<DeletingShow>)
    ensures DeleteShows(a + b) == DeleteShows(a) + DeleteShows(b)
    decreases |a|
  {
    if a == [] {
      assert a + b == b;
    } else {
      var head := DeleteOneShow(a[0]);
      assert DeleteShows(a + b) == head + DeleteShows(a[1..] + b) by {
        assert (a + b)[0] == a[0];
        assert (a + b)[1..] == a[1..] + b;
        DeleteShowsUnfold(a + b);
      }
      assert DeleteShows(a) == head + DeleteShows(a[1..]) by {
        DeleteShowsUnfold(a);
      }
      DeleteShowsInOrder(a[1..], b);
      ConcatAssoc(head, DeleteShows(a[1..]), DeleteShows(b));
    }
  }

  /** One row of `get_all_tv_shows_with_seasons`: a season with its show. Both states are
      those read before the loop. */
  datatype ShowSeasonRow = ShowSeasonRow(showId: int, showState: State, seasonId: int, seasonState: State, seasonHash: Hash)

  /** `get_season_states(show_id)`, read from the store as it is at that point of the
      loop; `owner` maps each season id to its show id. */
  function SeasonStates(m: StateStore, owner: map<int, int>, showId: int): (r: set<State>)
    ensures forall sid :: sid in owner && owner[sid] == showId && (Seasons, sid) in m ==> m[(Seasons, sid)] in r
    ensures forall st :: st in r ==> exists sid :: sid in owner && owner[sid] == showId && (Seasons, sid) in m && m[(Seasons, sid)] == st
    ensures r == {} <==> forall sid :: sid in owner && owner[sid] == showId ==> (Seasons, sid) !in m
  {
    set sid | sid in owner && owner[sid] == showId && (Seasons, sid) in m :: m[(Seasons, sid)]
  }

  /** What one season row may do: set its show's or its season's state, or address the
      season's torrent when the season is neither SEARCHING nor COMPLETED. */
  ghost predicate RowAction(a: Action, row: ShowSeasonRow) {
    || (a.Store? && a.write.SetState?
        && ((a.write.table == Shows && a.write.id == row.showId) || (a.write.table == Seasons && a.write.id == row.seasonId)))
    || (&& a.Client? && row.seasonState != Searching && row.seasonState != Completed
        && (|| a.command == Query(row.seasonHash) || a.command == Resume(row.seasonHash)
            || a.command == Stop(row.seasonHash) || a.command == Remove([row.seasonHash])))
  }

  /** The loop body for one season row: the show's state is aggregated from its seasons'
      current states, then the season is reconciled with its torrent. */
  function RowStep(row: ShowSeasonRow, m: StateStore, owner: map<int, int>, client: TorrentLookup, now: int, retention: int): (r: seq<Action>)
    ensures forall a :: a in r ==> RowAction(a, row)
  {
    var agg := AggregateWrites(row.showId, row.showState, SeasonStates(m, owner, row.showId));
    var season := ReconcileSeason(row.seasonId, row.seasonHash, row.seasonState, client(row.seasonHash), now, retention);
    assert forall a :: a in agg + season <==> a in agg || a in season;
    agg + season
  }

  /** The loop over the season rows; each row sees the store as the earlier rows left it. */
  function UpdateRows(rows: seq<ShowSeasonRow>, m: StateStore, owner: map<int, int>, client: TorrentLookup, now: int, retention: int): (r: seq<Action>)
    ensures forall a :: a in r ==> exists i :: 0 <= i < |rows| && RowAction(a, rows[i])
    decreases |rows|
  {
    if rows == [] then []
    else
      var step := RowStep(rows[0], m, owner, client, now, retention);
      var rest := UpdateRows(rows[1..], Apply(m, step), owner, client, now, retention);
      assert forall i :: 1 <= i < |rows| ==> rows[i] == rows[1..][i - 1];
      assert forall a :: a in step + rest <==> a in step || a in rest;
      step + rest
  }

  /** `update`: delete the shows marked DELETING, then run the season loop over the rows
      read afterwards. No row but a deleted show is removed. */
  function Update(deleting: seq<DeletingShow>, rows: seq<ShowSeasonRow>, m: StateStore, owner: map<int, int>, client: TorrentLookup, now: int, retention: int): (r: seq<Action>)
    ensures forall i :: 0 <= i < |deleting| ==> Store(DeleteRow(Shows, deleting[i].id)) in r
    ensures forall a :: a in r && a.Store? && a.write.DeleteRow? ==>
      a.write.table == Shows && exists i :: 0 <= i < |deleting| && a.write.id == deleting[i].id
    ensures forall a :: a in r ==> a.Store? || a.Client?
  {
    var d := DeleteShows(deleting);
    var u := UpdateRows(rows, Apply(m, d), owner, client, now, retention);
    assert forall a :: a in d + u <==> a in d || a in u;
    d + u
  }

  /** For a single season row, the show ends in the aggregate of the season states read
      before its writes: reconciling the season never touches the show row. */
  lemma {:induction false} SingleRowAggregates(row: ShowSeasonRow, m: StateStore, owner: map<int, int>, client: TorrentLookup, now: int, retention: int)
    requires (Shows, row.showId) in m && m[(Shows, row.showId)] == row.showState
    ensures var m' := Apply(m, UpdateRows([row], m, owner, client, now, retention));
      (Shows, row.showId) in m' && m'[(Shows, row.showId)] == Aggregate(row.showState, SeasonStates(m, owner, row.showId))
  {
    var s := SeasonStates(m, owner, row.showId);
    var agg := AggregateWrites(row.showId, row.showState, s);
    var season := ReconcileSeason(row.seasonId, row.seasonHash, row.seasonState, client(row.seasonHash), now, retention);
    assert [row][1..] == [];
    assert UpdateRows([row], m, owner, client, now, retention) == agg + season + [];
    assert agg + season + [] == agg + season;
    ApplyAppend(m, agg, season);
    AggregateApplied(m, row.showId, s);
    ApplyLocal(Apply(m, agg), season, (Seasons, row.seasonId));
  }
}

=== FILE: units.dfy ===
/** Unit conversions shared by the probes: megabytes to bytes, and the whole days
    between a calendar date and the current time. */
module Units {
  const BytesPerMb: int := 1024 * 1024
  const SecondsPerDay: int := 86400

  /** `value * 1024 * 1024`, the `mb_to_bytes` helper every probe defines. */
  function MbToBytes(v: int): (r: int)
    ensures r / 1048576 == v && r % 1048576 == 0
    ensures v >= 0 ==> r >= v
  {
    v * BytesPerMb
  }

  /** The conversion is injective and order-preserving, so a byte ceiling compares the
      same way its megabyte value does. */
  lemma MbToBytesMonotone(a: int, b: int)
    ensures a <= b <==> MbToBytes(a) <= MbToBytes(b)
    ensures MbToBytes(a) == MbToBytes(b) ==> a == b
  {
    assert MbToBytes(a) / 1048576 == a && MbToBytes(b) / 1048576 == b;
  }

  /** Converting a product converts one factor. */
  lemma MbToBytesScale(x: int, n: int)
    ensures MbToBytes(x) * n == MbToBytes(x * n)
  {
    assert x * 1048576 * n == x * n * 1048576;
  }

  /** `(now - date).days` for a date at midnight of day number `day` (days since the
      epoch) and `now` in seconds since the epoch: the floor of the elapsed days. */
  function ElapsedDays(now: int, day: int): (r: int)
    ensures r * 86400 <= now - day * 86400 < (r + 1) * 86400
  {
    (now - day * SecondsPerDay) / SecondsPerDay
  }

  /** Whole days elapsed never decrease as time goes on. */
  lemma {:induction false} ElapsedDaysMonotone(now: int, later: int, day: int)
    requires now <= later
    ensures ElapsedDays(now, day) <= ElapsedDays(later, day)
  {
  }
}

=== FILE: visuals.dfy ===
/** The movie form check of src/visuals/visuals.py. The check reads the submitted form
    itself and ignores the values it is handed; every one of its three checks runs and
    reports its own message. */
module Visuals {
  import opened Wrappers

  /** The submitted form. `maxSizeMb` is the form value read as an integer: None when
      it is absent or is not an integer. */
  datatype Form = Form(name: Option<string>, maxSizeMb: Option<int>, resolutions: Option<string>)

  /** The verdict and the messages flashed, in the order they were flashed. */
  datatype Validation = Validation(valid: bool, flashes: seq<string>)

  const NameMessage := "The name must have at least 3 characters"
  const SizeMessage := "The max size must be at least 1 MB!"
  const ProfileMessage := "Resolution profile not supported!"

  /** The position of a message among the three checks. */
  function Rank(message: string): int {
    if message == NameMessage then 0
    else if message == SizeMessage then 1
    else if message == ProfileMessage then 2
    else 3
  }

  function Flash(failed: bool, message: string): (r: seq<string>)
    ensures |r| <= 1 && (r != [] <==> failed) && (failed ==> r[0] == message)
  {
    if failed then [message] else []
  }

  /** `validate_movie_fields`: a missing name or resolution profile raises a key error,
      a missing or non-integer size raises when compared with 1; otherwise the input is
      valid exactly when the name has at least 3 characters, the size is at least 1 MB
      and the profile is one of the allowed ones. The parameters are not read. */
  function ValidateMovieFields(form: Form, profiles: set<string>, name: string, maxSizeMb: int, resolutions: string): (r: Result<Validation>)
    ensures r.Failure? <==> form.name.None? || form.maxSizeMb.None? || form.resolutions.None?
    ensures r.Success? ==>
      (r.value.valid <==> |form.name.value| >= 3 && form.maxSizeMb.value >= 1 && form.resolutions.value in profiles)
    ensures r.Success? ==> (r.value.valid <==> r.value.flashes == [])
    ensures r.Success? ==> (NameMessage in r.value.flashes <==> |form.name.value| < 3)
    ensures r.Success? ==> (SizeMessage in r.value.flashes <==> form.maxSizeMb.value < 1)
    ensures r.Success? ==> (ProfileMessage in r.value.flashes <==> form.resolutions.value !in profiles)
    ensures r.Success? ==> forall i, j :: 0 <= i < j < |r.value.flashes| ==> Rank(r.value.flashes[i]) < Rank(r.value.flashes[j])
  {
    if form.name.None? then Failure("KeyError: 'name'")
    else if form.maxSizeMb.None? then Failure("TypeError: '<' not supported between instances of 'NoneType' and 'int'")
    else if form.resolutions.None? then Failure("KeyError: 'resolutions'")
    else
      var nameFails := |form.name.value| < 3;
      var sizeFails := form.maxSizeMb.value < 1;
      var profileFails := form.resolutions.value !in profiles;
      var flashes := Flash(nameFails, NameMessage) + Flash(sizeFails, SizeMessage) + Flash(profileFails, ProfileMessage);
      assert Rank(NameMessage) == 0 && Rank(SizeMessage) == 1 && Rank(ProfileMessage) == 2;
      Success(Validation(!nameFails && !sizeFails && !profileFails, flashes))
  }

  /** The values handed to the check make no difference. */
  lemma ParametersIgnored(form: Form, profiles: set<string>, name: string, maxSizeMb: int, resolutions: string,
                          name': string, maxSizeMb': int, resolutions': string)
    ensures ValidateMovieFields(form, profiles, name, maxSizeMb, resolutions)
      == ValidateMovieFields(form, profiles, name', maxSizeMb', resolutions')
  {
  }

  /** The bounds are inclusive: a 3-character name and a 1 MB size pass; a 2-character
      name and a 0 MB size each fail, and both failures are reported. */
  lemma ValidationBoundaries(profiles: set<string>, p: string)
    requires p in profiles
    ensures ValidateMovieFields(Form(Some("abc"), Some(1), Some(p)), profiles, "", 0, "").value.valid
    ensures ValidateMovieFields(Form(Some("ab"), Some(0), Some(p)), profiles, "", 0, "").value
      == Validation(false, [NameMessage, SizeMessage])
  {
  }
}

=== FILE: wrappers.dfy ===
/** Optional values and results with an error message, as used throughout the model
    for Python's `None` and for exceptions raised by the store and the validators. */
module Wrappers {

  datatype Option<+T> = None | Some(value: T) {

    /** The wrapped value, or `default` when there is none. */
    function GetOr(default: T): T {
      match this
      case Some(v) => v
      case None => default
    }
  }

  /** Either a value or the message of the exception the source raises. */
  datatype Result<+T> = Success(value: T) | Failure(error: string)
}
